=== FILE: README.md ===
# studentBot order lifecycle in Dafny

studentBot is a Telegram bot that brokers students' coursework orders.
A client fills in an order form and confirms the order. The admin then either
offers the order to executors, assigns it to one directly, or takes it on
themselves. Executors send their terms: a price, a term and a comment. The
admin approves or rejects those terms, and may override the price. The client
pays and sends a proof of payment, which the admin accepts or rejects. The
executor hands in the work, and the admin approves it, sends it back for
revision or rejects it. The client accepts the work or asks for a revision.
Every order lives in one JSON list, `orders.json`, keyed by `order_id`, with
its status stored as one of twelve Russian labels.

This project models that lifecycle as pure functions over an immutable order
store.

- A handler is a function from the store and its input (callback data, typed
  text, the dialogue step) to a sequence of effects. An effect is a file
  write (`Save` of the whole new store), a notice to a recipient, or a
  spreadsheet mirror operation. The order of the effects is the order in
  which the handler performs them.
- Each multi-step dialogue (offering terms, paying, taking an order over,
  withdrawing, the order form) is a step datatype plus a step function.
  Input that the current step does not expect leaves the step unchanged.
- Python's `int()`, `str()`, `str.isdigit`, `strip`, `lower`, `split` and
  truthiness are written out explicitly. An id that is 0 or None is falsy,
  and Python skips any notice addressed to it.

The modules follow the program:

- `Text`: the string built-ins.
- `Shared`: statuses, the day-count phrase, display names.
- `Orders`: the order record, the store, lookup, id allocation, `save_or_update_order`.
- `Registry`: the executor list.
- `Menus`: the admin's and client's order keyboards.
- `Lifecycle`: cancellation, deletion, assignment, hand-in, review, client
  verdict, confirmation, export.
- `Negotiation`: offers, price override, approval, rejection.
- `ExecutorMenu`: the executor's order list and withdrawal.
- `Payment`: the payment dialogue, the admin's verdict, and the payment
  module's own withdrawal.
- `SelfTake`: the admin taking an order on themselves.
- `OrderForm`: the form's "Назад" map and the upload checks.

Every operation is paired with something it must agree with, and a lemma
connects the two for all inputs. Examples:

- the status labels with their read-back;
- `str`/`int` round trips;
- the day-word rule with an independently stated Russian plural rule;
- offers upserted with one-offer-per-executor;
- the two withdrawal paths with each other;
- the self-take walk with the handler chain;
- the written and corrected definitions under "## Findings".

## Model

| member | source | states |
|---|---|---|
| Text.Decimal | payment.py:407 | `str` of a natural number is all digits with no leading zero |
| Text.DecimalRoundTrip | payment.py:407 | the digits `str` prints read back as the same number |
| Text.Strip | main.py:1829 | the stripped text has no whitespace at either end and is a slice of the input with only whitespace around it |
| Text.Lower | main.py:2805 | lower-casing keeps the length and maps each character on its own |
| Text.FirstToken | admin_self_take.py:184 | the first word is None exactly for a blank text; otherwise it is a non-empty run without whitespace that only whitespace precedes |
| Text.ParseInt | main.py:1752 | `int` accepts a text only if it has a digit, and reads an all-digit text as its decimal value |
| Text.ParseIntDecimal | shared.py:50 | `int` reads back a printed natural number |
| Text.ParseIntMinusDecimal | shared.py:50 | `int` reads back a printed negative number |
| Text.ParseIntNegative | shared.py:50 | a minus sign before digits reads as the negated value |
| Shared.StatusOf | shared.py:8-21 | a label read back is only ever a status whose label is exactly that text |
| Shared.LabelRoundTrip | shared.py:8-21 | every one of the twelve statuses is read back from its stored label |
| Shared.LabelsDistinct | shared.py:8-21 | no two statuses share a label |
| Shared.DayWordIsRussianPlural | shared.py:53-60 | the bot's branch order picks the same form of "day" as the Russian plural rule stated independently, for every integer |
| Shared.DayWordPeriodic | shared.py:53-60 | the form of "day" depends only on the count modulo 100 |
| Shared.IntTextRoundTrip | shared.py:50 | an integer printed as text reads back as itself |
| Shared.Pluralize | shared.py:48-60 | an argument that is not a whole number is returned as its own text; a whole number n becomes n, a space and the plural form of "day" for n |
| Shared.PluralizeCountRoundTrip | shared.py:48-60 | the first word of a day phrase reads back as its count |
| Shared.FullNameAsWritten | shared.py:38-46 | the name as written is never empty and has no surrounding space |
| Shared.FullNameAsWrittenShowsNone | shared.py:38-46 | a user whose surname is None is shown as their first name followed by " None" |
| Shared.FullName | shared.py:38-46 | the display name is never empty and has no surrounding space, and it is "Без имени" when both parts are blank |
| Shared.FullNameFirstOnly | shared.py:38-46 | with only a first name the display name is exactly that name |
| Shared.FullNameBoth | shared.py:38-46 | with both names they are joined by one space |
| Shared.FullNameAgreesWithoutNone | shared.py:38-46 | the corrected name differs from the written one only when a part is None |
| Orders.FindOrder | main.py:1573-1579 | the index found holds the id and no earlier order does; None exactly when no order has the id |
| Orders.EditedKeepsFind | main.py:1573-1579 | editing one order in place, under its own id, leaves every lookup by id finding the same place |
| Orders.KeyedOrder | payment.py:149-152 | the index found is the first order whose printed id equals the callback's key; None when no order's id prints as the key |
| Orders.FirstAgrees | payment.py:149-152 | two lookups whose tests agree on every order find the same order |
| Orders.CountedCellIsDigits | main.py:3000-3001 | the blank-cell and header filters are subsumed by the digit filter: a cell is counted exactly when it is all digits |
| Orders.MirrorMax | main.py:2998-3004 | the largest id in the mirror column bounds every all-digit cell and is one of them, or 0 when none remain |
| Orders.MirrorMaxBoundsCounted | main.py:3000-3004 | every cell that survives both filters is at most the mirror maximum |
| Orders.MirrorMaxSeesDecimal | main.py:3000-3004 | a cell holding the decimal text of n makes the mirror maximum at least n |
| Orders.NextOrderId | main.py:3030-3039 | a new id is exactly one more than the larger of the last stored order's id (0 for an empty file) and the mirror maximum; so it exceeds every all-digit cell, and every stored id when the ids rise along the file |
| Orders.WithoutDrafts | main.py:3019-3022 | on confirming an order with an id and a client, exactly the draft copies of that order by that client are removed and every other order is kept, in its order; otherwise the file is unchanged |
| Orders.WithoutDraftsKeepsIds | main.py:3019-3022 | removing drafts keeps the ids rising along the file |
| Orders.SaveOrUpdate | main.py:2991-3041 | saving fails exactly when a new id is needed and the spreadsheet cannot be read; an order whose id is stored replaces that order in place and nothing else changes; otherwise it is appended under exactly the next id after the last remaining order and the mirror maximum; no draft of a confirmed order survives |
| Orders.SaveOrUpdateKeepsIds | main.py:3023-3041 | a save that succeeds keeps the ids rising along the file, so the saved id names exactly the saved order |
| Registry.IsExecutor | executor_menu.py:48-56 | a user is an executor iff the registry can be read and some entry has their id; a missing or corrupt registry says no |
| Registry.AddExecutor | main.py:387-399 | a typed id that is not all digits is refused; an id already registered writes nothing; otherwise exactly one entry with that id and the typed name is appended |
| Registry.AddKeepsIdsDistinct | main.py:395-398 | adding never registers an id twice, and the added executor is then recognised |
| Registry.DeleteExecutor | main.py:410-414 | after deleting, no entry has the id, and every other entry is kept, in its order |
| Registry.DeleteUndoesAdd | main.py:395-413 | deleting the executor just added gives back the registry as it was |
| Menus.AdminButtons | shared.py:97-136 | with the admin at work on the order: exactly submit-work, materials and back; with no order id: back only; otherwise each button appears iff its status condition holds; back is always offered |
| Menus.MainAdminButtonsAsWritten | main.py:602-647 | for work in progress or in revision: submit-work iff the admin is at work, materials iff any are attached, and nothing else but back; otherwise take-over appears only together with choose-executor, and delete only when the materials button does |
| Menus.MainCardHidesTakeOver | main.py:621-628 | for an order awaiting confirmation, the shared card offers take-over and the main module's card does not |
| Menus.MainAdminButtons | main.py:621-628 | the corrected main card differs from the written one only in take-over, which appears iff the order is under review or awaiting confirmation |
| Menus.TakeOverAgrees | shared.py:119-122 | with the fix, both cards offer take-over for exactly the same orders |
| Menus.ClientButtons | main.py:535-545 | the client may pay iff the order awaits payment, may withdraw iff it is not completed, and can always go back to the list |
| Lifecycle.UserCancel | main.py:690-730 | the file is written without exactly the caller's orders with that id, every other order kept in its order; the spreadsheet row is deleted iff the first such order was in progress; the admin is told iff one was found |
| Lifecycle.UserCancelIdempotent | main.py:706-713 | cancelling the same order again changes nothing and tells no one |
| Lifecycle.UserCancelRemovesOne | main.py:713 | with unique ids, cancelling removes exactly that one order and keeps the others in order |
| Lifecycle.CancelDraft | main.py:3112-3127 | abandoning the form removes what a cancellation of that id by the caller would; without an id in the conversation the file is rewritten unchanged |
| Lifecycle.AdminDeleteOrder | main.py:3369-3374 | the kept orders are exactly those whose printed id differs from the callback's text |
| Lifecycle.AdminDeleteById | main.py:3370-3372 | deleting by the printed id of n removes exactly the orders with id n |
| Lifecycle.Offered | main.py:1420-1421 | an offered order waits for confirmation with the executor set; nothing else changes |
| Lifecycle.Unreachable | main.py:1454-1455 | an order whose executor could not be reached is back under review with no executor; nothing else changes |
| Lifecycle.Assign | main.py:1404-1461 | a found order is assigned and saved, then the executor is messaged; a failed delivery saves the order again under review with no executor; a missing order gives no effect |
| Lifecycle.FailedAssignForgetsExecutor | main.py:1452-1457 | after a failed delivery the file does not depend on which executor was tried |
| Lifecycle.AssignByText | main.py:1482-1489 | a typed executor id is acted on iff it comes from the admin and is all digits, and then it assigns that number |
| Lifecycle.AssignByTypedId | main.py:1482-1489 | the admin typing the decimal text of n assigns executor n; the same text from anyone else is ignored |
| Lifecycle.Broadcast | main.py:3608-3649 | every registered executor with an id is messaged, then the order alone is saved as awaiting confirmation, its executor left as it was; a missing order or an empty registry gives no effect |
| Lifecycle.OfferAll | main.py:3637-3645 | one offer message goes to each registered id that is set, and to nobody else |
| Lifecycle.HandedIn | main.py:766-773 | handing in work sets the status, the work file and the day; nothing else changes |
| Lifecycle.AdminSubmitWork | main.py:753-791 | work on an order whose executor is the admin is approved and sent to the client; any other order waits for review; the file is written even when no order is found |
| Lifecycle.WithStatus | main.py:1549 | only the status changes |
| Lifecycle.AdminApproveWork | main.py:2189-2219 | only an order with handed-in work is approved, then the work goes to its client; otherwise nothing is written |
| Lifecycle.HandedInWorkCanBeApproved | main.py:2189-2219 | work handed in by the admin for an order of another executor waits for review and can then be approved, keeping the work file, and the client is told iff their id is set |
| Lifecycle.MoveTo | main.py:2283-2289 | a found order gets the new status and nothing else changes; a missing order gives nothing |
| Lifecycle.AdminRejectWork | main.py:2280-2289 | the id is read after the last '_' of the callback data; nothing is saved when `int()` fails or no order has that id, otherwise the order needs revision, whatever its status was, and nothing else changes |
| Lifecycle.ToRevise | main.py:2251-2252 | a revision sets the status and the comment; nothing else changes |
| Lifecycle.AdminRevisionComment | main.py:2241-2273 | the comment is stored, the order needs revision, and its executor is told iff one is set |
| Lifecycle.ClientRequestRevision | main.py:1541-1551 | the id is read after the last ':' of the callback data; nothing is saved when `int()` fails or no order has that id, otherwise the order needs revision, whatever its status was, and nothing else changes |
| Lifecycle.RevisionButtonsAgree | main.py:594 | the client's "client_request_revision:<id>" button and the admin's "admin_reject_work_<id>" button (main.py:938) parse back to the same order and make the same change to it |
| Lifecycle.ClientRevisionComment | main.py:1649-1714 | the client's comment is stored, the order needs revision, the admin is told, and so is the executor iff one other than the admin is set |
| Lifecycle.ClientAccept | main.py:1571-1644 | a found order is completed whatever its status was; the admin is told, and so is the executor iff one other than the admin is set |
| Lifecycle.Confirmed | main.py:3061-3062 | a confirmed order is under review and belongs to the caller; nothing else changes |
| Lifecycle.ConfirmOrder | main.py:3059-3106 | nothing is saved and no one is told exactly when saving fails for want of the spreadsheet; otherwise the confirmed order is saved as the caller's and is in the file afterwards; the admin is told first, then every configured executor id in order |
| Lifecycle.SavedOrderIsStored | main.py:3023-3041 | after saving, the order is in the file under the id it was saved with |
| Lifecycle.SaveToSheet | main.py:3518-3603 | a spreadsheet row is written iff the order the callback names is completed, and it is for that order; the order file is never written |
| Lifecycle.AcceptedWorkGoesToSheet | main.py:3525-3527 | an order the client has just accepted can be written to the spreadsheet |
| Lifecycle.OnlyCompletedIsExported | main.py:3525-3527 | an order that is not completed is never written to the spreadsheet |
| Lifecycle.ReviewHandlersKeepIds | main.py:2189-2219 | handing in, approving and accepting work rewrite the file with every order where it was and under its id |
| Lifecycle.RevisionHandlersKeepIds | main.py:2280-2289 | the four revision handlers rewrite the file with every order where it was and under its id |
| Negotiation.OfferSlot | main.py:1908-1921 | the slot found holds the executor's offer and no earlier offer is theirs; None iff none of the offers is theirs |
| Negotiation.Upsert | main.py:1907-1931 | the new offer is in the list; every other executor's offer is kept and nothing foreign is added; a returning executor's offer is replaced in place, a new executor's offer is appended at the end |
| Negotiation.UpsertKeepsOnePerExecutor | main.py:1908-1930 | sending offers never gives one executor two offers on an order |
| Negotiation.UpsertLatestWins | main.py:1910-1921 | an executor who sends terms twice ends up with only the later terms, as if the earlier had never been sent |
| Text.AfterLast | main.py:1775 | `split(sep)[-1]`: a suffix of the text with no separator in it, preceded by the separator unless it is the whole text; with '/' it is the base name taken at main.py:2805 |
| Negotiation.AfterFirstUnderscore | main.py:1803 | the text after the first underscore, a suffix of the data; all but the first character when the data starts with an underscore |
| Negotiation.AfterFirstUnderscoreOfPrefixed | main.py:1803 | splitting once on the underscore after a prefix without underscores gives back exactly the text after it |
| Negotiation.OfferStepOn | main.py:1751-1889 | accepting an existing order asks for a price; a price must be all digits or come from a price button other than manual; a deadline button other than manual or any typed deadline moves on to the comment; the confirmation card keeps the order, price and deadline chosen before |
| Negotiation.DeadlinePickKeepsTerm | main.py:1798-1805 | a deadline button other than manual carries its whole term, underscores included, into the comment step |
| Negotiation.DeadlineCallback | main.py:1800-1803 | a deadline button's data starts with its prefix, gives back its term, and differs from the manual button unless the term is "manual" |
| Negotiation.OfferFrom | main.py:1912-1919 | the offer carries the sender's id and the confirmed price, deadline and comment, with no admin price yet |
| Negotiation.SendOffer | main.py:1895-1935 | the file is written even when the order is missing; a found order awaits confirmation and carries the new offer, keeps every other executor's offer, and changes in nothing else; then the admin is told |
| Negotiation.WithAdminPrice | main.py:1990-2005 | the admin's price goes on the first offer only; the other offers and the rest of the order are kept |
| Negotiation.PriceOnFirstOffer | main.py:1990-2025 | an order with no offers or whose first offer's price is not a number is refused; otherwise the admin price is stored and the total is the admin's price, or the executor's price when the admin typed 0 |
| Negotiation.ReviewPrice | main.py:1972-2025 | a typed price is refused iff it is not all digits; a missing order is written back unchanged with no executor price; otherwise the price goes on the order's first offer |
| Negotiation.OfferThenPriceReview | main.py:1990-2025 | after the first offer on an order, the admin's typed price goes on that offer, and the total is that price, or the executor's when the admin typed 0 |
| Negotiation.Approved | main.py:2054-2071 | the order awaits payment at the approved price; picking an executor's offer clears the offers and assigns the executor iff they had an offer; without a pick the offers and executor are kept |
| Negotiation.ApprovalNoticeAsWritten | main.py:2104-2111 | at most one approval notice, and none when the approved order has no offers left |
| Negotiation.ApproveOfferAsWritten | main.py:2047-2111 | a missing order gives nothing; a found order is first saved as approved |
| Negotiation.ChosenExecutorNotToldAsWritten | main.py:2059-2108 | when the admin picks an executor's offer, that executor is never sent the approval notice |
| Negotiation.ApprovalNotice | main.py:2103-2111 | at most one approval notice; when the admin picked an executor's offer it goes to that executor iff their id is set |
| Negotiation.ApproveOffer | main.py:2047-2111 | a missing order gives nothing; a found order alone changes, awaiting payment at the approved price; the client is asked to pay iff their id is set; a picked executor is told; the saved store is the one the written handler saves |
| Negotiation.RejectionTarget | main.py:2138-2145 | an executor named in the callback is the one told of the rejection; otherwise the first offer's executor; nobody exactly when no executor is named and the order has no offers |
| Negotiation.Rejected | main.py:2163-2180 | the order is back under review with no executor; an executor named in the callback loses exactly their own offers and the others are kept; the offers field is gone when none remain or no executor was named |
| Negotiation.RejectOffer | main.py:2119-2184 | a missing order gives nothing; otherwise the executor named in the callback, else the first offer's, is told first iff there is one with a non-zero id, and the file is written last with the order alone changed as the rejection makes it: under review with no executor, a named executor's offers removed and the rest kept, all offers removed when none is named |
| Negotiation.SentThenRejectedLeavesNoOffer | main.py:2163-2180 | rejecting an executor who has just sent terms tells that executor first and leaves no offer of theirs on the order |
| ExecutorMenu.Listing | executor_menu.py:92-105 | the listed orders are exactly the orders that are the user's in a visible status, or that await confirmation while the user is a registered executor, in the file's order |
| ExecutorMenu.ExecutorOrders | executor_menu.py:84-105 | the handler fails exactly on a JSON value that is not a list and has something to iterate over; any other unreadable file lists nothing; otherwise the listed orders are exactly those the visibility rule admits |
| ExecutorMenu.UnreadableFilesListNothing | executor_menu.py:84-91 | a missing, empty, unparseable or empty non-list order file lists nothing; with no readable registry the user is no executor and sees only orders assigned to them |
| ExecutorMenu.BroadcastReachesExecutors | executor_menu.py:98-104 | after an order is offered to all, every registered executor finds it in their list |
| ExecutorMenu.OfferedToAllSeenByExecutors | executor_menu.py:48-56 | for an order awaiting confirmation that is not assigned to the user, it is listed for them iff the registry check says they are an executor |
| ExecutorMenu.Released | executor_menu.py:427-429 | a released order is under review with no executor and no offers; nothing else changes |
| ExecutorMenu.ReleasedIsUnlisted | executor_menu.py:93-104 | a released order is listed for no one |
| ExecutorMenu.OwnOrder | executor_menu.py:406 | the order found has both the id and the caller as executor, and no earlier one does; None iff there is none |
| ExecutorMenu.RefuseStart | executor_menu.py:394-432 | a non-numeric id is refused; an order that is not the caller's is not found; the caller's order in progress starts the confirmation dialogue without writing; any other of the caller's orders is released and the admin told |
| ExecutorMenu.RefuseTouchesOnlyOwnOrder | executor_menu.py:405-432 | refusing changes only one order, and that order has the caller as executor |
| ExecutorMenu.ReasonAt | executor_menu.py:476 | a reason index is usable iff Python's list indexing accepts it, negative indices included |
| ExecutorMenu.OnlyLastReasonAsksForText | executor_menu.py:480 | among the reasons, only the last one (index 3 or -1) asks for the executor's own text |
| ExecutorMenu.PickedReason | executor_menu.py:473-476 | a reason button picks a reason iff both of its numbers parse and the index exists |
| ExecutorMenu.CancelDialogue | executor_menu.py:447-531 | confirming leads to the reasons; the last reason asks for text and any other reason leads to the comment; a comment or a skip finishes the withdrawal; aborting ends the dialogue; any other input changes nothing |
| ExecutorMenu.FinishWithdrawal | executor_menu.py:534-555 | the order with the id is released and the admin told; a missing order writes nothing |
| ExecutorMenu.ConfirmedDialogueFinishes | executor_menu.py:447-529 | confirming, picking the first reason and typing a comment finishes the withdrawal of that order |
| ExecutorMenu.FirstReasonButton | executor_menu.py:473-487 | button 0 picks the first reason, which goes to the comment step |
| ExecutorMenu.FinishMatchesRefusal | executor_menu.py:413-432 | when ids are unique, a withdrawal confirmed through the dialogue releases the same order as an immediate refusal would |
| ExecutorMenu.SendWork | executor_menu.py:350-376 | the order goes for review with the work file and the day, and the admin is told; the file is written even when no order matched |
| ExecutorMenu.SentWorkCanBeApproved | executor_menu.py:350-376 | work the executor sends stays in their list and can then be approved by the admin, keeping the work file |
| ExecutorMenu.RevisionIsListedForExecutor | executor_menu.py:38-44 | an order sent back for revision by the admin or the client stays in its executor's list with the comment on it |
| Payment.AmountText | payment.py:92 | a whole-number price prints as text that reads back as that number; a price kept as text prints as itself |
| Payment.ShownPrice | payment.py:92 | the client is shown the final price when it is truthy, else the older single offer's price, else a dash |
| Payment.ApprovedPriceIsShown | payment.py:92 | after the admin approves a non-zero price, the payment message asks for exactly that price |
| Payment.ApprovedZeroFallsBack | payment.py:92 | an approved price of 0 is falsy, so the client is shown the older offer's price or a dash instead |
| Payment.PaymentFlow | payment.py:84-142 | only cancelling writes the file; a payment opens only for a parsed id of a stored order; the proof step is reached only by pressing paid on an open payment; a proof reaches the admin iff it is a photo or document sent at the proof step for a stored order; cancelling with a parsed id does what the cancel handler does |
| Payment.ProofNeedsPayAndPaid | payment.py:84-142 | pay then paid leads to the proof step, where a photo or document reaches the admin; skipping the paid step sends nothing |
| Payment.CancelPayment | payment.py:307-342 | a stored order goes back to awaiting confirmation, nothing else changes and its executor stays; the admin is told last in every case |
| Payment.AcceptPayment | payment.py:145-237 | a missing order gives nothing; otherwise the order alone goes into work, is saved, then handed to the spreadsheet export; the client is told iff their id is set, an assigned executor is told the work is paid iff their id is non-zero, and no one else is told |
| Payment.PickedOfferWritesNoRow | shared.py:273-314 | after the admin approves an executor's offer, which removes the offers, and the payment is accepted, the export is attempted but its row cannot be built, unless the order is the admin's |
| Payment.PaidNotices | payment.py:160-237 | no file write; the client is told first iff their id is set, an assigned executor is told the work is paid iff their id is non-zero, and no one else is told |
| Payment.RejectPayment | payment.py:284-304 | a missing order gives nothing; otherwise the order alone waits for payment again, the file is written first, and the client is told iff their id is set |
| Payment.RejectedPaymentCanBeRetried | payment.py:84-106 | after a rejected payment the order awaits payment again and pressing pay opens a payment for it |
| Payment.PayButtonFollowsPayment | main.py:535-545 | the pay button appears once the terms are approved and opens a payment; it is gone once the payment is accepted, back once it is rejected, and after a cancelled payment it is gone while withdrawing is still offered |
| Payment.PickDialogue | payment.py:352-400 | refusing starts over from any step; a fixed reason finishes at once for the order named in the button; the last reason asks for text, and text or a skip finishes with the reason "Другое" for the remembered order; only those steps write anything |
| Payment.RefusalContinuesHere | payment.py:363-366 | when the executor module's refusal asks to confirm giving up work in progress, the confirm button it shows moves this module's dialogue on to the reasons for the same order |
| Payment.WithdrawnFor | payment.py:406-412 | the order is under review, unassigned and without its single offer, and keeps the reason and comment; nothing else changes |
| Payment.PaymentFinish | payment.py:402-457 | the order whose printed id matches is withdrawn and nothing else changes; the file is written and the admin told even when nothing matched |
| Orders.KeyedByPrintedId | payment.py:407 | comparing printed ids finds exactly the order a comparison of ids would |
| Orders.SameText | payment.py:407 | two ids print alike iff they are equal |
| Payment.WithdrawalsAgree | payment.py:402-417 | this module's withdrawal and the executor module's both leave the order under review, unassigned and listed for no executor; only the executor module's clears the offers |
| SelfTake.TermOf | admin_self_take.py:54 | splitting twice on underscores keeps the rest of the data, no longer than it |
| SelfTake.TermOfButton | admin_self_take.py:52-55 | a term button gives back its whole term after "admin_deadline_", underscores in it included |
| SelfTake.TakeFlow | admin_self_take.py:19-231 | only the admin can start, from any step, with the id read after the last underscore; a typed price must be all digits; a skipped comment is stored as "нету"; going back from the term returns to the price of the same order; only sending from the review step has effects, and they are the send handler's |
| SelfTake.DueOf | admin_self_take.py:173-187 | an all-digit term counts that many days from today; any other term counts days from today exactly when its first word reads as an integer, and then that many; otherwise the client's own date stays |
| SelfTake.DueDay | admin_self_take.py:173-189 | days from today give the date that many days after today; otherwise the client's own date, possibly none |
| SelfTake.TermDays | admin_self_take.py:184 | a blank term gives no days; otherwise the days are what `int` makes of the first word, and none when `int` refuses it |
| SelfTake.NoBreakSpaceTermDays | admin_self_take.py:184 | a term whose number is followed by a no-break space still reads as that number of days |
| SelfTake.UntilDeadlineHasNoDigit | admin_self_take.py:180 | the term "До дедлайна" has no digit in it |
| SelfTake.NoDigitNoDays | admin_self_take.py:183-187 | a term without a digit never gives a number of days |
| SelfTake.PluralTermShape | admin_self_take.py:174-182 | a term the bot words as "<n> <day word>" is neither all digits nor "До дедлайна" |
| SelfTake.DueOfPluralTerm | admin_self_take.py:182-185 | such a term is read back as exactly n days from today |
| SelfTake.PluralTermDays | admin_self_take.py:184 | the first word of "<n> <day word>" reads back as n |
| SelfTake.DueOfUntilDeadline | admin_self_take.py:180-187 | "До дедлайна" keeps the client's own date, whether or not there is one |
| SelfTake.SelfTaken | admin_self_take.py:167-191 | the order is the admin's, waits for payment at the typed price with the typed term, its due date follows the term, and it keeps the admin's name and comment; nothing else changes |
| SelfTake.SendToPay | admin_self_take.py:152-213 | a missing order gives nothing; otherwise the order alone is taken over and saved, then the client is asked to pay iff their id is set |
| SelfTake.SelfTakenPriceIsShown | admin_self_take.py:169 | a non-empty price the admin gave is exactly the sum the client is asked to pay |
| SelfTake.ButtonWalk | admin_self_take.py:19-213 | taking over, a price button, a term button, skipping the comment and sending ends in the send handler's effects for those button values |
| SelfTake.ReviewSteps | admin_self_take.py:110-213 | skipping the comment reaches the review step, and sending from it has the send handler's effects |
| SelfTake.StartStep | admin_self_take.py:19-25 | the admin's take-over button for an order starts the dialogue for that order |
| SelfTake.PriceStep | admin_self_take.py:30-34 | a price button moves on to the term with that price |
| SelfTake.TermStep | admin_self_take.py:52-56 | a term button moves on to the comment with that term |
| SelfTake.StartButtonParses | admin_self_take.py:23 | the id read from a take-over button is the id printed into it |
| SelfTake.PriceButtonPayload | admin_self_take.py:32 | the price read from a price button is the number printed into it |
| Text.AfterLastOfSeparated | admin_self_take.py:23 | a text without the separator, written after a prefix that ends in it, is exactly what the last split field gives back |
| SelfTake.SelfTakenThenPaidCanBeSubmitted | admin_self_take.py:167-168 | after the admin takes an order and the payment is accepted, the order is in work with the admin as executor and the admin's card offers to hand the work in |
| OrderForm.Index | main.py:118-134 | each of the sixteen form steps has its place in the declaration |
| OrderForm.Back | main.py:3222-3240 | "Назад" always leads to an earlier step, and abandons the form exactly from the group, teacher, gradebook and subject steps |
| OrderForm.BackLandsOnGroupOrLater | main.py:3222-3234 | going back never lands on a step that has no way back, except the first question |
| OrderForm.BackPath | main.py:3222-3240 | pressing "Назад" over and over from any step abandons the form within as many presses as the step's place |
| OrderForm.BackPathDescends | main.py:3222-3234 | every press of "Назад" reaches a strictly earlier step |
| OrderForm.BackFromConfirmation | main.py:3222-3234 | from the confirmation, "Назад" walks back through the comments, deadline, example, task, guidelines, work type, university and group steps, skipping the teacher, gradebook and subject questions |
| OrderForm.LastDot | main.py:2805 | the position found holds a '.' with none after it; None iff the text has no '.' |
| Text.AfterLastOfSuffix | main.py:2805 | appending text without the separator extends the last field by that text, so a file name's extension stays in its base name |
| OrderForm.ExtensionOf | main.py:2805 | a file named "<base>.<ext>" has the extension ext in lower case |
| OrderForm.HiddenFileHasNoExtension | main.py:2805 | a file named ".<ext>" has no extension at all |
| OrderForm.CheckUpload | main.py:2801-2819 | a file is taken iff it is at most 15 MB and, for a document, its extension is allowed; a document with another extension is refused for its type before its size is looked at; a taken file keeps its id and kind |
| OrderForm.NamedDocumentVerdict | main.py:2804-2812 | a document "<base>.<ext>" within the size limit is taken exactly when ext in lower case is pdf, docx, png, jpeg or jpg |
| OrderForm.HiddenFileRefused | main.py:2804-2808 | a document called ".pdf" (or "." with any extension) is refused for its type |
| OrderForm.UploadStep | main.py:2801-2882 | a refused file, or a text at the guidelines or example step, changes nothing; a taken file is stored in its step's slot and the form moves on; a text at the task step is the task and clears any task file |
| OrderForm.BackAfterUpload | main.py:2820-2882 | after a taken guidelines or example file "Назад" returns to the question before the upload; after the task it returns to the task step |

## Left out

- Telegram I/O. Message texts, edits and deletions, HTML layout, button rows and button order are not modelled. A notice is a recipient plus a kind. A keyboard is the set of its buttons.
- Exceptions raised when a notice cannot be delivered. These are modelled only where the handler catches them and changes state: a failed assignment. Elsewhere an uncaught failure would skip the later notices, and the model does not show that.
- Google Sheets. Only the append and delete of a mirror row appear, as effects. They are attempts: an append the export cannot complete writes nothing and reports nothing (see `Payment.AcceptPayment` below). The row contents and the API are left out. The id column `get_max_order_id_from_gsheet` reads is passed in as a parameter, None when the read fails. That read is not guarded (main.py:2991-2997), so a failure there makes saving a new order raise, and the model saves nothing and tells no one.
- The SQLite profile database, the users file with its `.lock` file, the QR code and the payment URL. None of them decides an order's state.
- File reads. `orders.json` and `executors.json` are passed in as what they parse to: missing, empty, unparseable, a JSON value that is not a list (with whether iterating it yields nothing), or a list. Writes are `Save` effects.
- Registry.IsExecutor: a registry file holding JSON that is not a list is read as no executors; `get_executors_list` has no list check, so the source would fail on some such files instead.
- Concurrency. Each handler runs as one atomic step. Two handlers interleaving their read-modify-write of `orders.json` is not modelled.
- The clock. `datetime.now()` is a day number `today` supplied by the caller. The `%d.%m.%Y` formatting of dates is left out.
- Date validation. The `strptime` check on a client's deadline is not modelled; the parsed date is an optional day number on the order.
- Floating point. The profit shown to the admin and the prices in the spreadsheet row are computed with floats (main.py:1140-1155, 1599-1611, 3567). None of them changes an order.
- Display-only handlers. The order detail views, the order lists' texts, the broadcast of text to clients, profile editing and the help and contact menus only show or relay text.
- A second registration of the executor's comment and skip handlers (main.py:1942-1956). The first registration at 1820-1889 always matches first, so the second never runs.
- Two routers handle the same withdrawal. `payment_router` is included before `executor_menu_router` (main.py:93-94), and both define an `ExecutorCancelOrder` group with the same state names. The refuse buttons on the order cards, the offers and the executor's lists send `executor_refuse_<id>` or `executor_refuse_work_<id>` (main.py:467, 476, 1437, 1528, 3443, 3633; executor_menu.py:170, 289); payment.py's handler matches only `executor_refuse_work:<id>` (payment.py:55, 226), so those reach `ExecutorMenu.RefuseStart` (executor_menu.py:394). When it asks for confirmation, the confirm, reason, typed reason and skip that follow are handled by payment.py:363-400 (`Payment.PickDialogue`, joined by `Payment.RefusalContinuesHere`); only the abort at executor_menu.py:464 runs in executor_menu.py, and its comment step and finish (executor_menu.py:516-568) never run. `ExecutorMenu.CancelDialogue`, `ExecutorMenu.ConfirmedDialogueFinishes` and `ExecutorMenu.FinishMatchesRefusal` model that unreached part as written.
- The in-progress branches at main.py:632-635 and 644-645. The early return at 606-615 makes them unreachable.
- A document without a file name. `os.path.splitext(None)` raises; the model's file names are strings.
- The dictionary form of `executor_offers`. `admin_final_approve` creates it and deletes it again before the file is written, so no stored order has it. The dictionary branches of the price override and the rejection are left out.
- Text.ParseInt: does not accept what Python's `int` accepts beyond ASCII: non-ASCII digits, and underscores between digits. Every text the bot parses has either been split on "_" or passed `isdigit` first.
- Text.IsDigits: models `str.isdigit` on ASCII digits only.
- Text.Lower: lowers ASCII and Cyrillic letters only, one character to one; Python's `str.lower` lowers every cased letter and can lengthen a text ('İ' becomes two characters). The bot lowers only file extensions and the spreadsheet header cell.
- Payment.AcceptPayment: `MirrorAppend` is the call to `save_order_to_gsheets`, not a written row. That export binds the due date only when the executor is the admin or still has an offer on the order (shared.py:273-285); otherwise building the row raises `UnboundLocalError`, and a non-numeric final or offer price makes `float` raise (shared.py:290). The `except` at shared.py:313-314 only prints, so no row is written and nothing else changes. After `Negotiation.ApproveOffer` picks an offer the offers are gone, so this is the usual path (`Payment.PickedOfferWritesNoRow`); `Payment.SheetRowBound` states when the row can be built, and the price conversion is not modelled.
- SelfTake.SendToPay: a term whose number of days takes the date past what `timedelta` or `date` allow raises `OverflowError`, which admin_self_take.py:177 and 185 do not catch, so nothing is saved; the model's day numbers are unbounded and it always saves.
- SelfTake.TermOf: states only a length bound. Its meaning on term buttons is what `SelfTake.TermOfButton` states.
- Negotiation.ApprovalNoticeAsWritten: states only that there is at most one notice, and none once the offers are gone. That second fact is what `Negotiation.ChosenExecutorNotToldAsWritten` needs.

## Findings

| source | as written | input that shows it | evidently intended | confidence | as-written member | corrected member |
|---|---|---|---|---|---|---|
| shared.py:38-46 | `f"{first} {last}"` renders a `last_name` of None as the word "None" | a Telegram user with first name "Ivan" and no last name (`last_name` is None) is shown as "Ivan None" | a missing surname counts as empty, as main.py:2600 does with `or ""`, so the user is shown as "Ivan" | not executed | Shared.FullNameAsWritten, Shared.FullNameAsWrittenShowsNone | Shared.FullName, Shared.FullNameFirstOnly |
| main.py:2059-2111 | the chosen offer is deleted (2070-2071) before the approval notice looks up its executor in `executor_offers` (2104-2107), so the lookup finds nothing | order 5 with one offer from executor 7; callback `final_approve_5_1000_7`: the client is asked to pay and executor 7 hears nothing | the comment at 2103 says only the chosen executor is told, so executor 7 is told | not executed | Negotiation.ApproveOfferAsWritten, Negotiation.ChosenExecutorNotToldAsWritten | Negotiation.ApproveOffer, Negotiation.ApprovalNotice |
| main.py:621-628 | the take-over button is nested under `status == "Рассматривается" and not executor_is_admin`, so its own test for "Ожидает подтверждения" can never hold | an order awaiting confirmation, shown on main's admin card: no take-over button | take-over for orders under review or awaiting confirmation, as the redundant inner test and shared.py:119-122 show | not executed | Menus.MainAdminButtonsAsWritten, Menus.MainCardHidesTakeOver | Menus.MainAdminButtons, Menus.TakeOverAgrees |

=== FILE: executor_menu.dfy ===
/**
 * The executor's side of an order: which orders an executor sees, giving
 * an order up (at once, or through a confirm / reason / comment dialogue
 * for work already in progress), and handing in finished work.
 */
module ExecutorMenu {
  import opened Text
  import opened Shared
  import opened Orders
  import opened Registry
  import opened Negotiation
  import Lifecycle

  // ----- the executor's order list -----

  /** The statuses an assigned executor sees their order in. */
  const VisibleStatuses: set<Status> :=
    {AwaitingConfirmation, InProgress, Completed, Submitted, NeedsRevision, ApprovedByAdmin, AwaitingPayment}

  /**
   * Whether an order is listed for `u`: it is theirs and in a visible
   * status, or it waits for confirmation and `u` is a registered executor
   * (an order offered to everyone).
   */
  predicate ListedFor(o: Order, u: int, entries: seq<Executor>) {
    (o.executorId == Some(u) && o.status in VisibleStatuses)
    || (o.status == AwaitingConfirmation && Registered(entries, u))
  }

  /** The scan of `get_executor_orders`, with its two branches in their order. */
  function Listing(orders: Store, u: int, entries: seq<Executor>): (r: Store)
    ensures forall k | 0 <= k < |r| :: r[k] in orders && ListedFor(r[k], u, entries)
    ensures forall i | 0 <= i < |orders| && ListedFor(orders[i], u, entries) :: orders[i] in r
    ensures IsSubsequence(r, orders)
  {
    if orders == [] then []
    else
      var o := orders[0];
      var rest := Listing(orders[1..], u, entries);
      assert forall i | 1 <= i < |orders| :: orders[i] == orders[1..][i - 1];
      assert ([o] + rest)[1..] == rest;
      if o.executorId == Some(u) && o.status in VisibleStatuses then [o] + rest
      else if o.status == AwaitingConfirmation then
        if First(entries, (e: Executor) => e.id == u).Some? then [o] + rest
        else
          assert !Registered(entries, u) by {
            assert forall j | 0 <= j < |entries| :: entries[j].id != u;
          }
          rest
      else rest
  }

  /**
   * `get_executor_orders`: the orders listed for `u`. A missing or
   * unparseable order file lists nothing, and the registry is read as
   * `get_executors_list` reads it. The file is not checked to be a list:
   * JSON of another kind that has items (or cannot be iterated) makes the
   * loop raise, which is None.
   */
  function ExecutorOrders(f: StoreFile, u: int, registry: RegistryFile): (r: Option<Store>)
    ensures r.None? <==> f == NotAList(false)
    ensures r.Some? ==> forall k | 0 <= k < |r.value| :: r.value[k] in ReadOrders(f) && ListedFor(r.value[k], u, Entries(registry))
    ensures r.Some? ==> forall i | 0 <= i < |ReadOrders(f)| && ListedFor(ReadOrders(f)[i], u, Entries(registry)) ::
              ReadOrders(f)[i] in r.value
  {
    if f == NotAList(false) then None
    else Some(Listing(ReadOrders(f), u, Entries(registry)))
  }

  /**
   * A file the bot cannot read shows nobody anything: an unreadable order
   * file lists no order, and with an unreadable registry nobody is an
   * executor and only orders assigned to `u` by id are listed for them.
   */
  lemma UnreadableFilesListNothing(f: StoreFile, registry: RegistryFile, u: int)
    ensures !f.OrderList? && f != NotAList(false) ==> ExecutorOrders(f, u, registry) == Some([])
    ensures !registry.Listed? ==> !IsExecutor(registry, u)
    ensures !registry.Listed? && ExecutorOrders(f, u, registry).Some? ==>
              forall k | 0 <= k < |ExecutorOrders(f, u, registry).value| ::
                ExecutorOrders(f, u, registry).value[k].executorId == Some(u)
  {
  }

  /** After a broadcast every registered executor finds the order in their list. */
  lemma BroadcastReachesExecutors(s: Store, orderId: int, registry: RegistryFile, u: int)
    requires FindOrder(s, orderId).Some? && Entries(registry) != []
    requires Registered(Entries(registry), u)
    ensures var r := Lifecycle.Broadcast(s, orderId, registry);
            var t := r[|r| - 1].store;
            t[FindOrder(s, orderId).value] in ExecutorOrders(OrderList(t), u, registry).value
  {
  }

  /** `is_executor` and the list agree on who counts as registered. */
  lemma OfferedToAllSeenByExecutors(o: Order, u: int, registry: RegistryFile)
    requires o.status == AwaitingConfirmation
    ensures IsExecutor(registry, u) ==> ListedFor(o, u, Entries(registry))
    ensures o.executorId != Some(u) ==> (ListedFor(o, u, Entries(registry)) <==> IsExecutor(registry, u))
  {
  }

  // ----- giving an order up -----

  /** The order handed back: under review, no executor, no offers. */
  function Released(o: Order): (a: Order)
    ensures SameExcept(o, a, {FStatus, FExecutor, FOffers})
    ensures a.status == UnderReview && a.executorId.None? && a.offers.None?
  {
    o.(status := UnderReview, executorId := None, offers := None)
  }

  /** A released order is listed for nobody. */
  lemma ReleasedIsUnlisted(o: Order, u: int, entries: seq<Executor>)
    ensures !ListedFor(Released(o), u, entries)
  {
  }

  datatype Refusal =
    | BadId                          // the callback's last segment is not a number
    | NotYours                       // no order with that id has the caller as executor
    | ConfirmFirst(orderId: int)     // work in progress: the confirm dialogue starts
    | Withdrawn(effects: seq<Effect>)

  /** The caller's own order with this id. */
  predicate AssignedTo(o: Order, orderId: int, caller: int) {
    o.orderId == orderId && o.executorId == Some(caller)
  }

  /** The first order with this id that has `caller` as executor. */
  function OwnOrder(s: Store, orderId: int, caller: int): (r: Option<nat>)
    ensures r.Some? ==> r.value < |s| && AssignedTo(s[r.value], orderId, caller)
    ensures r.Some? ==> forall j | 0 <= j < r.value :: !AssignedTo(s[j], orderId, caller)
    ensures r.None? <==> forall j | 0 <= j < |s| :: !AssignedTo(s[j], orderId, caller)
  {
    First(s, (o: Order) => AssignedTo(o, orderId, caller))
  }

  /**
   * `executor_refuse_start`: the order must have the given id and the
   * caller as executor. Work in progress needs confirmation first; any
   * other order is released at once and the admin told.
   */
  function RefuseStart(s: Store, data: string, caller: int): (r: Refusal)
    ensures r.BadId? <==> !IsDigits(AfterLast(data, '_'))
    ensures IsDigits(AfterLast(data, '_')) ==>
              var k := OwnOrder(s, DigitsValue(AfterLast(data, '_')), caller);
              && (r.NotYours? <==> k.None?)
              && (r.ConfirmFirst? <==> k.Some? && s[k.value].status == InProgress)
              && (r.ConfirmFirst? ==> r.orderId == DigitsValue(AfterLast(data, '_')))
              && (r.Withdrawn? ==>
                    k.Some? && r.effects == [Save(s[k.value := Released(s[k.value])]), Notify(Admin, ExecutorWithdrew)])
  {
    var text := AfterLast(data, '_');
    if !IsDigits(text) then BadId
    else
      var id := DigitsValue(text);
      match OwnOrder(s, id, caller)
      case None => NotYours
      case Some(i) =>
        if s[i].status == InProgress then ConfirmFirst(id)
        else Withdrawn([Save(s[i := Released(s[i])]), Notify(Admin, ExecutorWithdrew)])
  }

  /** Giving an order up never touches another order or another executor's order. */
  lemma RefuseTouchesOnlyOwnOrder(s: Store, data: string, caller: int)
    requires RefuseStart(s, data, caller).Withdrawn?
    ensures var t := RefuseStart(s, data, caller).effects[0].store;
            |t| == |s|
            && (forall j | 0 <= j < |s| && t[j] != s[j] :: s[j].executorId == Some(caller))
            && exists i | 0 <= i < |s| :: t[i] == Released(s[i]) && s[i].executorId == Some(caller)
  {
    var i := OwnOrder(s, DigitsValue(AfterLast(data, '_')), caller).value;
    assert RefuseStart(s, data, caller).effects[0].store[i] == Released(s[i]);
  }

  // ----- the reason dialogue -----

  /** The fixed reasons an executor can pick from; the last one asks for their own text. */
  const Reasons: seq<string> := ["Не успею до дедлайна", "Передумал", "Сложная тема", "Другое (ввести вручную)"]

  /** `Reasons[k]` with Python's negative indexing; None is the IndexError. */
  function ReasonAt(k: int): (r: Option<string>)
    ensures r.Some? <==> -|Reasons| <= k < |Reasons|
    ensures r.Some? ==> r.value in Reasons
  {
    if 0 <= k < |Reasons| then Some(Reasons[k])
    else if -|Reasons| <= k < 0 then Some(Reasons[k + |Reasons|])
    else None
  }

  /** A reason that asks the executor to type their own. */
  predicate AsksForText(reason: string) {
    "Другое" <= reason
  }

  /**
   * Only the last entry, index 3 or -1, asks for text: a fact about the
   * fixed reason table. Like the rest of this dialogue, the bot never
   * reaches it, because the payment module's dialogue of the same name
   * handles the reasons first.
   */
  lemma OnlyLastReasonAsksForText(k: int)
    requires ReasonAt(k).Some?
    ensures AsksForText(ReasonAt(k).value) <==> k == 3 || k == -1
  {
    assert Reasons[0][0] == 'Н' && Reasons[1][0] == 'П' && Reasons[2][0] == 'С';
    assert "Другое"[0] == 'Д';
    assert "Другое" == Reasons[3][..6];
  }

  /** Where an executor is in giving up work in progress. */
  datatype CancelStep =
    | Idle
    | ConfirmStep(orderId: int)
    | ReasonStep(orderId: int)
    | CustomReasonStep(orderId: int)
    | CommentStep(orderId: int, reason: string)

  datatype CancelInput =
    | ConfirmPressed(idText: string)          // "executor_cancel_confirm:<id>"
    | AbortPressed(idText: string)            // "executor_cancel_abort:<id>"
    | ReasonPicked(idText: string, indexText: string)  // "executor_cancel_reason:<id>:<index>"
    | Typed(text: string)
    | SkipPressed

  /** A step of the dialogue and what it did. */
  datatype Moved = Moved(step: CancelStep, effects: seq<Effect>)

  /** The reason picked by a reason button, when both its numbers parse and the index exists. */
  function PickedReason(idText: string, indexText: string): (r: Option<string>)
    ensures r.Some? <==>
              ParseInt(idText).Some? && ParseInt(indexText).Some? && ReasonAt(ParseInt(indexText).value).Some?
    ensures r.Some? ==> r == ReasonAt(ParseInt(indexText).value)
  {
    if ParseInt(idText).None? then None
    else match ParseInt(indexText)
      case None => None
      case Some(k) => ReasonAt(k)
  }

  /**
   * The executor module's dialogue: confirm, pick a reason (the last one
   * asks for typed text), then comment or skip, which finishes the
   * withdrawal. Input the current step does not expect changes nothing.
   */
  function CancelDialogue(s: Store, step: CancelStep, input: CancelInput): (r: Moved)
    ensures r.effects != [] ==> step.CommentStep? && r.step.Idle?
    ensures step.CommentStep? && (input.Typed? || input.SkipPressed?) ==>
              r == Moved(Idle, FinishWithdrawal(s, Some(step.orderId)))
    ensures step.ReasonStep? && input.ReasonPicked? && PickedReason(input.idText, input.indexText).Some? ==>
              var reason := PickedReason(input.idText, input.indexText).value;
              r.step == (if AsksForText(reason) then CustomReasonStep(step.orderId) else CommentStep(step.orderId, reason))
    ensures step.CustomReasonStep? && input.Typed? ==> r.step == CommentStep(step.orderId, input.text)
    ensures step.ConfirmStep? && input.AbortPressed? ==>
              r.step == (if ParseInt(input.idText).Some? then Idle else step)
    ensures r.step != step ==> r.step.Idle? || (!step.Idle? && r.step.orderId == step.orderId)
  {
    match step
    case Idle => Moved(step, [])
    case ConfirmStep(id) =>
      (match input
       case ConfirmPressed(t) => if ParseInt(t).Some? then Moved(ReasonStep(id), []) else Moved(step, [])
       case AbortPressed(t) => if ParseInt(t).Some? then Moved(Idle, []) else Moved(step, [])
       case _ => Moved(step, []))
    case ReasonStep(id) =>
      (match input
       case ReasonPicked(t, k) =>
         (match PickedReason(t, k)
          case None => Moved(step, [])
          case Some(reason) =>
            Moved(if AsksForText(reason) then CustomReasonStep(id) else CommentStep(id, reason), []))
       case _ => Moved(step, []))
    case CustomReasonStep(id) =>
      (match input
       case Typed(text) => Moved(CommentStep(id, text), [])
       case _ => Moved(step, []))
    case CommentStep(id, reason) =>
      (match input
       case Typed(_) => Moved(Idle, FinishWithdrawal(s, Some(id)))
       case SkipPressed => Moved(Idle, FinishWithdrawal(s, Some(id)))
       case _ => Moved(step, []))
  }

  /**
   * `finish_executor_cancel_order` of the executor module: the order with
   * the id is released and the admin told; the reason and comment only go
   * into that message. A missing order writes nothing.
   */
  function FinishWithdrawal(s: Store, orderId: Option<int>): (r: seq<Effect>)
    ensures orderId.None? || FindOrder(s, orderId.value).None? ==> r == []
    ensures orderId.Some? && FindOrder(s, orderId.value).Some? ==>
              var i := FindOrder(s, orderId.value).value;
              && |r| == 2 && r[0].Save? && r[1] == Notify(Admin, ExecutorWithdrew)
              && Edited(s, r[0].store, i, {FStatus, FExecutor, FOffers})
              && r[0].store[i].status == UnderReview
              && r[0].store[i].executorId.None? && r[0].store[i].offers.None?
  {
    if orderId.None? then []
    else match FindOrder(s, orderId.value)
      case None => []
      case Some(i) => [Save(s[i := Released(s[i])]), Notify(Admin, ExecutorWithdrew)]
  }

  /**
   * Confirming, picking the first reason and typing a comment finishes the
   * withdrawal: one walk through the dialogue as written, which the bot
   * never reaches (the payment module's dialogue handles these steps).
   */
  lemma ConfirmedDialogueFinishes(s: Store, id: int, comment: string)
    ensures var s1 := CancelDialogue(s, ConfirmStep(id), ConfirmPressed(IntText(id))).step;
            var s2 := CancelDialogue(s, s1, ReasonPicked(IntText(id), "0")).step;
            s2 == CommentStep(id, Reasons[0])
            && CancelDialogue(s, s2, Typed(comment)) == Moved(Idle, FinishWithdrawal(s, Some(id)))
  {
    IntTextRoundTrip(id);
    FirstReasonButton(IntText(id));
    var s1 := CancelDialogue(s, ConfirmStep(id), ConfirmPressed(IntText(id))).step;
    assert s1 == ReasonStep(id);
  }

  lemma ZeroParses()
    ensures ParseInt("0") == Some(0)
  {
    assert IsDigits("0");
    assert DigitsValue("0") == DigitsValue("0"[..0]) * 10 + DigitValue('0');
  }

  /** Button 0 picks the first reason, which does not ask for text: a step of the walk above. */
  lemma FirstReasonButton(idText: string)
    requires ParseInt(idText).Some?
    ensures PickedReason(idText, "0") == Some(Reasons[0]) && !AsksForText(Reasons[0])
  {
    ZeroParses();
    assert ReasonAt(0) == Some(Reasons[0]);
    assert !AsksForText(Reasons[0]) by { assert Reasons[0][0] != "Другое"[0]; }
  }

  /**
   * Confirming work in progress ends where an immediate refusal does: the
   * same order released, the same message.
   */
  lemma FinishMatchesRefusal(s: Store, data: string, caller: int)
    requires UniqueIds(s)
    requires RefuseStart(s, data, caller).ConfirmFirst?
    ensures var id := RefuseStart(s, data, caller).orderId;
            var i := OwnOrder(s, id, caller).value;
            s[i].status == InProgress && s[i].executorId == Some(caller)
            && FinishWithdrawal(s, Some(id)) == [Save(s[i := Released(s[i])]), Notify(Admin, ExecutorWithdrew)]
  {
    var id := RefuseStart(s, data, caller).orderId;
    var i := OwnOrder(s, id, caller).value;
    assert FindOrder(s, id) == Some(i) by {
      var f := FindOrder(s, id);
      assert f.Some?;
      assert s[f.value].orderId == s[i].orderId;
    }
  }

  // ----- handing in work -----

  /**
   * `executor_send_work`: the order with the id goes for review with the
   * file and today's date, and the admin receives the work. The file is
   * written even when no order matched; the handler then fails before
   * messaging anyone.
   */
  function SendWork(s: Store, orderId: Option<int>, work: WorkFile, today: int): (r: seq<Effect>)
    ensures |r| >= 1 && r[0].Save?
    ensures orderId.None? || FindOrder(s, orderId.value).None? ==> r == [Save(s)]
    ensures orderId.Some? && FindOrder(s, orderId.value).Some? ==>
              var i := FindOrder(s, orderId.value).value;
              && r == [r[0], Notify(Admin, WorkForReview)]
              && Edited(s, r[0].store, i, {FStatus, FSubmittedWork, FSubmittedAt})
              && r[0].store[i].status == Submitted
              && r[0].store[i].submittedWork == Some(work) && r[0].store[i].submittedAt == Some(today)
  {
    if orderId.None? then [Save(s)]
    else match FindOrder(s, orderId.value)
      case None => [Save(s)]
      case Some(i) =>
        var o := s[i].(status := Submitted, submittedWork := Some(work), submittedAt := Some(today));
        [Save(s[i := o]), Notify(Admin, WorkForReview)]
  }

  /**
   * Work the executor sends stays in their list while it waits for review,
   * and the admin's approval accepts it and forwards it to the client.
   */
  lemma SentWorkCanBeApproved(s: Store, orderId: int, work: WorkFile, today: int, u: int, entries: seq<Executor>)
    requires FindOrder(s, orderId).Some? && s[FindOrder(s, orderId).value].executorId == Some(u)
    ensures var i := FindOrder(s, orderId).value;
            var t := SendWork(s, Some(orderId), work, today)[0].store;
            var r := Lifecycle.AdminApproveWork(t, orderId);
            && t[i] in Listing(t, u, entries)
            && r != [] && r[0].store[i].status == ApprovedByAdmin && r[0].store[i].submittedWork == Some(work)
            && r[0].store[i] in Listing(r[0].store, u, entries)
  {
    var i := FindOrder(s, orderId).value;
    var t := SendWork(s, Some(orderId), work, today)[0].store;
    EditedKeepsFind(s, t, i, {FStatus, FSubmittedWork, FSubmittedAt}, orderId);
  }

  /**
   * A revision the admin asks for reaches the executor: the order, with
   * the admin's comment, is back in their list as needing revision. The
   * same holds for the client's request.
   */
  lemma RevisionIsListedForExecutor(s: Store, orderId: int, comment: string, adminId: int, u: int, entries: seq<Executor>)
    requires FindOrder(s, orderId).Some? && s[FindOrder(s, orderId).value].executorId == Some(u)
    ensures var i := FindOrder(s, orderId).value;
            var a := Lifecycle.AdminRevisionComment(s, Some(orderId), comment)[0].store;
            var c := Lifecycle.ClientRevisionComment(s, Some(orderId), comment, adminId)[0].store;
            && a[i] in Listing(a, u, entries) && a[i].revisionComment == Some(comment)
            && c[i] in Listing(c, u, entries) && c[i].revisionComment == Some(comment)
  {
  }
}

=== FILE: lifecycle.dfy ===
/**
 * The order lifecycle handlers of the main module: confirming and
 * cancelling an order, deleting it, offering it to executors, handing in
 * and reviewing the work, and the client's revision and acceptance. Each
 * reads the whole order list, edits one order and writes the list back;
 * most only check that the order exists, not its current status.
 */
module Lifecycle {
  import opened Text
  import opened Shared
  import opened Orders
  import opened Registry

  // ----- cancelling and deleting -----

  /** The order the client means: its id and their own user id. */
  predicate OwnedBy(o: Order, orderId: int, user: int) {
    o.orderId == orderId && o.userId == user
  }

  /** The orders a cancellation keeps: those that are not this client's order. */
  function Others(orderId: int, user: int): Order -> bool {
    (o: Order) => !OwnedBy(o, orderId, user)
  }

  /**
   * `user_cancel_order_yes`: every order with this id that belongs to the
   * caller is removed (the record goes, nothing is marked cancelled); the
   * file is written in any case. The spreadsheet row is deleted only when
   * the first such order was in progress, and the admin hears of it only
   * when one was found.
   */
  function UserCancel(s: Store, orderId: int, caller: int): (r: seq<Effect>)
    ensures |r| >= 1 && r[0].Save? && IsSubsequence(r[0].store, s)
    ensures forall k | 0 <= k < |r[0].store| ::
              r[0].store[k] in s && !OwnedBy(r[0].store[k], orderId, caller)
    ensures forall i | 0 <= i < |s| && !OwnedBy(s[i], orderId, caller) :: s[i] in r[0].store
    ensures MirrorDelete(orderId) in r <==>
              exists i | 0 <= i < |s| :: OwnedBy(s[i], orderId, caller) && s[i].status == InProgress
                && forall j | 0 <= j < i :: !OwnedBy(s[j], orderId, caller)
    ensures Notify(Admin, OrderCancelled) in r <==> exists i | 0 <= i < |s| :: OwnedBy(s[i], orderId, caller)
    ensures forall k | 1 <= k < |r| :: !r[k].Save?
  {
    var t := Keep(s, Others(orderId, caller));
    match First(s, (o: Order) => OwnedBy(o, orderId, caller))
    case None => [Save(t)]
    case Some(i) =>
      assert OwnedBy(s[i], orderId, caller);
      [Save(t)] + (if s[i].status == InProgress then [MirrorDelete(orderId)] else [])
      + [Notify(Admin, OrderCancelled)]
  }

  /** Cancelling twice is cancelling once: the second pass finds nothing to remove. */
  lemma UserCancelIdempotent(s: Store, orderId: int, caller: int)
    ensures var t := UserCancel(s, orderId, caller)[0].store;
            UserCancel(t, orderId, caller)[0].store == t
            && Notify(Admin, OrderCancelled) !in UserCancel(t, orderId, caller)
  {
  }

  /** With unique ids, cancelling removes that one order and keeps the rest in order. */
  lemma UserCancelRemovesOne(s: Store, orderId: int, caller: int, i: nat)
    requires UniqueIds(s)
    requires i < |s| && OwnedBy(s[i], orderId, caller)
    ensures UserCancel(s, orderId, caller)[0].store == s[..i] + s[i + 1..]
  {
    var p := Others(orderId, caller);
    var a, b := s[..i], s[i + 1..];
    assert s == a + [s[i]] + b;
    forall k | 0 <= k < |a| ensures p(a[k]) {
      assert a[k] == s[k];
    }
    forall k | 0 <= k < |b| ensures p(b[k]) {
      assert b[k] == s[i + 1 + k];
    }
    KeepDropsOne(a, s[i], b, p);
    assert UserCancel(s, orderId, caller)[0].store == Keep(s, p);
  }

  /**
   * `process_cancel_order`: the client abandons the order being filled
   * in; the orders with its id that are theirs are removed. Without an id
   * in the conversation nothing matches.
   */
  function CancelDraft(s: Store, orderId: Option<int>, caller: int): (r: seq<Effect>)
    ensures |r| == 1 && r[0].Save?
    ensures orderId.None? ==> r[0].store == s
    ensures orderId.Some? ==> r[0].store == UserCancel(s, orderId.value, caller)[0].store
  {
    match orderId
    case None => [Save(s)]
    case Some(id) => [Save(Keep(s, Others(id, caller)))]
  }

  /**
   * `admin_delete_order_handler`: removes every order whose id, written
   * out, is the callback's text.
   */
  function AdminDeleteOrder(s: Store, payload: string): (r: seq<Effect>)
    ensures |r| == 1 && r[0].Save? && IsSubsequence(r[0].store, s)
    ensures forall k | 0 <= k < |r[0].store| :: r[0].store[k] in s && IntText(r[0].store[k].orderId) != payload
    ensures forall i | 0 <= i < |s| && IntText(s[i].orderId) != payload :: s[i] in r[0].store
  {
    [Save(Keep(s, (o: Order) => IntText(o.orderId) != payload))]
  }

  /** Deleting by the text of an id removes exactly the orders with that id. */
  lemma AdminDeleteById(s: Store, id: int)
    ensures var t := AdminDeleteOrder(s, IntText(id))[0].store;
            (forall k | 0 <= k < |t| :: t[k].orderId != id)
            && (forall i | 0 <= i < |s| && s[i].orderId != id :: s[i] in t)
  {
    var t := AdminDeleteOrder(s, IntText(id))[0].store;
    IntTextRoundTrip(id);
    forall i | 0 <= i < |s| && s[i].orderId != id ensures IntText(s[i].orderId) != IntText(id) {
      IntTextRoundTrip(s[i].orderId);
    }
  }

  // ----- offering an order to executors -----

  /** The order offered to one executor: it waits for their confirmation. */
  function Offered(o: Order, executor: int): (a: Order)
    ensures SameExcept(o, a, {FStatus, FExecutor})
    ensures a.status == AwaitingConfirmation && a.executorId == Some(executor)
  {
    o.(status := AwaitingConfirmation, executorId := Some(executor))
  }

  /** The order after the executor could not be reached: back under review, unassigned. */
  function Unreachable(o: Order): (a: Order)
    ensures SameExcept(o, a, {FStatus, FExecutor})
    ensures a.status == UnderReview && a.executorId.None?
  {
    o.(status := UnderReview, executorId := None)
  }

  /**
   * `send_order_to_executor` and the manual assignment: the order is
   * assigned and saved, the executor is messaged, and when that message
   * fails the assignment is undone and the file saved a second time.
   */
  function Assign(s: Store, orderId: Option<int>, executor: int, delivered: bool): (r: seq<Effect>)
    ensures orderId.None? || FindOrder(s, orderId.value).None? ==> r == []
    ensures orderId.Some? && FindOrder(s, orderId.value).Some? ==>
              var i := FindOrder(s, orderId.value).value;
              && |r| == (if delivered then 2 else 3)
              && r[0].Save? && Edited(s, r[0].store, i, {FStatus, FExecutor})
              && r[0].store[i].status == AwaitingConfirmation
              && r[0].store[i].executorId == Some(executor)
              && r[1] == Notify(User(executor), OrderOffered)
              && (!delivered ==>
                    && r[2].Save? && Edited(s, r[2].store, i, {FStatus, FExecutor})
                    && r[2].store[i].status == UnderReview && r[2].store[i].executorId.None?)
  {
    if orderId.None? then []
    else match FindOrder(s, orderId.value)
      case None => []
      case Some(i) =>
        var t := s[i := Offered(s[i], executor)];
        var reverted := t[i := Unreachable(t[i])];
        assert reverted == s[i := Unreachable(s[i])];
        [Save(t), Notify(User(executor), OrderOffered)]
        + (if delivered then [] else [Save(reverted)])
  }

  /** A failed offer leaves the same file whoever it was meant for. */
  lemma FailedAssignForgetsExecutor(s: Store, orderId: int, e1: int, e2: int)
    requires FindOrder(s, orderId).Some?
    ensures Assign(s, Some(orderId), e1, false)[2] == Assign(s, Some(orderId), e2, false)[2]
  {
  }

  /**
   * `assign_executor_process_id_handler`: only the admin's message counts
   * and it must be all digits; otherwise the conversation waits (None).
   */
  function AssignByText(s: Store, sender: int, adminId: int, orderId: Option<int>, text: string, delivered: bool)
    : (r: Option<seq<Effect>>)
    ensures r.Some? <==> sender == adminId && IsDigits(text)
    ensures r.Some? ==> r.value == Assign(s, orderId, DigitsValue(text), delivered)
  {
    if sender != adminId || !IsDigits(text) then None
    else Some(Assign(s, orderId, DigitsValue(text), delivered))
  }

  /**
   * The admin typing an executor's id in digits assigns the order to that
   * executor; the same text from anyone else is ignored.
   */
  lemma AssignByTypedId(s: Store, adminId: int, sender: int, orderId: Option<int>, n: nat, delivered: bool)
    ensures AssignByText(s, adminId, adminId, orderId, Decimal(n), delivered) == Some(Assign(s, orderId, n, delivered))
    ensures sender != adminId ==> AssignByText(s, sender, adminId, orderId, Decimal(n), delivered).None?
  {
    DecimalRoundTrip(n);
  }

  /**
   * `admin_broadcast_select_handler`: every registered executor with an id
   * is messaged, then the order waits for confirmation. No executor is
   * assigned. With no order or an empty registry nothing happens.
   */
  function Broadcast(s: Store, orderId: int, registry: RegistryFile): (r: seq<Effect>)
    ensures FindOrder(s, orderId).None? || Entries(registry) == [] ==> r == []
    ensures FindOrder(s, orderId).Some? && Entries(registry) != [] ==>
              var i := FindOrder(s, orderId).value;
              && |r| > 0 && r[|r| - 1].Save?
              && Edited(s, r[|r| - 1].store, i, {FStatus})
              && r[|r| - 1].store[i].status == AwaitingConfirmation
              && (forall k | 0 <= k < |r| - 1 :: r[k].Notify? && r[k].note == OrderOffered)
              && (forall e | e in Entries(registry) && e.id != 0 :: Notify(User(e.id), OrderOffered) in r)
  {
    var entries := Entries(registry);
    match FindOrder(s, orderId)
    case None => []
    case Some(i) =>
      if entries == [] then []
      else OfferAll(entries) + [Save(s[i := s[i].(status := AwaitingConfirmation)])]
  }

  /** One offer message per registered executor whose id is set. */
  function OfferAll(entries: seq<Executor>): (r: seq<Effect>)
    ensures forall k | 0 <= k < |r| :: r[k].Notify? && r[k].note == OrderOffered
    ensures forall e | e in entries && e.id != 0 :: Notify(User(e.id), OrderOffered) in r
    ensures forall k | 0 <= k < |r| :: exists e | e in entries :: r[k] == Notify(User(e.id), OrderOffered) && e.id != 0
  {
    if entries == [] then []
    else
      var rest := OfferAll(entries[1..]);
      var head := NotifyIf(entries[0].id, OrderOffered);
      var r := head + rest;
      assert forall e | e in entries :: e == entries[0] || e in entries[1..];
      assert forall k | 0 <= k < |r| :: exists e | e in entries :: r[k] == Notify(User(e.id), OrderOffered) && e.id != 0 by {
        forall k | 0 <= k < |r| ensures exists e | e in entries :: r[k] == Notify(User(e.id), OrderOffered) && e.id != 0 {
          if k < |head| {
            assert r[k] == Notify(User(entries[0].id), OrderOffered) && entries[0] in entries;
          } else {
            assert r[k] == rest[k - |head|];
          }
        }
      }
      r
  }

  // ----- the work -----

  /** The order with work handed in on `today`, under the given status. */
  function HandedIn(o: Order, status: Status, work: WorkFile, today: int): (a: Order)
    ensures SameExcept(o, a, {FStatus, FSubmittedWork, FSubmittedAt})
    ensures a.status == status && a.submittedWork == Some(work) && a.submittedAt == Some(today)
  {
    o.(status := status, submittedWork := Some(work), submittedAt := Some(today))
  }

  /**
   * `admin_admin_work_file_received`: work on an order whose executor is
   * the admin counts as approved and goes straight to the client; any
   * other order waits for review. The file is written either way.
   */
  function AdminSubmitWork(s: Store, orderId: Option<int>, adminId: int, work: WorkFile, today: int): (r: seq<Effect>)
    ensures |r| >= 1 && r[0].Save?
    ensures orderId.None? || FindOrder(s, orderId.value).None? ==> r == [Save(s)]
    ensures orderId.Some? && FindOrder(s, orderId.value).Some? ==>
              var i := FindOrder(s, orderId.value).value;
              && Edited(s, r[0].store, i, {FStatus, FSubmittedWork, FSubmittedAt})
              && r[0].store[i].status == (if s[i].executorId == Some(adminId) then ApprovedByAdmin else Submitted)
              && r[0].store[i].submittedWork == Some(work)
              && r[0].store[i].submittedAt == Some(today)
              && (Notify(User(s[i].userId), WorkReady) in r <==> s[i].executorId == Some(adminId) && s[i].userId != 0)
    ensures NoSave(r[1..])
  {
    if orderId.None? then [Save(s)]
    else match FindOrder(s, orderId.value)
      case None => [Save(s)]
      case Some(i) =>
        var byAdmin := s[i].executorId == Some(adminId);
        var t := s[i := HandedIn(s[i], if byAdmin then ApprovedByAdmin else Submitted, work, today)];
        [Save(t)] + (if byAdmin then NotifyIf(s[i].userId, WorkReady) else [])
  }

  /** The order with only its status replaced. */
  function WithStatus(o: Order, status: Status): (a: Order)
    ensures SameExcept(o, a, {FStatus}) && a.status == status
  {
    o.(status := status)
  }

  /**
   * `admin_approve_work_handler`: needs handed-in work; the order is
   * approved and the work forwarded to the client.
   */
  function AdminApproveWork(s: Store, orderId: int): (r: seq<Effect>)
    ensures FindOrder(s, orderId).None? ==> r == []
    ensures FindOrder(s, orderId).Some? ==>
              var i := FindOrder(s, orderId).value;
              && (s[i].submittedWork.None? <==> r == [])
              && (s[i].submittedWork.Some? ==>
                    && r[0].Save? && Edited(s, r[0].store, i, {FStatus})
                    && r[0].store[i].status == ApprovedByAdmin
                    && r[1..] == NotifyIf(s[i].userId, WorkReady))
  {
    match FindOrder(s, orderId)
    case None => []
    case Some(i) =>
      if s[i].submittedWork.None? then []
      else [Save(s[i := WithStatus(s[i], ApprovedByAdmin)])] + NotifyIf(s[i].userId, WorkReady)
  }

  /**
   * Work handed in by the admin on an order assigned to someone else waits
   * for review, and the admin's approval then accepts it: the order is
   * approved, the client is told, and the lookup still finds the order.
   */
  lemma HandedInWorkCanBeApproved(s: Store, orderId: int, adminId: int, work: WorkFile, today: int)
    requires FindOrder(s, orderId).Some? && s[FindOrder(s, orderId).value].executorId != Some(adminId)
    ensures var i := FindOrder(s, orderId).value;
            var t := AdminSubmitWork(s, Some(orderId), adminId, work, today)[0].store;
            var r := AdminApproveWork(t, orderId);
            && t[i].status == Submitted && NoSave(AdminSubmitWork(s, Some(orderId), adminId, work, today)[1..])
            && r != [] && r[0].store[i].status == ApprovedByAdmin && r[0].store[i].submittedWork == Some(work)
            && (Notify(User(s[i].userId), WorkReady) in r <==> s[i].userId != 0)
  {
    var i := FindOrder(s, orderId).value;
    var t := AdminSubmitWork(s, Some(orderId), adminId, work, today)[0].store;
    EditedKeepsFind(s, t, i, {FStatus, FSubmittedWork, FSubmittedAt}, orderId);
  }

  /**
   * A handler that only moves a found order to `status` and saves, as
   * `admin_reject_work_handler`, `client_request_revision` and
   * `client_accept_work` do before their messages.
   */
  function MoveTo(s: Store, orderId: Option<int>, status: Status): (r: Option<Store>)
    ensures orderId.None? || FindOrder(s, orderId.value).None? <==> r.None?
    ensures r.Some? ==>
              var i := FindOrder(s, orderId.value).value;
              Edited(s, r.value, i, {FStatus}) && r.value[i].status == status
  {
    if orderId.None? then None
    else match FindOrder(s, orderId.value)
      case None => None
      case Some(i) => Some(s[i := WithStatus(s[i], status)])
  }

  /**
   * `admin_reject_work_handler` on callback data "admin_reject_work_<id>":
   * the id is the field after the last '_'; the found order needs revision
   * and the admin is asked why next. An id `int()` rejects ends the handler
   * with nothing saved.
   */
  function AdminRejectWork(s: Store, data: string): (r: seq<Effect>)
    ensures var id := ParseInt(AfterLast(data, '_'));
              r == [] <==> id.None? || FindOrder(s, id.value).None?
    ensures r != [] ==>
              var i := FindOrder(s, ParseInt(AfterLast(data, '_')).value).value;
              |r| == 1 && r[0].Save? && Edited(s, r[0].store, i, {FStatus})
              && r[0].store[i].status == NeedsRevision
  {
    match MoveTo(s, ParseInt(AfterLast(data, '_')), NeedsRevision)
    case None => []
    case Some(t) => [Save(t)]
  }

  /** The order with a revision comment recorded. */
  function ToRevise(o: Order, comment: string): (a: Order)
    ensures SameExcept(o, a, {FStatus, FRevision})
    ensures a.status == NeedsRevision && a.revisionComment == Some(comment)
  {
    o.(status := NeedsRevision, revisionComment := Some(comment))
  }

  /**
   * `admin_revision_comment_handler`: the comment is stored, the order
   * needs revision, and its executor (if any) is told.
   */
  function AdminRevisionComment(s: Store, orderId: Option<int>, comment: string): (r: seq<Effect>)
    ensures orderId.None? || FindOrder(s, orderId.value).None? ==> r == []
    ensures orderId.Some? && FindOrder(s, orderId.value).Some? ==>
              var i := FindOrder(s, orderId.value).value;
              && |r| >= 1 && r[0].Save? && Edited(s, r[0].store, i, {FStatus, FRevision})
              && r[0].store[i].status == NeedsRevision && r[0].store[i].revisionComment == Some(comment)
              && (|r| == 2 <==> Present(s[i].executorId))
              && (Present(s[i].executorId) ==> r[1] == Notify(User(s[i].executorId.value), RevisionRequested))
  {
    if orderId.None? then []
    else match FindOrder(s, orderId.value)
      case None => []
      case Some(i) =>
        var e := s[i].executorId;
        [Save(s[i := ToRevise(s[i], comment)])]
        + (if Present(e) then [Notify(User(e.value), RevisionRequested)] else [])
  }

  /**
   * `client_request_revision` on callback data "client_request_revision:<id>":
   * the id is the field after the last ':'; the found order needs revision
   * and the client is asked for a comment next.
   */
  function ClientRequestRevision(s: Store, data: string): (r: seq<Effect>)
    ensures var id := ParseInt(AfterLast(data, ':'));
              r == [] <==> id.None? || FindOrder(s, id.value).None?
    ensures r != [] ==>
              var i := FindOrder(s, ParseInt(AfterLast(data, ':')).value).value;
              |r| == 1 && r[0].Save? && Edited(s, r[0].store, i, {FStatus})
              && r[0].store[i].status == NeedsRevision
  {
    match MoveTo(s, ParseInt(AfterLast(data, ':')), NeedsRevision)
    case None => []
    case Some(t) => [Save(t)]
  }

  /**
   * The client's revision button and the admin's reject button, as the
   * review cards print them for the same order, make the same change: the
   * order, if it is on file, needs revision and nothing else moves.
   */
  lemma RevisionButtonsAgree(s: Store, orderId: int)
    ensures ClientRequestRevision(s, "client_request_revision:" + IntText(orderId))
            == AdminRejectWork(s, "admin_reject_work_" + IntText(orderId))
            == (match FindOrder(s, orderId)
                case None => []
                case Some(i) => [Save(s[i := s[i].(status := NeedsRevision)])])
  {
    IntTextRoundTrip(orderId);
    AfterLastOfSeparated("client_request_revision:", IntText(orderId), ':');
    AfterLastOfSeparated("admin_reject_work_", IntText(orderId), '_');
  }

  /** An executor other than the admin is assigned, so they get the client's messages. */
  predicate ThirdPartyExecutor(o: Order, adminId: int) {
    Present(o.executorId) && o.executorId.value != adminId
  }

  /**
   * `process_revision_comment`: the client's comment is stored, the admin
   * is told, and so is an executor other than the admin.
   */
  function ClientRevisionComment(s: Store, orderId: Option<int>, comment: string, adminId: int): (r: seq<Effect>)
    ensures orderId.None? || FindOrder(s, orderId.value).None? ==> r == []
    ensures orderId.Some? && FindOrder(s, orderId.value).Some? ==>
              var i := FindOrder(s, orderId.value).value;
              && |r| >= 2 && r[0].Save? && Edited(s, r[0].store, i, {FStatus, FRevision})
              && r[0].store[i].status == NeedsRevision && r[0].store[i].revisionComment == Some(comment)
              && r[1] == Notify(Admin, RevisionRequested)
              && (|r| == 3 <==> ThirdPartyExecutor(s[i], adminId))
              && (|r| == 3 ==> r[2] == Notify(User(s[i].executorId.value), RevisionRequested))
  {
    if orderId.None? then []
    else match FindOrder(s, orderId.value)
      case None => []
      case Some(i) =>
        [Save(s[i := ToRevise(s[i], comment)]), Notify(Admin, RevisionRequested)]
        + (if ThirdPartyExecutor(s[i], adminId) then [Notify(User(s[i].executorId.value), RevisionRequested)] else [])
  }

  /**
   * `client_accept_work`: whatever the order's status, it is completed;
   * the admin and an executor other than the admin are told.
   */
  function ClientAccept(s: Store, orderId: int, adminId: int): (r: seq<Effect>)
    ensures FindOrder(s, orderId).None? ==> r == []
    ensures FindOrder(s, orderId).Some? ==>
              var i := FindOrder(s, orderId).value;
              && |r| >= 2 && r[0].Save? && Edited(s, r[0].store, i, {FStatus})
              && r[0].store[i].status == Completed
              && r[1] == Notify(Admin, WorkAccepted)
              && (|r| == 3 <==> ThirdPartyExecutor(s[i], adminId))
              && (|r| == 3 ==> r[2] == Notify(User(s[i].executorId.value), WorkAccepted))
  {
    match MoveTo(s, Some(orderId), Completed)
    case None => []
    case Some(t) =>
      var i := FindOrder(s, orderId).value;
      [Save(t), Notify(Admin, WorkAccepted)]
      + (if ThirdPartyExecutor(s[i], adminId) then [Notify(User(s[i].executorId.value), WorkAccepted)] else [])
  }

  /**
   * Once the client accepts the work, the admin's export writes the order
   * to the spreadsheet: its printed id names it and it is completed.
   */
  lemma AcceptedWorkGoesToSheet(s: Store, orderId: int, adminId: int)
    requires FindOrder(s, orderId).Some?
    ensures var t := ClientAccept(s, orderId, adminId)[0].store;
            SaveToSheet(t, IntText(orderId)) == [MirrorUpsert(orderId)]
  {
    var i := FindOrder(s, orderId).value;
    var t := ClientAccept(s, orderId, adminId)[0].store;
    EditedKeepsFind(s, t, i, {FStatus}, orderId);
    KeyedByPrintedId(t, orderId);
  }

  /** Before the client accepts, an order that is not completed is not exported. */
  lemma OnlyCompletedIsExported(s: Store, orderId: int)
    requires FindOrder(s, orderId).Some? && s[FindOrder(s, orderId).value].status != Completed
    ensures SaveToSheet(s, IntText(orderId)) == []
  {
    KeyedByPrintedId(s, orderId);
  }

  // ----- confirming a new order -----

  /** The filled-in order as confirmed by `sender`: under review and theirs. */
  function Confirmed(data: Order, sender: int): (d: Order)
    ensures SameExcept(data, d.(userId := data.userId), {FStatus})
    ensures d.status == UnderReview && d.userId == sender
  {
    data.(status := UnderReview, userId := sender)
  }

  /**
   * `process_confirm_order`: the order is saved under review as the
   * caller's, the admin is told, then every executor id configured for the
   * bot is. When the save raises because the spreadsheet could not be read,
   * the handler stops there: nothing is written and nobody is told.
   */
  function ConfirmOrder(s: Store, data: Order, dataId: Option<int>, sender: int, sheet: Option<seq<string>>,
                        executorIds: seq<int>): (r: seq<Effect>)
    ensures r == [] <==> SaveOrUpdate(s, Confirmed(data, sender), dataId, sheet).None?
    ensures r != [] ==> |r| == 2 + |executorIds| && r[0].Save? && r[1] == Notify(Admin, NewOrder)
    ensures r != [] ==> forall k | 0 <= k < |executorIds| :: r[2 + k] == Notify(User(executorIds[k]), NewOrder)
    ensures var p := SaveOrUpdate(s, Confirmed(data, sender), dataId, sheet);
            p.Some? ==>
              r[0].store == p.value.store
              && exists k | 0 <= k < |p.value.store| :: p.value.store[k] == Confirmed(data, sender).(orderId := p.value.orderId)
  {
    var d := Confirmed(data, sender);
    match SaveOrUpdate(s, d, dataId, sheet)
    case None => []
    case Some(p) =>
      SavedOrderIsStored(s, d, dataId, sheet);
      [Save(p.store), Notify(Admin, NewOrder)]
      + seq(|executorIds|, k requires 0 <= k < |executorIds| => Notify(User(executorIds[k]), NewOrder))
  }

  /** The saved order is in the file under the id it was saved with. */
  lemma SavedOrderIsStored(s: Store, d: Order, dataId: Option<int>, sheet: Option<seq<string>>)
    ensures var p := SaveOrUpdate(s, d, dataId, sheet);
            p.Some? ==> exists k | 0 <= k < |p.value.store| :: p.value.store[k] == d.(orderId := p.value.orderId)
  {
    var p := SaveOrUpdate(s, d, dataId, sheet);
    var base := WithoutDrafts(s, d, dataId);
    if !NeedsNewId(s, d, dataId) {
      assert p.value.store[FindOrder(base, dataId.value).value] == d.(orderId := p.value.orderId);
    } else if p.Some? {
      assert p.value.store[|base|] == d.(orderId := p.value.orderId);
    }
  }

  /**
   * `admin_save_to_gsheet_handler`: only a completed order is written to
   * the spreadsheet (a new row, or its existing row overwritten); the
   * order file is not touched.
   */
  function SaveToSheet(s: Store, payload: string): (r: seq<Effect>)
    ensures NoSave(r) && |r| <= 1
    ensures r != [] <==> KeyedOrder(s, payload).Some? && s[KeyedOrder(s, payload).value].status == Completed
    ensures r != [] ==> r[0].MirrorUpsert? && IntText(r[0].orderId) == payload
  {
    match KeyedOrder(s, payload)
    case None => []
    case Some(i) => if s[i].status == Completed then [MirrorUpsert(s[i].orderId)] else []
  }

  // ----- ids along the lifecycle -----

  /**
   * The review handlers rewrite the file with every order where it was,
   * under its id: ids that rose keep rising, so each id stays unique.
   */
  lemma ReviewHandlersKeepIds(s: Store, orderId: int, adminId: int, work: WorkFile, today: int)
    ensures IdsInPlace(s, AdminSubmitWork(s, Some(orderId), adminId, work, today))
    ensures IdsInPlace(s, AdminApproveWork(s, orderId))
    ensures IdsInPlace(s, ClientAccept(s, orderId, adminId))
  {
    if FindOrder(s, orderId).Some? {
      var i := FindOrder(s, orderId).value;
      var r := AdminSubmitWork(s, Some(orderId), adminId, work, today);
      assert forall k | 1 <= k < |r| :: r[k] == r[1..][k - 1];
      EditFirstKeepsIds(s, r, i, {FStatus, FSubmittedWork, FSubmittedAt});
      var a := AdminApproveWork(s, orderId);
      if a != [] {
        assert forall k | 1 <= k < |a| :: a[k] == a[1..][k - 1];
        EditFirstKeepsIds(s, a, i, {FStatus});
      }
      EditFirstKeepsIds(s, ClientAccept(s, orderId, adminId), i, {FStatus});
    }
  }

  /** The revision handlers keep the ids in place as well. */
  lemma RevisionHandlersKeepIds(s: Store, orderId: int, adminId: int, data: string, comment: string)
    ensures IdsInPlace(s, AdminRejectWork(s, data))
    ensures IdsInPlace(s, ClientRequestRevision(s, data))
    ensures IdsInPlace(s, AdminRevisionComment(s, Some(orderId), comment))
    ensures IdsInPlace(s, ClientRevisionComment(s, Some(orderId), comment, adminId))
  {
    if FindOrder(s, orderId).Some? {
      var i := FindOrder(s, orderId).value;
      EditFirstKeepsIds(s, AdminRevisionComment(s, Some(orderId), comment), i, {FStatus, FRevision});
      EditFirstKeepsIds(s, ClientRevisionComment(s, Some(orderId), comment, adminId), i, {FStatus, FRevision});
    }
    var r := AdminRejectWork(s, data);
    if r != [] {
      EditFirstKeepsIds(s, r, FindOrder(s, ParseInt(AfterLast(data, '_')).value).value, {FStatus});
    }
    var c := ClientRequestRevision(s, data);
    if c != [] {
      EditFirstKeepsIds(s, c, FindOrder(s, ParseInt(AfterLast(data, ':')).value).value, {FStatus});
    }
  }
}

=== FILE: menus.dfy ===
/**
 * The inline keyboards attached to an order card, as the set of actions
 * offered. The admin card exists twice: the shared builder, reached
 * through the shared order view that the take-over's "back to order"
 * button opens (shared.py:143-170, admin_self_take.py:219-222), and the
 * main module's own builder, which shadows the shared one inside main.py.
 */
module Menus {
  import opened Shared

  datatype AdminButton =
    | SubmitWork | ShowMaterials | HideMaterials | ChooseExecutor | TakeOver
    | SaveToSheet | DeleteOrder | Back

  /**
   * What the admin card is built from: the order's status, whether the
   * assigned executor is the admin, whether the data carries an order id,
   * whether any material is attached, and whether the materials button is
   * wanted (it is not while the materials are on screen).
   */
  datatype AdminCard = AdminCard(
    status: Status,
    executorIsAdmin: bool,
    hasOrderId: bool,
    hasMaterials: bool,
    showMaterials: bool)

  /** The admin is the executor of an order they can hand work in for. */
  predicate AdminAtWork(c: AdminCard) {
    c.status == InProgress && c.executorIsAdmin
  }

  /** The shared builder of the admin's order card. */
  function AdminButtons(c: AdminCard): (r: set<AdminButton>)
    ensures Back in r
    ensures AdminAtWork(c) ==> r == {SubmitWork, ShowMaterials, Back}
    ensures !AdminAtWork(c) && !c.hasOrderId ==> r == {Back}
    ensures !AdminAtWork(c) && c.hasOrderId ==>
              && (ChooseExecutor in r <==> c.status == UnderReview && !c.executorIsAdmin)
              && (TakeOver in r <==> c.status in {UnderReview, AwaitingConfirmation})
              && (SaveToSheet in r <==> c.status == Completed)
              && (DeleteOrder in r <==> c.status != Completed)
              && (ShowMaterials in r <==> c.status != Completed && c.showMaterials && c.hasMaterials)
              && (HideMaterials in r <==> c.status != Completed && !c.showMaterials)
              && (SubmitWork in r <==> c.status == InProgress)
  {
    if AdminAtWork(c) then {SubmitWork, ShowMaterials, Back}
    else if !c.hasOrderId then {Back}
    else
      (if c.status == UnderReview && !c.executorIsAdmin then {ChooseExecutor} else {})
      + (if c.status in {UnderReview, AwaitingConfirmation} then {TakeOver} else {})
      + (if c.status == Completed then {SaveToSheet} else {})
      + (if c.status != Completed then
           {DeleteOrder}
           + (if c.showMaterials && c.hasMaterials then {ShowMaterials} else {})
           + (if !c.showMaterials then {HideMaterials} else {})
           + (if c.status == InProgress then {SubmitWork} else {})
         else {})
      + {Back}
  }

  /**
   * The main module's builder as written. Its take-over button sits inside
   * the "under review, executor not the admin" branch, so an order awaiting
   * confirmation never offers it. The later in-progress branches cannot be
   * reached after the early return and are left out.
   */
  function MainAdminButtonsAsWritten(c: AdminCard): (r: set<AdminButton>)
    ensures Back in r
    ensures c.status in {InProgress, NeedsRevision} ==>
              && (SubmitWork in r <==> AdminAtWork(c))
              && (ShowMaterials in r <==> c.hasMaterials)
              && r <= {SubmitWork, ShowMaterials, Back}
    ensures c.status !in {InProgress, NeedsRevision} && c.hasOrderId ==>
              && (ChooseExecutor in r <==> c.status == UnderReview && !c.executorIsAdmin)
              && (TakeOver in r <==> c.status == UnderReview && !c.executorIsAdmin)
              && (SaveToSheet in r <==> c.status == Completed)
              && (DeleteOrder in r <==> c.status != Completed && c.showMaterials && c.hasMaterials)
              && (HideMaterials in r <==> c.status != Completed && !c.showMaterials)
  {
    if c.status in {InProgress, NeedsRevision} then
      (if c.executorIsAdmin && c.status == InProgress then {SubmitWork} else {})
      + (if c.hasMaterials then {ShowMaterials} else {})
      + {Back}
    else if !c.hasOrderId then {Back}
    else
      (if c.status == UnderReview && !c.executorIsAdmin then {ChooseExecutor, TakeOver} else {})
      + (if c.status == Completed then {SaveToSheet} else {})
      + (if c.status != Completed then
           (if c.showMaterials && c.hasMaterials then {ShowMaterials, DeleteOrder} else {})
           + (if !c.showMaterials then {HideMaterials} else {})
         else {})
      + {Back}
  }

  /** An order awaiting confirmation: the shared card offers take-over, main's does not. */
  lemma MainCardHidesTakeOver(hasMaterials: bool, showMaterials: bool, executorIsAdmin: bool)
    ensures var c := AdminCard(AwaitingConfirmation, executorIsAdmin, true, hasMaterials, showMaterials);
            TakeOver in AdminButtons(c) && TakeOver !in MainAdminButtonsAsWritten(c)
  {
  }

  /**
   * The main module's builder with the take-over test moved out to the
   * level the shared builder has it at, as the redundant inner status test
   * shows it was meant to be.
   */
  function MainAdminButtons(c: AdminCard): (r: set<AdminButton>)
    ensures Back in r
    ensures r - {TakeOver} == MainAdminButtonsAsWritten(c) - {TakeOver}
    ensures c.status !in {InProgress, NeedsRevision} && c.hasOrderId ==>
              && (TakeOver in r <==> c.status in {UnderReview, AwaitingConfirmation})
              && (ChooseExecutor in r <==> c.status == UnderReview && !c.executorIsAdmin)
  {
    if c.status in {InProgress, NeedsRevision} then MainAdminButtonsAsWritten(c)
    else if !c.hasOrderId then {Back}
    else
      (if c.status == UnderReview && !c.executorIsAdmin then {ChooseExecutor} else {})
      + (if c.status in {UnderReview, AwaitingConfirmation} then {TakeOver} else {})
      + (if c.status == Completed then {SaveToSheet} else {})
      + (if c.status != Completed then
           (if c.showMaterials && c.hasMaterials then {ShowMaterials, DeleteOrder} else {})
           + (if !c.showMaterials then {HideMaterials} else {})
         else {})
      + {Back}
  }

  /** With the fix both builders agree on when the admin may take an order over. */
  lemma TakeOverAgrees(c: AdminCard)
    requires c.status !in {InProgress, NeedsRevision} && c.hasOrderId
    ensures TakeOver in MainAdminButtons(c) <==> TakeOver in AdminButtons(c)
  {
  }

  datatype ClientButton = Pay | Withdraw | BackToList

  /** `get_user_order_keyboard`: the client's view of one order. */
  function ClientButtons(status: Status): (r: set<ClientButton>)
    ensures BackToList in r
    ensures Pay in r <==> status == AwaitingPayment
    ensures Withdraw in r <==> status != Completed
  {
    (if status == AwaitingPayment then {Pay} else {})
    + (if status != Completed then {Withdraw} else {})
    + {BackToList}
  }
}

=== FILE: negotiation.dfy ===
/**
 * Offer negotiation: an executor proposes terms for an order, the admin
 * may override the price, then approves one offer (the client is asked to
 * pay) or rejects it (the order goes back to review).
 */
module Negotiation {
  import opened Text
  import opened Shared
  import opened Orders

  // ----- the offer list -----

  /** Where this executor's offer sits: the first entry with their id. */
  function OfferSlot(offers: seq<Offer>, executor: int): (r: Option<nat>)
    ensures r.Some? ==> r.value < |offers| && offers[r.value].executorId == executor
    ensures r.Some? ==> forall j | 0 <= j < r.value :: offers[j].executorId != executor
    ensures r.None? ==> forall j | 0 <= j < |offers| :: offers[j].executorId != executor
  {
    First(offers, (o: Offer) => o.executorId == executor)
  }

  /** At most one offer per executor. */
  predicate OnePerExecutor(offers: seq<Offer>) {
    forall i, j | 0 <= i < j < |offers| :: offers[i].executorId != offers[j].executorId
  }

  /**
   * A new offer replaces the executor's earlier one in place, or joins the
   * end of the list when they had none.
   */
  function Upsert(offers: seq<Offer>, o: Offer): (r: seq<Offer>)
    ensures o in r
    ensures forall k | 0 <= k < |r| :: r[k] == o || r[k] in offers
    ensures forall k | 0 <= k < |offers| && offers[k].executorId != o.executorId :: offers[k] in r
    ensures OfferSlot(offers, o.executorId).Some? ==> |r| == |offers|
    ensures OfferSlot(offers, o.executorId).None? ==> r == offers + [o]
  {
    match OfferSlot(offers, o.executorId)
    case Some(i) =>
      var r := offers[i := o];
      assert r[i] == o;
      assert forall k | 0 <= k < |offers| && k != i :: r[k] == offers[k];
      r
    case None => offers + [o]
  }

  /** Proposing again keeps one offer per executor. */
  lemma UpsertKeepsOnePerExecutor(offers: seq<Offer>, o: Offer)
    requires OnePerExecutor(offers)
    ensures OnePerExecutor(Upsert(offers, o))
  {
    var r := Upsert(offers, o);
    match OfferSlot(offers, o.executorId)
    case Some(i) =>
      forall a, b | 0 <= a < b < |r| ensures r[a].executorId != r[b].executorId {
        if a == i { assert r[b] == offers[b]; }
        else if b == i { assert r[a] == offers[a]; }
        else { assert r[a] == offers[a] && r[b] == offers[b]; }
      }
    case None =>
      forall a, b | 0 <= a < b < |r| ensures r[a].executorId != r[b].executorId {
        assert r[a] == offers[a];
        if b < |offers| { assert r[b] == offers[b]; }
      }
  }

  /** The executor's latest offer is the one that stays: a resubmission overrides. */
  lemma UpsertLatestWins(offers: seq<Offer>, o1: Offer, o2: Offer)
    requires o1.executorId == o2.executorId
    ensures Upsert(Upsert(offers, o1), o2) == Upsert(offers, o2)
  {
    var e := o1.executorId;
    var mid := Upsert(offers, o1);
    match OfferSlot(offers, e)
    case Some(i) =>
      assert mid[i] == o1;
      assert forall j | 0 <= j < i :: mid[j] == offers[j];
      assert OfferSlot(mid, e) == Some(i);
    case None =>
      assert mid[|offers|] == o1;
      assert forall j | 0 <= j < |offers| :: mid[j] == offers[j];
      assert OfferSlot(mid, e) == Some(|offers|);
      assert mid[|offers| := o2] == offers + [o2];
  }

  /** The list an order carries, an absent one read as empty. */
  function OffersOf(o: Order): seq<Offer> {
    if o.offers.Some? then o.offers.value else []
  }

  // ----- the executor's offer wizard -----

  /** Where an executor is in proposing terms (main.py's `ExecutorResponse`). */
  datatype OfferStep =
    | NotOffering
    | AskPrice(orderId: int)
    | AskDeadline(orderId: int, price: string)
    | AskComment(orderId: int, price: string, deadline: string)
    | ConfirmTerms(orderId: int, price: string, deadline: string, comment: string)

  datatype OfferInput =
    | Accept(orderId: int)            // "executor_accept_<id>"
    | PricePick(data: string)         // "price_<n>" or "price_manual"
    | PriceText(text: string)
    | DeadlinePick(data: string)      // "deadline_<term>" or "deadline_manual"
    | DeadlineText(text: string)
    | CommentText(text: string)
    | SkipComment

  /** The text after the first underscore: `data.split("_", 1)[-1]`. */
  function AfterFirstUnderscore(data: string): (r: string)
    ensures "_" <= data ==> r == data[1..]
    ensures |r| <= |data| && r == data[|data| - |r|..]
  {
    if |data| == 0 then []
    else if data[0] == '_' then data[1..]
    else if forall k | 0 <= k < |data| :: data[k] != '_' then data
    else AfterFirstUnderscore(data[1..])
  }

  lemma AfterFirstUnderscoreOfPrefixed(prefix: string, term: string)
    requires '_' !in prefix
    ensures AfterFirstUnderscore(prefix + "_" + term) == term
    decreases |prefix|
  {
    var d := prefix + "_" + term;
    if |prefix| == 0 {
      assert d == "_" + term;
      assert d[1..] == term;
    } else {
      assert d[|prefix|] == '_';
      assert d[1..] == prefix[1..] + "_" + term;
      AfterFirstUnderscoreOfPrefixed(prefix[1..], term);
    }
  }

  /**
   * One step of the wizard. Picking a price takes the callback's last
   * segment; a typed price must be all digits or the step repeats; any
   * deadline text is taken as is. Accepting needs the order to exist and
   * may start over from any step.
   */
  function OfferStepOn(s: Store, step: OfferStep, input: OfferInput): (r: OfferStep)
    ensures input.Accept? ==>
              r == (if FindOrder(s, input.orderId).Some? then AskPrice(input.orderId) else step)
    ensures input.PriceText? && step.AskPrice? ==>
              r == (if IsDigits(input.text) then AskDeadline(step.orderId, input.text) else step)
    ensures r.AskDeadline? && !step.AskDeadline? ==> IsDigits(r.price) || (input.PricePick? && r.price == AfterLast(input.data, '_'))
    ensures !input.Accept? && (step.NotOffering? || step.ConfirmTerms?) ==> r == step
    ensures r.ConfirmTerms? && !step.ConfirmTerms? ==>
              step.AskComment? && r.orderId == step.orderId && r.price == step.price && r.deadline == step.deadline
  {
    match input
    case Accept(id) => if FindOrder(s, id).Some? then AskPrice(id) else step
    case PricePick(data) =>
      if step.AskPrice? && "price_" <= data then
        if data == "price_manual" then step else AskDeadline(step.orderId, AfterLast(data, '_'))
      else step
    case PriceText(text) =>
      if step.AskPrice? then (if IsDigits(text) then AskDeadline(step.orderId, text) else step) else step
    case DeadlinePick(data) =>
      if step.AskDeadline? && "deadline_" <= data then
        if data == "deadline_manual" then step else AskComment(step.orderId, step.price, AfterFirstUnderscore(data))
      else step
    case DeadlineText(text) =>
      if step.AskDeadline? then AskComment(step.orderId, step.price, text) else step
    case CommentText(text) =>
      if step.AskComment? then ConfirmTerms(step.orderId, step.price, step.deadline, text) else step
    case SkipComment =>
      if step.AskComment? then ConfirmTerms(step.orderId, step.price, step.deadline, "") else step
  }

  /** A picked deadline keeps everything after "deadline_", underscores included. */
  lemma DeadlinePickKeepsTerm(s: Store, orderId: int, price: string, term: string)
    requires term != "manual"
    ensures OfferStepOn(s, AskDeadline(orderId, price), DeadlinePick("deadline_" + term))
            == AskComment(orderId, price, term)
  {
    DeadlineCallback(term);
  }

  /** The callback of a deadline button: its prefix, the term after it, and not the "manual" button. */
  lemma DeadlineCallback(term: string)
    ensures "deadline_" <= "deadline_" + term
    ensures AfterFirstUnderscore("deadline_" + term) == term
    ensures term != "manual" ==> "deadline_" + term != "deadline_manual"
  {
    var d := "deadline_" + term;
    assert "deadline_" == "deadline" + "_";
    AfterFirstUnderscoreOfPrefixed("deadline", term);
    assert d[..9] == "deadline_" && d[9..] == term;
    assert "deadline_manual"[9..] == "manual";
  }

  // ----- sending the offer -----

  /** The offer an executor's confirmed terms become; the admin price is not set yet. */
  function OfferFrom(step: OfferStep, executor: int, username: Option<string>, fullName: string): (o: Offer)
    requires step.ConfirmTerms?
    ensures o.executorId == executor && o.adminPrice.None?
    ensures o.price == step.price && o.deadline == step.deadline && o.comment == step.comment
  {
    Offer(executor, step.price, step.deadline, username, fullName, step.comment, None)
  }

  /**
   * `executor_send_offer_handler`: the order waits for confirmation and
   * carries the offer; the file is written whether or not the order was
   * found, then the admin is told.
   */
  function SendOffer(s: Store, orderId: int, offer: Offer): (r: seq<Effect>)
    ensures |r| == 2 && r[0].Save? && r[1] == Notify(Admin, OfferReceived)
    ensures FindOrder(s, orderId).None? ==> r[0].store == s
    ensures FindOrder(s, orderId).Some? ==>
              var i := FindOrder(s, orderId).value;
              var t := r[0].store;
              && Edited(s, t, i, {FStatus, FOffers})
              && t[i].status == AwaitingConfirmation
              && t[i].offers.Some? && offer in t[i].offers.value
              && (forall k | 0 <= k < |OffersOf(s[i])| && OffersOf(s[i])[k].executorId != offer.executorId ::
                    OffersOf(s[i])[k] in t[i].offers.value)
              && t[i].offers.value == Upsert(OffersOf(s[i]), offer)
  {
    match FindOrder(s, orderId)
    case None => [Save(s), Notify(Admin, OfferReceived)]
    case Some(i) =>
      var offers := Upsert(OffersOf(s[i]), offer);
      [Save(s[i := s[i].(status := AwaitingConfirmation, offers := Some(offers))]), Notify(Admin, OfferReceived)]
  }

  // ----- the admin's price override -----

  datatype PriceReview =
    | NotANumber                  // the text is not all digits; the step repeats
    | NoOffer                     // the order has no offer; nothing is written
    | BadOfferPrice               // the offer's price is not a whole number: the handler fails
    | Reviewed(effects: seq<Effect>, executorPrice: Option<int>, total: Option<int>)

  /** The order with the admin's price put on its first offer. */
  function WithAdminPrice(o: Order, price: nat): (a: Order)
    requires OffersOf(o) != []
    ensures SameExcept(o, a, {FOffers})
    ensures a.offers.Some? && |a.offers.value| == |OffersOf(o)|
    ensures a.offers.value[0] == OffersOf(o)[0].(adminPrice := Some(price))
    ensures forall k | 0 < k < |OffersOf(o)| :: a.offers.value[k] == OffersOf(o)[k]
  {
    var offers := OffersOf(o);
    o.(offers := Some(offers[0 := offers[0].(adminPrice := Some(price))]))
  }

  /**
   * The admin's price `price` on the order at `i`: it is recorded on the
   * first offer, and the price the approval will carry is the admin's, or
   * the executor's own when the admin typed 0.
   */
  function PriceOnFirstOffer(s: Store, i: nat, price: nat): (r: PriceReview)
    requires i < |s|
    ensures r.NoOffer? <==> OffersOf(s[i]) == []
    ensures r.BadOfferPrice? <==> OffersOf(s[i]) != [] && ParseInt(OffersOf(s[i])[0].price).None?
    ensures !r.NotANumber?
    ensures r.Reviewed? ==>
              && |r.effects| == 1 && r.effects[0].Save?
              && r.effects[0].store == s[i := WithAdminPrice(s[i], price)]
              && r.executorPrice == ParseInt(OffersOf(s[i])[0].price) && r.executorPrice.Some?
              && r.total == (if price == 0 then r.executorPrice else Some(price))
  {
    var offers := OffersOf(s[i]);
    if offers == [] then NoOffer
    else match ParseInt(offers[0].price)
      case None => BadOfferPrice
      case Some(executorPrice) =>
        Reviewed([Save(s[i := WithAdminPrice(s[i], price)])], Some(executorPrice), if price == 0 then Some(executorPrice) else Some(price))
  }

  /**
   * `admin_process_new_price`: a typed price that is not all digits is
   * refused; an order that is not stored is written back unchanged with no
   * executor price; otherwise the price goes on the order's first offer.
   */
  function ReviewPrice(s: Store, orderId: int, text: string): (r: PriceReview)
    ensures !IsDigits(text) <==> r.NotANumber?
    ensures IsDigits(text) && FindOrder(s, orderId).None? ==>
              r == Reviewed([Save(s)], None, if DigitsValue(text) == 0 then None else Some(DigitsValue(text) as int))
    ensures IsDigits(text) && FindOrder(s, orderId).Some? ==>
              r == PriceOnFirstOffer(s, FindOrder(s, orderId).value, DigitsValue(text))
  {
    if !IsDigits(text) then NotANumber
    else
      var price := DigitsValue(text);
      match FindOrder(s, orderId)
      case None => Reviewed([Save(s)], None, if price == 0 then None else Some(price))
      case Some(i) => PriceOnFirstOffer(s, i, price)
  }

  // ----- approving and rejecting -----

  /** The admin picked a specific executor's offer and the order has offers. */
  predicate PicksOffer(o: Order, executor: Option<int>) {
    executor.Some? && o.offers.Some? && o.offers.value != []
  }

  /** The order after approval at `price`, possibly naming the chosen executor. */
  function Approved(o: Order, price: int, executor: Option<int>): (a: Order)
    ensures SameExcept(o, a, {FStatus, FFinalPrice, FExecutor, FOffers})
    ensures a.status == AwaitingPayment && a.finalPrice == Some(Whole(price))
    ensures !PicksOffer(o, executor) ==> a.offers == o.offers && a.executorId == o.executorId
    ensures PicksOffer(o, executor) ==> a.offers.None?
    ensures PicksOffer(o, executor) ==>
              a.executorId == (if OfferSlot(o.offers.value, executor.value).Some? then executor else o.executorId)
  {
    var a := o.(status := AwaitingPayment, finalPrice := Some(Whole(price)));
    if PicksOffer(o, executor) then
      if OfferSlot(o.offers.value, executor.value).Some? then a.(executorId := executor, offers := None)
      else a.(offers := None)
    else a
  }

  /** Who the approval message goes to as written: the first offer left on the order. */
  function ApprovalNoticeAsWritten(a: Order): (r: seq<Effect>)
    ensures NoSave(r) && |r| <= 1
    ensures a.offers.None? ==> r == []
  {
    if a.offers.Some? && a.offers.value != [] then NotifyIf(a.offers.value[0].executorId, OfferApproved) else []
  }

  /**
   * `admin_final_approve` as written: once the admin picked an executor's
   * offer the offers are deleted before the notice looks the executor up
   * in them, so the chosen executor is never told.
   */
  function ApproveOfferAsWritten(s: Store, orderId: int, price: int, executor: Option<int>): (r: seq<Effect>)
    ensures FindOrder(s, orderId).None? ==> r == []
    ensures FindOrder(s, orderId).Some? ==>
              var i := FindOrder(s, orderId).value;
              |r| > 0 && r[0] == Save(s[i := Approved(s[i], price, executor)])
  {
    match FindOrder(s, orderId)
    case None => []
    case Some(i) =>
      var a := Approved(s[i], price, executor);
      [Save(s[i := a])] + NotifyIf(a.userId, PayRequest) + ApprovalNoticeAsWritten(a)
  }

  /** Picking an executor's offer sends no approval notice to anyone. */
  lemma ChosenExecutorNotToldAsWritten(s: Store, orderId: int, price: int, e: int)
    requires FindOrder(s, orderId).Some?
    requires PicksOffer(s[FindOrder(s, orderId).value], Some(e))
    ensures forall k | 0 <= k < |ApproveOfferAsWritten(s, orderId, price, Some(e))| ::
              ApproveOfferAsWritten(s, orderId, price, Some(e))[k] != Notify(User(e), OfferApproved)
  {
    var i := FindOrder(s, orderId).value;
    var a := Approved(s[i], price, Some(e));
    assert ApprovalNoticeAsWritten(a) == [];
  }

  /** Who the approval message is meant for: the picked executor, else the first offer's. */
  function ApprovalNotice(o: Order, a: Order, executor: Option<int>): (r: seq<Effect>)
    ensures NoSave(r) && |r| <= 1
    ensures PicksOffer(o, executor) ==> (Notify(User(executor.value), OfferApproved) in r <==> executor.value != 0)
  {
    if PicksOffer(o, executor) then NotifyIf(executor.value, OfferApproved) else ApprovalNoticeAsWritten(a)
  }

  /**
   * `admin_final_approve`: the order waits for payment at the approved
   * price; when the admin picked an executor's offer, that executor is
   * assigned (if they had an offer) and the offers are cleared. The client
   * is asked to pay and the executor is told.
   */
  function ApproveOffer(s: Store, orderId: int, price: int, executor: Option<int>): (r: seq<Effect>)
    ensures FindOrder(s, orderId).None? ==> r == []
    ensures FindOrder(s, orderId).Some? ==>
              var i := FindOrder(s, orderId).value;
              && |r| > 0 && r[0].Save?
              && Edited(s, r[0].store, i, {FStatus, FFinalPrice, FExecutor, FOffers})
              && r[0].store[i].status == AwaitingPayment
              && r[0].store[i].finalPrice == Some(Whole(price))
              && (Notify(User(s[i].userId), PayRequest) in r <==> s[i].userId != 0)
              && (PicksOffer(s[i], executor) && executor.value != 0 ==> Notify(User(executor.value), OfferApproved) in r)
    ensures r[..] != [] ==> r[0] == ApproveOfferAsWritten(s, orderId, price, executor)[0]
  {
    match FindOrder(s, orderId)
    case None => []
    case Some(i) =>
      var a := Approved(s[i], price, executor);
      [Save(s[i := a])] + NotifyIf(a.userId, PayRequest) + ApprovalNotice(s[i], a, executor)
  }

  /** Who hears about the rejection: the executor named in the callback, else the first offer's. */
  function RejectionTarget(o: Order, executor: Option<int>): (r: Option<int>)
    ensures Present(executor) ==> r == executor
    ensures r.None? <==> !Present(executor) && (o.offers.None? || o.offers.value == [])
    ensures !Present(executor) && r.Some? ==>
              o.offers.Some? && o.offers.value != [] && r.value == o.offers.value[0].executorId
  {
    if Present(executor) then executor
    else if o.offers.Some? && o.offers.value != [] then Some(o.offers.value[0].executorId)
    else None
  }

  /** The order after a rejection. */
  function Rejected(o: Order, executor: Option<int>): (a: Order)
    ensures SameExcept(o, a, {FStatus, FExecutor, FOffers})
    ensures a.status == UnderReview && a.executorId.None?
    ensures a.offers.Some? ==> a.offers.value != [] && Present(executor) && o.offers.Some?
    ensures a.offers.Some? ==> forall k | 0 <= k < |a.offers.value| ::
              a.offers.value[k].executorId != executor.value && a.offers.value[k] in o.offers.value
    ensures Present(executor) && o.offers.Some? ==>
              forall k | 0 <= k < |o.offers.value| && o.offers.value[k].executorId != executor.value ::
                a.offers.Some? && o.offers.value[k] in a.offers.value
  {
    var b := o.(status := UnderReview, executorId := None);
    if o.offers.Some? && Present(executor) then
      var rest := Keep(o.offers.value, (x: Offer) => x.executorId != executor.value);
      b.(offers := if rest == [] then None else Some(rest))
    else b.(offers := None)
  }

  /**
   * `admin_final_reject`: the executor is told first (the one named in the
   * callback, else the first offer's, and nobody when there is neither or
   * their id is 0), then the order is saved as `Rejected` makes it: back
   * under review without an executor. An executor named in the callback
   * loses only their own offers, the field dropped once none remain;
   * otherwise all offers go.
   */
  function RejectOffer(s: Store, orderId: int, executor: Option<int>): (r: seq<Effect>)
    ensures FindOrder(s, orderId).None? ==> r == []
    ensures FindOrder(s, orderId).Some? ==>
              var i := FindOrder(s, orderId).value;
              && |r| > 0 && r[|r| - 1].Save?
              && Edited(s, r[|r| - 1].store, i, {FStatus, FExecutor, FOffers})
              && r[|r| - 1].store[i].status == UnderReview
              && r[|r| - 1].store[i].executorId.None?
              && (Present(executor) ==> r[0] == Notify(User(executor.value), OfferDeclined))
    ensures FindOrder(s, orderId).Some? ==>
              var i := FindOrder(s, orderId).value;
              var target := RejectionTarget(s[i], executor);
              && r[|r| - 1].store == s[i := Rejected(s[i], executor)]
              && |r| == 1 + (if target.Some? && target.value != 0 then 1 else 0)
              && (!Present(executor) && s[i].offers.Some? && s[i].offers.value != []
                  && s[i].offers.value[0].executorId != 0 ==>
                    r[0] == Notify(User(s[i].offers.value[0].executorId), OfferDeclined))
              && (!Present(executor) && (s[i].offers.None? || s[i].offers.value == []) ==> |r| == 1)
    ensures forall k | 0 <= k < |r| - 1 :: !r[k].Save?
  {
    match FindOrder(s, orderId)
    case None => []
    case Some(i) =>
      var notice := match RejectionTarget(s[i], executor)
        case None => []
        case Some(e) => NotifyIf(e, OfferDeclined);
      notice + [Save(s[i := Rejected(s[i], executor)])]
  }

  /**
   * The first offer on an order, priced by the admin: typing `str(n)`
   * puts n on that offer, and the approval will carry n, or the
   * executor's own price when n is 0.
   */
  lemma OfferThenPriceReview(s: Store, orderId: int, offer: Offer, n: nat)
    requires FindOrder(s, orderId).Some? && OffersOf(s[FindOrder(s, orderId).value]) == []
    requires ParseInt(offer.price).Some?
    ensures var i := FindOrder(s, orderId).value;
            var t := SendOffer(s, orderId, offer)[0].store;
            var r := ReviewPrice(t, orderId, Decimal(n));
            && r.Reviewed?
            && r.effects[0].store[i].offers == Some([offer.(adminPrice := Some(n))])
            && r.total == (if n == 0 then ParseInt(offer.price) else Some(n))
  {
    var i := FindOrder(s, orderId).value;
    var t := SendOffer(s, orderId, offer)[0].store;
    FirstOfferSent(s, orderId, offer);
    DecimalRoundTrip(n);
    assert ReviewPrice(t, orderId, Decimal(n)) == PriceOnFirstOffer(t, i, n);
    var w := WithAdminPrice(t[i], n);
    assert w.offers.value == [offer.(adminPrice := Some(n))];
  }

  /** The offer sent to an order without offers is its only offer, found where it was. */
  lemma FirstOfferSent(s: Store, orderId: int, offer: Offer)
    requires FindOrder(s, orderId).Some? && OffersOf(s[FindOrder(s, orderId).value]) == []
    ensures var i := FindOrder(s, orderId).value;
            var t := SendOffer(s, orderId, offer)[0].store;
            FindOrder(t, orderId) == Some(i) && OffersOf(t[i]) == [offer]
  {
    var i := FindOrder(s, orderId).value;
    var t := SendOffer(s, orderId, offer)[0].store;
    EditedKeepsFind(s, t, i, {FStatus, FOffers}, orderId);
    assert OfferSlot([], offer.executorId).None?;
    assert [] + [offer] == [offer];
  }

  /**
   * An executor whose offer the admin rejects is told, and no offer of
   * theirs is left on the order, whatever other offers it has.
   */
  lemma SentThenRejectedLeavesNoOffer(s: Store, orderId: int, offer: Offer)
    requires FindOrder(s, orderId).Some? && offer.executorId != 0
    ensures var i := FindOrder(s, orderId).value;
            var t := SendOffer(s, orderId, offer)[0].store;
            var r := RejectOffer(t, orderId, Some(offer.executorId));
            && r[0] == Notify(User(offer.executorId), OfferDeclined)
            && var a := r[|r| - 1].store[i];
               a.offers.Some? ==> forall k | 0 <= k < |a.offers.value| :: a.offers.value[k].executorId != offer.executorId
  {
    var i := FindOrder(s, orderId).value;
    var t := SendOffer(s, orderId, offer)[0].store;
    EditedKeepsFind(s, t, i, {FStatus, FOffers}, orderId);
  }
}

=== FILE: order_form.dfy ===
/**
 * The client's order form: the steps it walks through, where "Назад"
 * leads from each of them, and which uploaded files it accepts.
 */
module OrderForm {
  import opened Text

  /** The steps of the order form (`OrderState`), in declaration order. */
  datatype FormStep =
    | GroupName | UniversityName | TeacherName | Gradebook | Subject | SubjectOther
    | WorkType | WorkTypeOther | GuidelinesChoice | GuidelinesUpload | TaskUpload
    | ExampleChoice | ExampleUpload | Deadline | Comments | Confirmation

  /** The position of a step in the declaration. */
  function Index(step: FormStep): (r: nat)
    ensures r < 16
  {
    match step
    case GroupName => 0
    case UniversityName => 1
    case TeacherName => 2
    case Gradebook => 3
    case Subject => 4
    case SubjectOther => 5
    case WorkType => 6
    case WorkTypeOther => 7
    case GuidelinesChoice => 8
    case GuidelinesUpload => 9
    case TaskUpload => 10
    case ExampleChoice => 11
    case ExampleUpload => 12
    case Deadline => 13
    case Comments => 14
    case Confirmation => 15
  }

  /** The steps from which "Назад" abandons the whole form. */
  const NoWayBack: set<FormStep> := {GroupName, TeacherName, Gradebook, Subject, SubjectOther}

  /**
   * Where "Назад" leads (`back_transitions`); None means the form is
   * abandoned and the client is back in the main menu.
   */
  function Back(step: FormStep): (r: Option<FormStep>)
    ensures r.Some? ==> Index(r.value) < Index(step)
    ensures r.None? <==> step in NoWayBack
  {
    match step
    case UniversityName => Some(GroupName)
    case WorkType => Some(UniversityName)
    case WorkTypeOther => Some(WorkType)
    case GuidelinesChoice => Some(WorkType)
    case GuidelinesUpload => Some(GuidelinesChoice)
    case TaskUpload => Some(GuidelinesChoice)
    case ExampleChoice => Some(TaskUpload)
    case ExampleUpload => Some(ExampleChoice)
    case Deadline => Some(ExampleChoice)
    case Comments => Some(Deadline)
    case Confirmation => Some(Comments)
    case _ => None
  }

  /** Going back never lands on a step that itself offers no way back but the first one. */
  lemma BackLandsOnGroupOrLater(step: FormStep)
    requires Back(step).Some?
    ensures Back(step).value == GroupName || Back(step).value !in NoWayBack
  {
  }

  /** Each step of `path` is where "Назад" leads from the one before, and the last abandons the form. */
  predicate IsBackPath(path: seq<FormStep>) {
    && |path| >= 1
    && Back(path[|path| - 1]).None?
    && forall k | 0 <= k < |path| - 1 :: Back(path[k]) == Some(path[k + 1])
  }

  /**
   * The steps visited by pressing "Назад" again and again from `step`. The
   * form is abandoned within 16 presses.
   */
  function BackPath(step: FormStep): (r: seq<FormStep>)
    ensures IsBackPath(r) && r[0] == step
    ensures |r| <= Index(step) + 1
    decreases Index(step)
  {
    match Back(step)
    case None => [step]
    case Some(prev) =>
      var rest := BackPath(prev);
      ConsBackPath(step, rest);
      [step] + rest
  }

  lemma ConsBackPath(step: FormStep, rest: seq<FormStep>)
    requires IsBackPath(rest) && Back(step) == Some(rest[0])
    ensures IsBackPath([step] + rest)
  {
    var path := [step] + rest;
    forall k | 0 <= k < |path| - 1 ensures Back(path[k]) == Some(path[k + 1]) {
      if k > 0 {
        assert path[k] == rest[k - 1] && path[k + 1] == rest[k];
      }
    }
  }

  /** Along a back path every step is strictly earlier than the one before. */
  lemma BackPathDescends(path: seq<FormStep>)
    requires IsBackPath(path)
    ensures forall k | 0 <= k < |path| - 1 :: Index(path[k + 1]) < Index(path[k])
  {
    forall k | 0 <= k < |path| - 1 ensures Index(path[k + 1]) < Index(path[k]) {
      assert Back(path[k]) == Some(path[k + 1]);
    }
  }

  /** From the confirmation, "Назад" walks back past the teacher, gradebook and subject questions. */
  lemma BackFromConfirmation()
    ensures BackPath(Confirmation) == [Confirmation, Comments, Deadline, ExampleChoice, TaskUpload,
                                       GuidelinesChoice, WorkType, UniversityName, GroupName]
  {
    assert BackPath(GroupName) == [GroupName];
    assert BackPath(UniversityName) == [UniversityName, GroupName];
    assert BackPath(WorkType) == [WorkType, UniversityName, GroupName];
    assert BackPath(GuidelinesChoice) == [GuidelinesChoice] + BackPath(WorkType);
    assert BackPath(TaskUpload) == [TaskUpload] + BackPath(GuidelinesChoice);
    assert BackPath(ExampleChoice) == [ExampleChoice] + BackPath(TaskUpload);
    assert BackPath(Deadline) == [Deadline] + BackPath(ExampleChoice);
    assert BackPath(Comments) == [Comments] + BackPath(Deadline);
    assert BackPath(Confirmation) == [Confirmation] + BackPath(Comments);
  }

  /** The file types a document may have (`ALLOWED_EXTENSIONS`). */
  const Allowed: set<string> := {"pdf", "docx", "png", "jpeg", "jpg"}

  /** The largest file accepted, 15 MB (`MAX_FILE_SIZE`). */
  const MaxFileSize: nat := 15 * 1024 * 1024

  /** The position of the last '.' in a text. */
  function LastDot(s: string): (r: Option<nat>)
    ensures r.Some? ==> r.value < |s| && s[r.value] == '.' && forall j | r.value < j < |s| :: s[j] != '.'
    ensures r.None? ==> forall j | 0 <= j < |s| :: s[j] != '.'
  {
    if |s| == 0 then None
    else if s[|s| - 1] == '.' then Some(|s| - 1)
    else LastDot(s[..|s| - 1])
  }

  predicate AllDots(s: string) {
    forall k | 0 <= k < |s| :: s[k] == '.'
  }

  /**
   * `os.path.splitext(name)[-1]` on POSIX: from the last '.' of the file
   * name on, unless only dots precede that '.' in the name (a hidden file
   * such as ".pdf" has no extension).
   */
  function SplitExt(name: string): string {
    BaseExt(AfterLast(name, '/'))
  }

  /** The extension part of a base name. */
  function BaseExt(b: string): string {
    match LastDot(b)
    case None => []
    case Some(k) => if AllDots(b[..k]) then [] else b[k..]
  }

  /** `splitext(name)[-1][1:].lower()`: the lower-cased extension without its dot. */
  function Extension(name: string): string {
    var e := SplitExt(name);
    if |e| == 0 then [] else Lower(e[1..])
  }

  /** The last '.' of "<x>.<ext>" is the one before ext when ext has none. */
  lemma {:induction false} LastDotBeforeSuffix(x: string, ext: string)
    requires forall k | 0 <= k < |ext| :: ext[k] != '.'
    ensures LastDot(x + "." + ext) == Some(|x|)
    decreases |ext|
  {
    if |ext| > 0 {
      var e' := ext[..|ext| - 1];
      assert (x + "." + ext)[..|x + "." + ext| - 1] == x + "." + e';
      LastDotBeforeSuffix(x, e');
    } else {
      assert x + "." + ext == x + ".";
    }
  }

  /** A name "<base>.<ext>" has the extension ext in lower case, when base ends in an ordinary character. */
  lemma ExtensionOf(base: string, ext: string)
    requires |base| > 0 && base[|base| - 1] != '.' && base[|base| - 1] != '/'
    requires forall k | 0 <= k < |ext| :: ext[k] != '.' && ext[k] != '/'
    ensures Extension(base + "." + ext) == Lower(ext)
  {
    SplitExtOf(base, ext);
    assert ("." + ext)[1..] == ext;
  }

  lemma SplitExtOf(base: string, ext: string)
    requires |base| > 0 && base[|base| - 1] != '.' && base[|base| - 1] != '/'
    requires forall k | 0 <= k < |ext| :: ext[k] != '.' && ext[k] != '/'
    ensures SplitExt(base + "." + ext) == "." + ext
  {
    assert base + "." + ext == base + ("." + ext);
    AfterLastOfSuffix(base, "." + ext, '/');
    var x := AfterLast(base, '/');
    BaseNameKeepsLast(base);
    assert x + ("." + ext) == x + "." + ext;
    BaseExtOf(x, ext);
  }

  lemma BaseNameKeepsLast(p: string)
    requires |p| > 0 && p[|p| - 1] != '/'
    ensures |AfterLast(p, '/')| > 0 && AfterLast(p, '/')[|AfterLast(p, '/')| - 1] == p[|p| - 1]
  {
  }

  lemma BaseExtOf(x: string, ext: string)
    requires |x| > 0 && x[|x| - 1] != '.'
    requires forall k | 0 <= k < |ext| :: ext[k] != '.'
    ensures BaseExt(x + "." + ext) == "." + ext
  {
    var b := x + "." + ext;
    LastDotBeforeSuffix(x, ext);
    assert b[..|x|] == x;
    assert !AllDots(x) by { assert x[|x| - 1] != '.'; }
    assert b[|x|..] == "." + ext;
  }

  /** A file name made only of dots before its last '.' has no extension. */
  lemma HiddenFileHasNoExtension(ext: string)
    requires forall k | 0 <= k < |ext| :: ext[k] != '.' && ext[k] != '/'
    ensures Extension("." + ext) == []
  {
    AfterLastOfSuffix([], "." + ext, '/');
    assert [] + ("." + ext) == "." + ext;
    assert AfterLast([], '/') == [];
    LastDotBeforeSuffix([], ext);
    assert [] + "." + ext == "." + ext;
    assert AllDots(("." + ext)[..0]);
    assert BaseExt("." + ext) == [];
  }

  /** A file as the client sends it; a photo is its largest size. */
  datatype Upload =
    | Document(fileId: string, fileName: string, size: nat)
    | Photo(fileId: string, size: nat)

  datatype FileKind = DocumentFile | PhotoFile

  /** What the order keeps of an accepted file. */
  datatype Attachment = Attachment(id: string, kind: FileKind)

  datatype Verdict = Taken(file: Attachment) | WrongType | TooLarge

  /**
   * The upload check of the guidelines, task and example steps: a document
   * must have an allowed extension and then a size of at most 15 MB; a photo
   * only has the size limit.
   */
  function CheckUpload(u: Upload): (r: Verdict)
    ensures r.Taken? <==> u.size <= MaxFileSize && (u.Document? ==> Extension(u.fileName) in Allowed)
    ensures r.WrongType? <==> u.Document? && Extension(u.fileName) !in Allowed
    ensures r.Taken? ==> r.file.id == u.fileId && (r.file.kind == DocumentFile <==> u.Document?)
  {
    match u
    case Document(id, name, size) =>
      if Extension(name) !in Allowed then WrongType
      else if size > MaxFileSize then TooLarge
      else Taken(Attachment(id, DocumentFile))
    case Photo(id, size) =>
      if size > MaxFileSize then TooLarge else Taken(Attachment(id, PhotoFile))
  }

  /** A document named "<base>.<ext>" of at most 15 MB is taken exactly when the lower-cased ext is allowed. */
  lemma NamedDocumentVerdict(id: string, base: string, ext: string, size: nat)
    requires |base| > 0 && base[|base| - 1] != '.' && base[|base| - 1] != '/'
    requires forall k | 0 <= k < |ext| :: ext[k] != '.' && ext[k] != '/'
    requires size <= MaxFileSize
    ensures CheckUpload(Document(id, base + "." + ext, size)).Taken? <==> Lower(ext) in Allowed
  {
    ExtensionOf(base, ext);
  }

  /** A document called ".<ext>" is refused for its type, even ".pdf": it has no extension. */
  lemma HiddenFileRefused(id: string, ext: string, size: nat)
    requires forall k | 0 <= k < |ext| :: ext[k] != '.' && ext[k] != '/'
    ensures CheckUpload(Document(id, "." + ext, size)) == WrongType
  {
    HiddenFileHasNoExtension(ext);
    EmptyNotAllowed(Extension("." + ext));
    NotAllowedRefused(id, "." + ext, size);
  }

  lemma EmptyNotAllowed(e: string)
    requires e == []
    ensures e !in Allowed
  {
  }

  lemma NotAllowedRefused(id: string, name: string, size: nat)
    requires Extension(name) !in Allowed
    ensures CheckUpload(Document(id, name, size)) == WrongType
  {
  }

  /** The files the form has collected so far. */
  datatype Draft = Draft(guidelines: Option<Attachment>, taskText: Option<string>,
                         taskFile: Option<Attachment>, example: Option<Attachment>)

  predicate IsUploadStep(step: FormStep) {
    step.GuidelinesUpload? || step.TaskUpload? || step.ExampleUpload?
  }

  /** The draft keeps `f` in the slot of upload step `step`; a task file replaces the task text. */
  predicate Holds(step: FormStep, d: Draft, f: Attachment) {
    match step
    case GuidelinesUpload => d.guidelines == Some(f)
    case TaskUpload => d.taskFile == Some(f) && d.taskText.None?
    case ExampleUpload => d.example == Some(f)
    case _ => false
  }

  datatype FormInput = Sent(upload: Upload) | TextSent(text: string)

  datatype Filled = Filled(step: FormStep, draft: Draft)

  /**
   * The three upload steps. A refused file leaves the step and the draft as
   * they were; a taken one is stored and the form moves on. A text is the
   * task itself at the task step and is ignored at the other two.
   */
  function UploadStep(step: FormStep, draft: Draft, input: FormInput): (r: Filled)
    requires IsUploadStep(step)
    ensures r.step == step <==>
              (input.Sent? && !CheckUpload(input.upload).Taken?) || (input.TextSent? && !step.TaskUpload?)
    ensures r.step == step ==> r.draft == draft
    ensures r.step != step ==> Index(r.step) > Index(step)
    ensures input.Sent? && CheckUpload(input.upload).Taken? ==> Holds(step, r.draft, CheckUpload(input.upload).file)
    ensures input.TextSent? && step.TaskUpload? ==> r.draft.taskText == Some(input.text) && r.draft.taskFile.None?
  {
    match input
    case TextSent(text) =>
      if step == TaskUpload then Filled(ExampleChoice, draft.(taskText := Some(text), taskFile := None))
      else Filled(step, draft)
    case Sent(u) =>
      var v := CheckUpload(u);
      if v.Taken? then Filled(AfterUpload(step), Stored(step, draft, v.file)) else Filled(step, draft)
  }

  /** The step that follows a taken file. */
  function AfterUpload(step: FormStep): (r: FormStep)
    requires IsUploadStep(step)
    ensures Index(r) > Index(step)
  {
    match step
    case GuidelinesUpload => TaskUpload
    case TaskUpload => ExampleChoice
    case _ => Deadline
  }

  /** The draft with a taken file put in the slot of its step. */
  function Stored(step: FormStep, draft: Draft, f: Attachment): (r: Draft)
    requires IsUploadStep(step)
    ensures Holds(step, r, f)
  {
    match step
    case GuidelinesUpload => draft.(guidelines := Some(f))
    case TaskUpload => draft.(taskFile := Some(f), taskText := None)
    case _ => draft.(example := Some(f))
  }

  /**
   * After a taken guidelines or example file, "Назад" returns to the yes/no
   * question before the upload, not to the upload itself; after the task it
   * returns to the task step.
   */
  lemma BackAfterUpload(step: FormStep, draft: Draft, input: FormInput)
    requires IsUploadStep(step)
    requires UploadStep(step, draft, input).step != step
    ensures Back(UploadStep(step, draft, input).step) ==
              Some(match step case GuidelinesUpload => GuidelinesChoice
                              case TaskUpload => TaskUpload
                              case _ => ExampleChoice)
  {
  }
}

=== FILE: orders.dfy ===
/**
 * The order store: the order and offer records, the list they are kept in,
 * how the list is read, how handlers find and edit one order, how order ids
 * are chosen, and the effects a handler has on the outside world.
 */
module Orders {
  import opened Text
  import opened Shared

  // ----- records -----

  /**
   * `final_price`: the admin's approval stores a number, the admin's own
   * take-over stores the typed text. Truthiness differs: 0 is falsy, "0" is not.
   */
  datatype Amount = Whole(n: int) | Written(text: string)

  predicate AmountTruthy(a: Amount) {
    match a
    case Whole(n) => n != 0
    case Written(t) => t != []
  }

  /** One executor's proposed terms for an order (an `executor_offers` entry). */
  datatype Offer = Offer(
    executorId: int,
    price: string,
    deadline: string,
    username: Option<string>,
    fullName: string,
    comment: string,
    adminPrice: Option<int>)

  /** A file an executor or the admin hands in as the finished work. */
  datatype WorkFile = WorkFile(fileId: string, fileName: string)

  /**
   * A stored order. Fields the lifecycle never rewrites come first; an
   * absent JSON key and a JSON null are both None.
   */
  datatype Order = Order(
    orderId: int,
    userId: int,
    subject: string,
    hasMaterials: bool,        // any of the guidelines, task or example is attached
    deadlineDate: Option<int>, // a legacy date the client gave, as a day number
    status: Status,
    executorId: Option<int>,
    offers: Option<seq<Offer>>,
    legacyOffer: Option<Offer>, // the older single `executor_offer` key
    finalPrice: Option<Amount>,
    deadline: string,
    dueDate: Option<int>,
    executorName: Option<string>,
    selfTakeComment: Option<string>,
    submittedWork: Option<WorkFile>,
    submittedAt: Option<int>,
    revisionComment: Option<string>,
    cancelReason: Option<string>,
    cancelComment: Option<string>)

  type Store = seq<Order>

  /** The rewritable fields, for saying which ones a handler touches. */
  datatype Field =
    | FStatus | FExecutor | FOffers | FLegacyOffer | FFinalPrice | FDeadline | FDueDate
    | FExecutorName | FSelfTakeComment | FSubmittedWork | FSubmittedAt | FRevision
    | FCancelReason | FCancelComment

  /** `b` is `a` with at most the fields in `changed` rewritten. */
  predicate SameExcept(a: Order, b: Order, changed: set<Field>) {
    && a.orderId == b.orderId && a.userId == b.userId && a.subject == b.subject
    && a.hasMaterials == b.hasMaterials && a.deadlineDate == b.deadlineDate
    && (FStatus !in changed ==> a.status == b.status)
    && (FExecutor !in changed ==> a.executorId == b.executorId)
    && (FOffers !in changed ==> a.offers == b.offers)
    && (FLegacyOffer !in changed ==> a.legacyOffer == b.legacyOffer)
    && (FFinalPrice !in changed ==> a.finalPrice == b.finalPrice)
    && (FDeadline !in changed ==> a.deadline == b.deadline)
    && (FDueDate !in changed ==> a.dueDate == b.dueDate)
    && (FExecutorName !in changed ==> a.executorName == b.executorName)
    && (FSelfTakeComment !in changed ==> a.selfTakeComment == b.selfTakeComment)
    && (FSubmittedWork !in changed ==> a.submittedWork == b.submittedWork)
    && (FSubmittedAt !in changed ==> a.submittedAt == b.submittedAt)
    && (FRevision !in changed ==> a.revisionComment == b.revisionComment)
    && (FCancelReason !in changed ==> a.cancelReason == b.cancelReason)
    && (FCancelComment !in changed ==> a.cancelComment == b.cancelComment)
  }

  /** `t` is `s` with only the order at `i` edited, and only in `changed`. */
  predicate Edited(s: Store, t: Store, i: int, changed: set<Field>) {
    && 0 <= i < |s| == |t|
    && (forall j | 0 <= j < |s| && j != i :: t[j] == s[j])
    && SameExcept(s[i], t[i], changed)
  }

  // ----- the effects of a handler -----

  datatype Recipient = Admin | User(id: int)

  /** The notifications the lifecycle sends, by what they announce. */
  datatype Note =
    | NewOrder | OrderOffered | OfferReceived | PayRequest | OfferApproved | OfferDeclined
    | PaymentProof | PaymentConfirmed | WorkPaid | PaymentDeclined | PaymentCancelled
    | WorkForReview | WorkReady | RevisionRequested | WorkAccepted
    | OrderCancelled | ExecutorWithdrew

  /**
   * What a handler does, in order: overwrite the order file, message
   * someone, or append to, update or delete from the spreadsheet mirror.
   */
  datatype Effect =
    | Save(store: Store)
    | Notify(to: Recipient, note: Note)
    | MirrorAppend(orderId: int)
    | MirrorUpsert(orderId: int)
    | MirrorDelete(orderId: int)

  /** The effects write nothing to the order file. */
  predicate NoSave(es: seq<Effect>) {
    forall k | 0 <= k < |es| :: !es[k].Save?
  }

  /** `user` is a recipient worth messaging: Python treats id 0 as missing. */
  function NotifyIf(user: int, note: Note): (r: seq<Effect>)
    ensures NoSave(r)
    ensures Notify(User(user), note) in r <==> user != 0
  {
    if user != 0 then [Notify(User(user), note)] else []
  }

  // ----- reading the file -----

  /**
   * The order file as the bot finds it on disk. `NotAList` is JSON of some
   * other kind; `iteratesEmpty` says whether a `for` loop over it sees no
   * item at all (an empty object or string), where any other value raises.
   */
  datatype StoreFile = Absent | Empty | Unparseable | NotAList(iteratesEmpty: bool) | OrderList(orders: Store)

  /** `get_all_orders` */
  function ReadOrders(f: StoreFile): (r: Store)
    ensures f.OrderList? ==> r == f.orders
    ensures !f.OrderList? ==> r == []
  {
    if f.OrderList? then f.orders else []
  }

  // ----- finding and filtering -----

  /** The index of the first element satisfying `p`. */
  function First<T>(s: seq<T>, p: T -> bool): (r: Option<nat>)
    ensures r.Some? ==> r.value < |s| && p(s[r.value])
    ensures r.Some? ==> forall j | 0 <= j < r.value :: !p(s[j])
    ensures r.None? ==> forall j | 0 <= j < |s| :: !p(s[j])
  {
    if |s| == 0 then None
    else if p(s[0]) then Some(0)
    else match First(s[1..], p)
      case None => None
      case Some(k) => Some(k + 1)
  }

  /** Two tests that agree on every element find the same first match. */
  lemma {:induction false} FirstAgrees<T>(s: seq<T>, p: T -> bool, q: T -> bool)
    requires forall j | 0 <= j < |s| :: p(s[j]) == q(s[j])
    ensures First(s, p) == First(s, q)
  {
    if |s| > 0 {
      FirstAgrees(s[1..], p, q);
    }
  }

  /** The first order whose id prints as `key`. */
  function KeyedOrder(s: Store, key: string): (r: Option<nat>)
    ensures r.Some? ==> r.value < |s| && IntText(s[r.value].orderId) == key
    ensures r.Some? ==> forall j | 0 <= j < r.value :: IntText(s[j].orderId) != key
    ensures r.None? <==> forall j | 0 <= j < |s| :: IntText(s[j].orderId) != key
  {
    First(s, (o: Order) => IntText(o.orderId) == key)
  }

  /** `r` is `s` with some elements left out and the rest in their order. */
  predicate IsSubsequence<T(==)>(r: seq<T>, s: seq<T>)
    decreases |s|
  {
    |r| == 0 || (|s| > 0 && ((r[0] == s[0] && IsSubsequence(r[1..], s[1..])) || IsSubsequence(r, s[1..])))
  }

  /** The elements satisfying `p`, in their original order. */
  function Keep<T>(s: seq<T>, p: T -> bool): (r: seq<T>)
    ensures |r| <= |s| && IsSubsequence(r, s)
    ensures forall k | 0 <= k < |r| :: r[k] in s && p(r[k])
    ensures forall i | 0 <= i < |s| && p(s[i]) :: s[i] in r
    ensures (forall i | 0 <= i < |s| :: p(s[i])) ==> r == s
  {
    if |s| == 0 then []
    else
      var rest := Keep(s[1..], p);
      if p(s[0]) then
        assert ([s[0]] + rest)[1..] == rest;
        [s[0]] + rest
      else rest
  }

  /** Filtering a list with one more element at the end. */
  lemma {:induction false} KeepAppend<T>(s: seq<T>, x: T, p: T -> bool)
    ensures Keep(s + [x], p) == Keep(s, p) + (if p(x) then [x] else [])
    decreases |s|
  {
    if |s| == 0 {
      assert s + [x] == [x];
      assert Keep([x][1..], p) == [];
    } else {
      assert (s + [x])[0] == s[0];
      assert (s + [x])[1..] == s[1..] + [x];
      KeepAppend(s[1..], x, p);
    }
  }

  /** Filtering a concatenation filters each part. */
  lemma {:induction false} KeepConcat<T>(a: seq<T>, b: seq<T>, p: T -> bool)
    ensures Keep(a + b, p) == Keep(a, p) + Keep(b, p)
    decreases |a|
  {
    if |a| == 0 {
      assert a + b == b;
    } else {
      assert (a + b)[0] == a[0];
      assert (a + b)[1..] == a[1..] + b;
      KeepConcat(a[1..], b, p);
    }
  }

  /** Filtering out the one element around which the rest all pass. */
  lemma KeepDropsOne<T>(a: seq<T>, x: T, b: seq<T>, p: T -> bool)
    requires !p(x)
    requires forall k | 0 <= k < |a| :: p(a[k])
    requires forall k | 0 <= k < |b| :: p(b[k])
    ensures Keep(a + [x] + b, p) == a + b
  {
    KeepConcat(a + [x], b, p);
    KeepConcat(a, [x], p);
    assert Keep([x], p) == [] by {
      assert [x][0] == x && [x][1..] == [];
    }
    assert Keep(a, p) == a;
    assert Keep(b, p) == b;
    assert Keep(a, p) + Keep([x], p) == a;
  }

  /** The first order with id `id`: what every `for … break` lookup finds. */
  function FindOrder(s: Store, id: int): (r: Option<nat>)
    ensures r.Some? ==> r.value < |s| && s[r.value].orderId == id
    ensures r.Some? ==> forall j | 0 <= j < r.value :: s[j].orderId != id
    ensures r.None? ==> forall j | 0 <= j < |s| :: s[j].orderId != id
  {
    First(s, (o: Order) => o.orderId == id)
  }

  /** Editing one order in place keeps every lookup by id where it was. */
  lemma EditedKeepsFind(s: Store, t: Store, i: int, changed: set<Field>, id: int)
    requires Edited(s, t, i, changed)
    ensures FindOrder(t, id) == FindOrder(s, id)
  {
    EditedKeepsIds(s, t, i, changed);
  }

  /** The printed id names exactly the order with that id. */
  lemma KeyedByPrintedId(s: Store, orderId: int)
    ensures KeyedOrder(s, IntText(orderId)) == FindOrder(s, orderId)
  {
    forall j | 0 <= j < |s|
      ensures IntText(s[j].orderId) == IntText(orderId) <==> s[j].orderId == orderId
    {
      SameText(s[j].orderId, orderId);
    }
    FirstAgrees(s, (o: Order) => IntText(o.orderId) == IntText(orderId), (o: Order) => o.orderId == orderId);
  }

  /** Two ids print alike exactly when they are equal. */
  lemma SameText(m: int, n: int)
    ensures IntText(m) == IntText(n) <==> m == n
  {
    IntTextRoundTrip(m);
    IntTextRoundTrip(n);
  }

  // ----- order ids -----

  /** Ids rise strictly along the file. */
  predicate IdsIncreasing(s: Store) {
    forall i, j | 0 <= i < j < |s| :: s[i].orderId < s[j].orderId
  }

  /** No two orders share an id. */
  predicate UniqueIds(s: Store) {
    forall i, j | 0 <= i < |s| && 0 <= j < |s| && i != j :: s[i].orderId != s[j].orderId
  }

  lemma IncreasingIsUnique(s: Store)
    requires IdsIncreasing(s)
    ensures UniqueIds(s)
  {
    forall i, j | 0 <= i < |s| && 0 <= j < |s| && i != j
      ensures s[i].orderId != s[j].orderId
    {
      if i < j { assert s[i].orderId < s[j].orderId; } else { assert s[j].orderId < s[i].orderId; }
    }
  }

  /** Editing one order in place keeps every id where it was. */
  lemma EditedKeepsIds(s: Store, t: Store, i: int, changed: set<Field>)
    requires Edited(s, t, i, changed)
    ensures forall j | 0 <= j < |s| :: t[j].orderId == s[j].orderId
    ensures IdsIncreasing(s) ==> IdsIncreasing(t)
  {
    assert forall j | 0 <= j < |s| :: t[j].orderId == s[j].orderId by {
      forall j | 0 <= j < |s| ensures t[j].orderId == s[j].orderId {
        if j == i { assert SameExcept(s[i], t[i], changed); }
      }
    }
  }

  /** `t` holds the same ids as `s`, in the same places. */
  predicate SameIds(s: Store, t: Store) {
    |t| == |s| && forall j | 0 <= j < |s| :: t[j].orderId == s[j].orderId
  }

  /** Every file the effects write holds the same ids, in the same places, as `s`. */
  predicate IdsInPlace(s: Store, es: seq<Effect>) {
    forall k | 0 <= k < |es| && es[k].Save? :: SameIds(s, es[k].store)
  }

  /** Ids in place keep rising ids rising. */
  lemma SameIdsKeepRising(s: Store, t: Store)
    requires SameIds(s, t) && IdsIncreasing(s)
    ensures IdsIncreasing(t)
  {
  }

  /** A handler whose one write, first, edits one order in place keeps the ids in place. */
  lemma EditFirstKeepsIds(s: Store, r: seq<Effect>, i: int, changed: set<Field>)
    requires |r| >= 1 && r[0].Save? && Edited(s, r[0].store, i, changed)
    requires forall k | 1 <= k < |r| :: !r[k].Save?
    ensures IdsInPlace(s, r)
  {
    EditedKeepsIds(s, r[0].store, i, changed);
  }

  /** Filtering keeps a lower bound on the ids. */
  lemma {:induction false} KeepAbove(s: Store, p: Order -> bool, b: int)
    requires forall k | 0 <= k < |s| :: s[k].orderId > b
    ensures forall k | 0 <= k < |Keep(s, p)| :: Keep(s, p)[k].orderId > b
    decreases |s|
  {
    if |s| > 0 {
      var rest := Keep(s[1..], p);
      KeepAbove(s[1..], p, b);
      var head := if p(s[0]) then [s[0]] else [];
      assert Keep(s, p) == head + rest;
    }
  }

  lemma ConsIncreasing(x: Order, t: Store)
    requires IdsIncreasing(t)
    requires forall k | 0 <= k < |t| :: x.orderId < t[k].orderId
    ensures IdsIncreasing([x] + t)
  {
    var r := [x] + t;
    forall i, j | 0 <= i < j < |r| ensures r[i].orderId < r[j].orderId {
      assert r[j] == t[j - 1];
      if i > 0 { assert r[i] == t[i - 1]; }
    }
  }

  /** Removing orders from an increasing file leaves it increasing. */
  lemma {:induction false} KeepKeepsIds(s: Store, p: Order -> bool)
    requires IdsIncreasing(s)
    ensures IdsIncreasing(Keep(s, p))
    decreases |s|
  {
    if |s| > 0 {
      var tail := s[1..];
      var rest := Keep(tail, p);
      assert IdsIncreasing(tail);
      KeepKeepsIds(tail, p);
      assert forall k | 0 <= k < |tail| :: tail[k].orderId > s[0].orderId by {
        forall k | 0 <= k < |tail| ensures tail[k].orderId > s[0].orderId {
          assert tail[k] == s[k + 1];
        }
      }
      KeepAbove(tail, p, s[0].orderId);
      if p(s[0]) {
        ConsIncreasing(s[0], rest);
      }
    }
  }

  /** A spreadsheet cell the id scan counts: not blank, not the header, all digits. */
  predicate CountedCell(x: string) {
    Strip(x) != [] && Lower(Strip(x)) != "номер заказа" && IsDigits(x)
  }

  /** The blank and header tests are implied by the digit test: only it matters. */
  lemma CountedCellIsDigits(x: string)
    ensures CountedCell(x) <==> IsDigits(x)
  {
    if IsDigits(x) {
      assert IsTrimmed(x);
      StripTrimmed(x);
      var low := Lower(x);
      assert low[0] == LowerChar(x[0]) == x[0];
      assert "номер заказа"[0] == 'н';
    }
  }

  lemma DigitCellsCounted(cells: seq<string>)
    ensures forall i | 0 <= i < |cells| && IsDigits(cells[i]) :: CountedCell(cells[i])
  {
    forall i | 0 <= i < |cells| && IsDigits(cells[i]) ensures CountedCell(cells[i]) {
      CountedCellIsDigits(cells[i]);
    }
  }

  /** What a cell contributes to the scan: its number when it is all digits, else 0. */
  function CellValue(x: string): nat {
    if IsDigits(x) then DigitsValue(x) else 0
  }

  /** A cell contributes exactly when the scan counts it. */
  lemma CellValueCounted(x: string)
    ensures CellValue(x) == (if CountedCell(x) then DigitsValue(x) else 0)
  {
    CountedCellIsDigits(x);
  }

  /** `get_max_order_id_from_gsheet`: the largest counted cell, 0 if none. */
  function MirrorMax(cells: seq<string>): (r: nat)
    ensures forall i | 0 <= i < |cells| :: CellValue(cells[i]) <= r
    ensures r == 0 || exists i | 0 <= i < |cells| :: CellValue(cells[i]) == r
  {
    if |cells| == 0 then 0
    else
      var rest := MirrorMax(cells[1..]);
      MirrorMaxTail(cells, rest);
      if CellValue(cells[0]) > rest then CellValue(cells[0]) else rest
  }

  lemma MirrorMaxTail(cells: seq<string>, rest: nat)
    requires |cells| > 0
    requires forall i | 0 <= i < |cells| - 1 :: CellValue(cells[1..][i]) <= rest
    requires rest == 0 || exists i | 0 <= i < |cells| - 1 :: CellValue(cells[1..][i]) == rest
    ensures forall i | 1 <= i < |cells| :: CellValue(cells[i]) <= rest
    ensures rest == 0 || exists i | 1 <= i < |cells| :: CellValue(cells[i]) == rest
  {
    assert forall i | 1 <= i < |cells| :: cells[i] == cells[1..][i - 1];
    if rest != 0 {
      var i :| 0 <= i < |cells| - 1 && CellValue(cells[1..][i]) == rest;
      assert cells[i + 1] == cells[1..][i];
    }
  }

  /** Every cell the scan counts (not blank, not the header, all digits) is at most the maximum. */
  lemma MirrorMaxBoundsCounted(cells: seq<string>)
    ensures forall i | 0 <= i < |cells| && CountedCell(cells[i]) :: DigitsValue(cells[i]) <= MirrorMax(cells)
  {
    forall i | 0 <= i < |cells| && CountedCell(cells[i]) ensures DigitsValue(cells[i]) <= MirrorMax(cells) {
      CellValueCounted(cells[i]);
    }
  }

  /** A cell holding `str(n)` bounds the scan from below. */
  lemma MirrorMaxSeesDecimal(cells: seq<string>, n: nat)
    requires Decimal(n) in cells
    ensures n <= MirrorMax(cells)
  {
    var i :| 0 <= i < |cells| && cells[i] == Decimal(n);
    CountedCellIsDigits(cells[i]);
    DecimalRoundTrip(n);
  }

  lemma LastIdIsLargest(s: Store)
    ensures IdsIncreasing(s) ==> forall j | 0 <= j < |s| :: s[j].orderId <= s[|s| - 1].orderId
  {
  }

  /** The id `orders[-1]['order_id'] if orders else 0` reads. */
  function LastId(s: Store): int {
    if |s| > 0 then s[|s| - 1].orderId else 0
  }

  /**
   * The id for a new order: one more than the larger of the last stored id
   * and the spreadsheet's largest id.
   */
  function NextOrderId(s: Store, cells: seq<string>): (r: int)
    ensures r - 1 >= LastId(s) && r - 1 >= MirrorMax(cells)
    ensures r - 1 == LastId(s) || r - 1 == MirrorMax(cells)
    ensures forall i | 0 <= i < |cells| && IsDigits(cells[i]) :: r > DigitsValue(cells[i])
    ensures IdsIncreasing(s) ==> forall j | 0 <= j < |s| :: r > s[j].orderId
  {
    DigitCellsCounted(cells);
    LastIdIsLargest(s);
    var m := MirrorMax(cells);
    (if LastId(s) > m then LastId(s) else m) + 1
  }

  // ----- saving a confirmed order -----

  /** Python truthiness of an optional id: missing and 0 are both false. */
  predicate Present(id: Option<int>) { id.Some? && id.value != 0 }

  /** A not-yet-confirmed copy of order `id` belonging to `user`. */
  predicate IsDraftOf(o: Order, id: int, user: int) {
    o.orderId == id && o.userId == user && o.status == Editing
  }

  /** Confirming (status under review, with an id and a client) clears that client's drafts of it. */
  predicate ClearsDrafts(data: Order, dataId: Option<int>) {
    data.status == UnderReview && Present(dataId) && data.userId != 0
  }

  function WithoutDrafts(s: Store, data: Order, dataId: Option<int>): (r: Store)
    ensures ClearsDrafts(data, dataId) ==>
              (forall k | 0 <= k < |r| :: r[k] in s && !IsDraftOf(r[k], dataId.value, data.userId))
              && (forall i | 0 <= i < |s| && !IsDraftOf(s[i], dataId.value, data.userId) :: s[i] in r)
    ensures ClearsDrafts(data, dataId) ==> IsSubsequence(r, s)
    ensures !ClearsDrafts(data, dataId) ==> r == s
  {
    if ClearsDrafts(data, dataId) then Keep(s, (o: Order) => !IsDraftOf(o, dataId.value, data.userId))
    else s
  }

  lemma WithoutDraftsKeepsIds(s: Store, data: Order, dataId: Option<int>)
    requires IdsIncreasing(s)
    ensures IdsIncreasing(WithoutDrafts(s, data, dataId))
  {
    if ClearsDrafts(data, dataId) {
      KeepKeepsIds(s, (o: Order) => !IsDraftOf(o, dataId.value, data.userId));
    }
  }

  /** The file after saving, and the id the order was saved under. */
  datatype Placed = Placed(store: Store, orderId: int)

  /** No stored order (drafts aside) carries the id, so a fresh one is drawn. */
  predicate NeedsNewId(s: Store, data: Order, dataId: Option<int>) {
    !(Present(dataId) && FindOrder(WithoutDrafts(s, data, dataId), dataId.value).Some?)
  }

  /**
   * `save_or_update_order`: an order that carries an id replaces the
   * stored order with that id; otherwise, or when none is stored, it is
   * appended under a fresh id. The spreadsheet's id column is read only
   * for a fresh id and without a `try`: `sheet` is None when that read
   * fails, and then the call raises (None) before anything is written.
   */
  function SaveOrUpdate(s: Store, data: Order, dataId: Option<int>, sheet: Option<seq<string>>): (r: Option<Placed>)
    ensures r.None? <==> NeedsNewId(s, data, dataId) && sheet.None?
    ensures var base := WithoutDrafts(s, data, dataId);
            !NeedsNewId(s, data, dataId) ==>
              r.Some? && r.value.orderId == dataId.value
              && |r.value.store| == |base|
              && r.value.store[FindOrder(base, dataId.value).value] == data.(orderId := dataId.value)
              && forall j | 0 <= j < |base| && j != FindOrder(base, dataId.value).value :: r.value.store[j] == base[j]
    ensures var base := WithoutDrafts(s, data, dataId);
            NeedsNewId(s, data, dataId) && r.Some? ==>
              r.value.store == base + [data.(orderId := r.value.orderId)]
              && r.value.orderId == NextOrderId(base, sheet.value)
              && (IdsIncreasing(s) ==> forall j | 0 <= j < |base| :: r.value.orderId > base[j].orderId)
    ensures r.Some? && ClearsDrafts(data, dataId) ==>
              forall k | 0 <= k < |r.value.store| :: !IsDraftOf(r.value.store[k], dataId.value, data.userId)
  {
    var base := WithoutDrafts(s, data, dataId);
    if !NeedsNewId(s, data, dataId) then
      var i := FindOrder(base, dataId.value).value;
      Some(Placed(base[i := data.(orderId := dataId.value)], dataId.value))
    else if sheet.None? then None
    else
      var id := NextOrderId(base, sheet.value);
      assert IdsIncreasing(s) ==> IdsIncreasing(base) by {
        if IdsIncreasing(s) { WithoutDraftsKeepsIds(s, data, dataId); }
      }
      Some(Placed(base + [data.(orderId := id)], id))
  }

  /** Saving keeps the file's ids rising, so the saved id is the only one of its kind. */
  lemma SaveOrUpdateKeepsIds(s: Store, data: Order, dataId: Option<int>, sheet: Option<seq<string>>)
    requires IdsIncreasing(s)
    ensures var r := SaveOrUpdate(s, data, dataId, sheet);
            r.Some? ==>
              IdsIncreasing(r.value.store)
              && forall k | 0 <= k < |r.value.store| && r.value.store[k].orderId == r.value.orderId ::
                   r.value.store[k] == data.(orderId := r.value.orderId)
  {
    var r := SaveOrUpdate(s, data, dataId, sheet);
    var base := WithoutDrafts(s, data, dataId);
    WithoutDraftsKeepsIds(s, data, dataId);
    if !NeedsNewId(s, data, dataId) {
      var i := FindOrder(base, dataId.value).value;
      assert forall j | 0 <= j < |base| :: r.value.store[j].orderId == base[j].orderId;
      IncreasingIsUnique(base);
    }
  }
}

=== FILE: payment.dfy ===
/**
 * Payment: the client's pay / paid / proof dialogue, the admin's verdict
 * on a proof, the client's cancellation of a payment, and the payment
 * module's own version of an executor giving an order up.
 */
module Payment {
  import opened Text
  import opened Shared
  import opened Orders
  import opened Negotiation
  import ExecutorMenu
  import Registry
  import Menus

  // ----- the price the client is asked to pay -----

  /** An amount as Python's `str` prints it. */
  function AmountText(a: Amount): (r: string)
    ensures a.Whole? ==> ParseInt(r) == Some(a.n)
    ensures a.Written? ==> r == a.text
  {
    match a
    case Whole(n) => IntTextRoundTrip(n); IntText(n)
    case Written(t) => t
  }

  /**
   * The sum in the payment and proof messages: the final price when it is
   * truthy, else the older single offer's price, else a dash.
   */
  function ShownPrice(o: Order): (r: string)
    ensures o.finalPrice.Some? && AmountTruthy(o.finalPrice.value) ==> r == AmountText(o.finalPrice.value)
    ensures !(o.finalPrice.Some? && AmountTruthy(o.finalPrice.value)) ==>
              r == (if o.legacyOffer.Some? then o.legacyOffer.value.price else "—")
  {
    if o.finalPrice.Some? && AmountTruthy(o.finalPrice.value) then AmountText(o.finalPrice.value)
    else if o.legacyOffer.Some? then o.legacyOffer.value.price
    else "—"
  }

  /** After the admin approves a non-zero price the client is asked for exactly that price. */
  lemma ApprovedPriceIsShown(o: Order, price: int, executor: Option<int>)
    requires price != 0
    ensures ParseInt(ShownPrice(Approved(o, price, executor))) == Some(price)
  {
    var a := Approved(o, price, executor);
    assert a.finalPrice == Some(Whole(price)) && AmountTruthy(Whole(price));
    assert ShownPrice(a) == AmountText(Whole(price));
  }

  /** A zero price is falsy: the client is shown the older offer's price, or a dash. */
  lemma ApprovedZeroFallsBack(o: Order, executor: Option<int>)
    ensures ShownPrice(Approved(o, 0, executor)) == (if o.legacyOffer.Some? then o.legacyOffer.value.price else "—")
  {
    var a := Approved(o, 0, executor);
    assert a.finalPrice == Some(Whole(0)) && !AmountTruthy(Whole(0));
  }

  // ----- the client's dialogue -----

  datatype PayStep = NotPaying | PaymentOpen(orderId: int) | ProofAwaited(orderId: int)

  datatype PayInput =
    | PayPressed(idText: string)      // "pay_<id>": the field after the first underscore
    | PaidPressed                     // "payment_paid:<id>"
    | ProofSent(isMedia: bool)        // a message; only a photo or a document counts
    | CancelPressed(idText: string)   // "payment_cancel:<id>": the text after the last colon

  datatype PayMoved = PayMoved(step: PayStep, effects: seq<Effect>)

  /**
   * `start_payment`, `payment_paid`, `payment_screenshot` and
   * `payment_cancel`: the client opens a payment for an existing order,
   * says they paid, then sends a photo or a document, which goes to the
   * admin. Cancelling resets the dialogue from any step. Input the current
   * step does not expect changes nothing.
   */
  function PaymentFlow(s: Store, step: PayStep, input: PayInput): (r: PayMoved)
    ensures !input.CancelPressed? ==> NoSave(r.effects)
    ensures r.step.ProofAwaited? ==>
              r.step == step || (step == PaymentOpen(r.step.orderId) && input.PaidPressed?)
    ensures r.step.PaymentOpen? && r.step != step ==>
              input.PayPressed? && ParseInt(input.idText) == Some(r.step.orderId)
              && FindOrder(s, r.step.orderId).Some?
    ensures Notify(Admin, PaymentProof) in r.effects <==>
              step.ProofAwaited? && input.ProofSent? && input.isMedia && FindOrder(s, step.orderId).Some?
    ensures input.CancelPressed? && ParseInt(input.idText).Some? ==>
              r == PayMoved(NotPaying, CancelPayment(s, ParseInt(input.idText).value))
  {
    match input
    case PayPressed(t) =>
      (match ParseInt(t)
       case None => PayMoved(step, [])
       case Some(id) => if FindOrder(s, id).Some? then PayMoved(PaymentOpen(id), []) else PayMoved(step, []))
    case PaidPressed =>
      if step.PaymentOpen? then PayMoved(ProofAwaited(step.orderId), []) else PayMoved(step, [])
    case ProofSent(media) =>
      if step.ProofAwaited? && media then
        PayMoved(NotPaying, if FindOrder(s, step.orderId).Some? then [Notify(Admin, PaymentProof)] else [])
      else PayMoved(step, [])
    case CancelPressed(t) =>
      (match ParseInt(t)
       case None => PayMoved(step, [])
       case Some(id) => PayMoved(NotPaying, CancelPayment(s, id)))
  }

  /** A proof reaches the admin only after the three steps in their order. */
  lemma ProofNeedsPayAndPaid(s: Store, t: string, media: bool)
    requires ParseInt(t).Some? && FindOrder(s, ParseInt(t).value).Some?
    ensures var s1 := PaymentFlow(s, NotPaying, PayPressed(t)).step;
            var s2 := PaymentFlow(s, s1, PaidPressed).step;
            s2 == ProofAwaited(ParseInt(t).value)
            && (Notify(Admin, PaymentProof) in PaymentFlow(s, s2, ProofSent(media)).effects <==> media)
    ensures Notify(Admin, PaymentProof) !in PaymentFlow(s, PaymentFlow(s, NotPaying, PayPressed(t)).step, ProofSent(media)).effects
  {
  }

  /**
   * `payment_cancel`: the order goes back to awaiting confirmation if it
   * exists (its executor stays), and the admin is told in any case.
   */
  function CancelPayment(s: Store, orderId: int): (r: seq<Effect>)
    ensures |r| > 0 && r[|r| - 1] == Notify(Admin, PaymentCancelled)
    ensures FindOrder(s, orderId).None? ==> r == [Notify(Admin, PaymentCancelled)]
    ensures FindOrder(s, orderId).Some? ==>
              var i := FindOrder(s, orderId).value;
              && |r| == 2 && r[0].Save?
              && Edited(s, r[0].store, i, {FStatus})
              && r[0].store[i].status == AwaitingConfirmation
  {
    match FindOrder(s, orderId)
    case None => [Notify(Admin, PaymentCancelled)]
    case Some(i) => [Save(s[i := s[i].(status := AwaitingConfirmation)]), Notify(Admin, PaymentCancelled)]
  }

  // ----- the admin's verdict -----

  /**
   * `admin_payment_accept` and `admin_confirm_payment`: the order goes
   * into work, is handed to the spreadsheet export (`MirrorAppend`, which
   * writes a row only when `SheetRowBound` holds), and the client and the
   * executor are told when their ids are set.
   */
  function AcceptPayment(s: Store, orderId: int): (r: seq<Effect>)
    ensures FindOrder(s, orderId).None? ==> r == []
    ensures FindOrder(s, orderId).Some? ==>
              var i := FindOrder(s, orderId).value;
              && |r| >= 2 && r[0].Save? && r[1] == MirrorAppend(orderId)
              && Edited(s, r[0].store, i, {FStatus})
              && r[0].store[i].status == InProgress
              && |r| == 2 + (if s[i].userId != 0 then 1 else 0) + (if Present(s[i].executorId) then 1 else 0)
              && (Notify(User(s[i].userId), PaymentConfirmed) in r <==> s[i].userId != 0)
              && (s[i].executorId.Some? ==>
                    (Notify(User(s[i].executorId.value), WorkPaid) in r <==> s[i].executorId.value != 0))
              && NoSave(r[1..])
  {
    match FindOrder(s, orderId)
    case None => []
    case Some(i) =>
      var o := s[i];
      var p := PaidNotices(o.userId, o.executorId);
      var r := [Save(s[i := o.(status := InProgress)]), MirrorAppend(orderId)] + p;
      assert r[1..] == [MirrorAppend(orderId)] + p;
      assert forall x :: x in r <==> x == r[0] || x == r[1] || x in p;
      r
  }

  /**
   * Who hears that a payment went through: the client that it is
   * confirmed, then the assigned executor that the work can start.
   */
  function PaidNotices(userId: int, executorId: Option<int>): (r: seq<Effect>)
    ensures NoSave(r)
    ensures |r| == (if userId != 0 then 1 else 0) + (if Present(executorId) then 1 else 0)
    ensures Notify(User(userId), PaymentConfirmed) in r <==> userId != 0
    ensures userId != 0 ==> r[0] == Notify(User(userId), PaymentConfirmed)
    ensures executorId.Some? ==> (Notify(User(executorId.value), WorkPaid) in r <==> executorId.value != 0)
  {
    var e := if Present(executorId) then [Notify(User(executorId.value), WorkPaid)] else [];
    var r := NotifyIf(userId, PaymentConfirmed) + e;
    assert forall x :: x in r <==> x in NotifyIf(userId, PaymentConfirmed) || x in e;
    r
  }

  /**
   * `admin_payment_reject` and `admin_reject_payment`: the order waits for
   * payment again and the client is told.
   */
  function RejectPayment(s: Store, orderId: int): (r: seq<Effect>)
    ensures FindOrder(s, orderId).None? ==> r == []
    ensures FindOrder(s, orderId).Some? ==>
              var i := FindOrder(s, orderId).value;
              && |r| >= 1 && r[0].Save? && NoSave(r[1..])
              && Edited(s, r[0].store, i, {FStatus})
              && r[0].store[i].status == AwaitingPayment
              && (Notify(User(s[i].userId), PaymentDeclined) in r <==> s[i].userId != 0)
  {
    match FindOrder(s, orderId)
    case None => []
    case Some(i) =>
      var r := [Save(s[i := s[i].(status := AwaitingPayment)])] + NotifyIf(s[i].userId, PaymentDeclined);
      assert r[1..] == NotifyIf(s[i].userId, PaymentDeclined);
      r
  }

  /** A rejected payment leaves the client a pay button and a way to open the payment again. */
  lemma RejectedPaymentCanBeRetried(s: Store, orderId: int)
    requires FindOrder(s, orderId).Some?
    ensures var t := RejectPayment(s, orderId)[0].store;
            FindOrder(t, orderId) == FindOrder(s, orderId)
            && t[FindOrder(s, orderId).value].status == AwaitingPayment
            && PaymentFlow(t, NotPaying, PayPressed(IntText(orderId))).step == PaymentOpen(orderId)
  {
    var i := FindOrder(s, orderId).value;
    var t := RejectPayment(s, orderId)[0].store;
    assert t[i].orderId == orderId;
    assert forall j | 0 <= j < i :: t[j] == s[j];
    IntTextRoundTrip(orderId);
  }

  /**
   * Whether the spreadsheet export (shared.py:250-314) gets as far as
   * writing the row. It binds the due date only for the admin's own
   * order, or for an order that still holds an offer from its executor;
   * for any other order building the row raises, the export's own
   * `except` swallows the error, and no row is written.
   */
  predicate SheetRowBound(o: Order, adminId: int) {
    || o.executorId == Some(adminId)
    || (o.offers.Some? && Present(o.executorId)
        && exists k | 0 <= k < |o.offers.value| :: o.offers.value[k].executorId == o.executorId.value)
  }

  /**
   * Approving an executor's offer removes the offers, so once the payment
   * is accepted the export writes no row, unless the order is the admin's.
   */
  lemma PickedOfferWritesNoRow(s: Store, orderId: int, price: int, e: int, adminId: int)
    requires FindOrder(s, orderId).Some?
    requires PicksOffer(s[FindOrder(s, orderId).value], Some(e)) && e != adminId
    requires s[FindOrder(s, orderId).value].executorId != Some(adminId)
    ensures var i := FindOrder(s, orderId).value;
            var t := ApproveOffer(s, orderId, price, Some(e))[0].store;
            && FindOrder(t, orderId) == Some(i)
            && AcceptPayment(t, orderId)[1] == MirrorAppend(orderId)
            && !SheetRowBound(AcceptPayment(t, orderId)[0].store[i], adminId)
  {
    var i := FindOrder(s, orderId).value;
    var t := ApproveOffer(s, orderId, price, Some(e))[0].store;
    assert t == s[i := Approved(s[i], price, Some(e))];
    EditedKeepsFind(s, t, i, {FStatus, FFinalPrice, FExecutor, FOffers}, orderId);
  }

  // ----- an executor giving an order up, the payment module's way -----

  /** Where an executor is in this module's dialogue; it asks no separate comment. */
  datatype PickStep = NotPicking | Confirming(orderId: int) | ChoosingReason(orderId: int) | TypingReason(orderId: int)

  datatype PickInput =
    | RefusePressed(idText: string)                    // "executor_refuse_work:<id>"
    | ConfirmPressed(idText: string)                   // "executor_cancel_confirm:<id>"
    | AbortPressed                                     // "executor_cancel_abort"
    | ReasonPicked(idText: string, indexText: string)  // "executor_cancel_reason:<id>:<index>"
    | Typed(text: string)
    | SkipPressed                                      // "executor_skip_comment"

  datatype PickMoved = PickMoved(step: PickStep, effects: seq<Effect>)

  /**
   * The payment module's refusal dialogue. A fixed reason finishes at once
   * for the order named in the button; the last reason asks for text,
   * which (or a skip) finishes with "Другое" for the order remembered in
   * the dialogue. Refusing starts over from any step.
   */
  function PickDialogue(s: Store, step: PickStep, input: PickInput): (r: PickMoved)
    ensures r.effects != [] ==> r.step.NotPicking? && (step.ChoosingReason? || step.TypingReason?)
    ensures input.RefusePressed? && ParseInt(input.idText).Some? ==>
              r == PickMoved(Confirming(ParseInt(input.idText).value), [])
    ensures step.ChoosingReason? && input.ReasonPicked? && ParseInt(input.indexText).Some?
            && ExecutorMenu.ReasonAt(ParseInt(input.indexText).value).Some? ==>
              var reason := ExecutorMenu.ReasonAt(ParseInt(input.indexText).value).value;
              r == (if ExecutorMenu.AsksForText(reason) then PickMoved(TypingReason(step.orderId), [])
                    else PickMoved(NotPicking, PaymentFinish(s, input.idText, reason, "")))
    ensures step.TypingReason? && input.Typed? ==>
              r == PickMoved(NotPicking, PaymentFinish(s, IntText(step.orderId), "Другое", input.text))
    ensures step.TypingReason? && input.SkipPressed? ==>
              r == PickMoved(NotPicking, PaymentFinish(s, IntText(step.orderId), "Другое", ""))
  {
    match input
    case RefusePressed(t) =>
      (match ParseInt(t)
       case None => PickMoved(step, [])
       case Some(id) => PickMoved(Confirming(id), []))
    case ConfirmPressed(t) =>
      if step.Confirming? && ParseInt(t).Some? then PickMoved(ChoosingReason(step.orderId), []) else PickMoved(step, [])
    case AbortPressed =>
      if step.Confirming? then PickMoved(NotPicking, []) else PickMoved(step, [])
    case ReasonPicked(t, k) =>
      if !step.ChoosingReason? then PickMoved(step, [])
      else
        (match ParseInt(k)
         case None => PickMoved(step, [])
         case Some(n) =>
           (match ExecutorMenu.ReasonAt(n)
            case None => PickMoved(step, [])
            case Some(reason) =>
              if ExecutorMenu.AsksForText(reason) then PickMoved(TypingReason(step.orderId), [])
              else PickMoved(NotPicking, PaymentFinish(s, t, reason, ""))))
    case Typed(text) =>
      if step.TypingReason? then PickMoved(NotPicking, PaymentFinish(s, IntText(step.orderId), "Другое", text))
      else PickMoved(step, [])
    case SkipPressed =>
      if step.TypingReason? then PickMoved(NotPicking, PaymentFinish(s, IntText(step.orderId), "Другое", ""))
      else PickMoved(step, [])
  }

  /**
   * The executor module's refusal of work in progress asks for
   * confirmation with an "executor_cancel_confirm:<id>" button; pressed, it
   * reaches this module's dialogue at its confirming step, so the withdrawal
   * goes on with this module's reasons.
   */
  lemma RefusalContinuesHere(s: Store, data: string, caller: int)
    requires ExecutorMenu.RefuseStart(s, data, caller).ConfirmFirst?
    ensures var n := ExecutorMenu.RefuseStart(s, data, caller).orderId;
            PickDialogue(s, Confirming(n), ConfirmPressed(IntText(n))) == PickMoved(ChoosingReason(n), [])
  {
    IntTextRoundTrip(ExecutorMenu.RefuseStart(s, data, caller).orderId);
  }

  /** The order after this module's withdrawal: unassigned and under review, with the reason kept. */
  function WithdrawnFor(o: Order, reason: string, comment: string): (a: Order)
    ensures SameExcept(o, a, {FStatus, FExecutor, FLegacyOffer, FCancelReason, FCancelComment})
    ensures a.status == UnderReview && a.executorId.None? && a.legacyOffer.None?
    ensures a.cancelReason == Some(reason) && a.cancelComment == Some(comment)
  {
    o.(status := UnderReview, executorId := None, legacyOffer := None,
       cancelReason := Some(reason), cancelComment := Some(comment))
  }

  /**
   * `finish_executor_cancel_order` of the payment module: the order whose
   * id prints as `key` is withdrawn; unlike the executor module's version
   * its offers survive. The file is written and the admin told even when
   * no order matched.
   */
  function PaymentFinish(s: Store, key: string, reason: string, comment: string): (r: seq<Effect>)
    ensures |r| == 2 && r[0].Save? && r[1] == Notify(Admin, ExecutorWithdrew)
    ensures KeyedOrder(s, key).None? ==> r[0].store == s
    ensures KeyedOrder(s, key).Some? ==>
              var i := KeyedOrder(s, key).value;
              && Edited(s, r[0].store, i, {FStatus, FExecutor, FLegacyOffer, FCancelReason, FCancelComment})
              && r[0].store[i] == WithdrawnFor(s[i], reason, comment)
  {
    match KeyedOrder(s, key)
    case None => [Save(s), Notify(Admin, ExecutorWithdrew)]
    case Some(i) => [Save(s[i := WithdrawnFor(s[i], reason, comment)]), Notify(Admin, ExecutorWithdrew)]
  }

  /**
   * Both withdrawals leave the order under review, unassigned, and listed
   * for no executor; only the executor module's clears the offers.
   */
  lemma WithdrawalsAgree(s: Store, orderId: int, reason: string, comment: string, u: int, entries: seq<Registry.Executor>)
    requires FindOrder(s, orderId).Some?
    ensures var i := FindOrder(s, orderId).value;
            var a := PaymentFinish(s, IntText(orderId), reason, comment)[0].store[i];
            var b := ExecutorMenu.FinishWithdrawal(s, Some(orderId))[0].store[i];
            && a.status == b.status == UnderReview
            && a.executorId == b.executorId == None
            && !ExecutorMenu.ListedFor(a, u, entries) && !ExecutorMenu.ListedFor(b, u, entries)
            && a.offers == s[i].offers && b.offers.None?
  {
    KeyedByPrintedId(s, orderId);
  }

  /**
   * The client's pay button follows the payment: an approved offer shows
   * it and pressing it opens the payment; an accepted payment takes it
   * away; a rejected payment brings it back; a cancelled payment sends the
   * order back to awaiting confirmation, without it.
   */
  lemma PayButtonFollowsPayment(s: Store, orderId: int, price: int, executor: Option<int>)
    requires FindOrder(s, orderId).Some?
    ensures var i := FindOrder(s, orderId).value;
            && Menus.Pay in Menus.ClientButtons(Approved(s[i], price, executor).status)
            && PaymentFlow(s, NotPaying, PayPressed(IntText(orderId))).step == PaymentOpen(orderId)
            && Menus.Pay !in Menus.ClientButtons(AcceptPayment(s, orderId)[0].store[i].status)
            && Menus.Pay in Menus.ClientButtons(RejectPayment(s, orderId)[0].store[i].status)
            && Menus.Pay !in Menus.ClientButtons(CancelPayment(s, orderId)[0].store[i].status)
            && Menus.Withdraw in Menus.ClientButtons(CancelPayment(s, orderId)[0].store[i].status)
  {
    IntTextRoundTrip(orderId);
  }
}

=== FILE: registry.dfy ===
/**
 * The executor registry: the list of people the admin has registered as
 * executors, how the bot reads it, and the admin's add and delete actions.
 */
module Registry {
  import opened Text
  import opened Orders

  /** One registered executor: their Telegram id and the name the admin typed. */
  datatype Executor = Executor(id: int, name: string)

  /** The registry file as the bot finds it. */
  datatype RegistryFile = Missing | Corrupt | Listed(entries: seq<Executor>)

  /** `get_executors_list`: a missing or unreadable file is an empty registry. */
  function Entries(f: RegistryFile): (r: seq<Executor>)
    ensures f.Listed? ==> r == f.entries
    ensures !f.Listed? ==> r == []
  {
    if f.Listed? then f.entries else []
  }

  /** `u` has an entry in the list. */
  predicate Registered(entries: seq<Executor>, u: int) {
    exists k | 0 <= k < |entries| :: entries[k].id == u
  }

  /** Every executor is listed at most once. */
  predicate DistinctIds(entries: seq<Executor>) {
    forall i, j | 0 <= i < j < |entries| :: entries[i].id != entries[j].id
  }

  /** `is_executor`: a scan of the file for an entry with the user's id. */
  function IsExecutor(f: RegistryFile, u: int): (r: bool)
    ensures r <==> f.Listed? && Registered(f.entries, u)
  {
    match f
    case Listed(entries) =>
      var k := First(entries, (e: Executor) => e.id == u);
      if k.Some? then true
      else
        assert forall j | 0 <= j < |entries| :: entries[j].id != u;
        false
    case _ => false
  }

  datatype Added =
    | NotANumber             // the typed id is not all digits; the step repeats
    | AlreadyThere           // an entry with that id exists; nothing is written
    | Added(entries: seq<Executor>)

  /**
   * `admin_executor_id_input`: the typed id must be all digits, must not be
   * registered yet, and is then appended with the name typed before it.
   */
  function AddExecutor(entries: seq<Executor>, name: string, text: string): (r: Added)
    ensures r.NotANumber? <==> !IsDigits(text)
    ensures r.AlreadyThere? <==> IsDigits(text) && Registered(entries, DigitsValue(text))
    ensures r.Added? ==> IsDigits(text) && !Registered(entries, DigitsValue(text))
    ensures r.Added? ==> r.entries == entries + [Executor(DigitsValue(text), name)]
  {
    if !IsDigits(text) then NotANumber
    else
      var id := DigitsValue(text);
      match First(entries, (e: Executor) => e.id == id)
      case Some(_) => AlreadyThere
      case None =>
        assert forall j | 0 <= j < |entries| :: entries[j].id != id;
        Added(entries + [Executor(id, name)])
  }

  /** Adding never lists anyone twice, and the new executor is then recognised. */
  lemma AddKeepsIdsDistinct(entries: seq<Executor>, name: string, text: string)
    requires DistinctIds(entries)
    requires AddExecutor(entries, name, text).Added?
    ensures DistinctIds(AddExecutor(entries, name, text).entries)
    ensures IsExecutor(Listed(AddExecutor(entries, name, text).entries), DigitsValue(text))
  {
    var t := AddExecutor(entries, name, text).entries;
    var id := DigitsValue(text);
    forall i, j | 0 <= i < j < |t| ensures t[i].id != t[j].id {
      assert t[i] == entries[i];
      if j < |entries| { assert t[j] == entries[j]; }
    }
    assert t[|entries|].id == id;
  }

  /** `admin_delete_executor_confirm`: every entry with the id goes. */
  function DeleteExecutor(entries: seq<Executor>, id: int): (r: seq<Executor>)
    ensures !Registered(r, id) && IsSubsequence(r, entries)
    ensures forall k | 0 <= k < |r| :: r[k] in entries
    ensures forall k | 0 <= k < |entries| && entries[k].id != id :: entries[k] in r
  {
    Keep(entries, (e: Executor) => e.id != id)
  }

  /** Deleting the executor just added gives the registry back as it was. */
  lemma DeleteUndoesAdd(entries: seq<Executor>, name: string, text: string)
    requires AddExecutor(entries, name, text).Added?
    ensures DeleteExecutor(AddExecutor(entries, name, text).entries, DigitsValue(text)) == entries
  {
    var id := DigitsValue(text);
    var p := (e: Executor) => e.id != id;
    KeepAppend(entries, Executor(id, name), p);
    assert forall k | 0 <= k < |entries| :: p(entries[k]);
  }
}

=== FILE: self_take.dfy ===
/**
 * The admin taking an order themselves: a price, a term and a comment are
 * collected, then the order is assigned to the admin and the client is
 * asked to pay.
 */
module SelfTake {
  import opened Text
  import opened Shared
  import opened Orders
  import Negotiation
  import Payment
  import Menus

  /** Where the admin is in taking an order (`AdminSelfTake`). */
  datatype TakeStep =
    | NotTaking
    | ChoosingPrice(orderId: int)
    | ChoosingTerm(orderId: int, price: string)
    | Commenting(orderId: int, price: string, deadline: string)
    | Reviewing(orderId: int, price: string, deadline: string, comment: string)

  datatype TakeInput =
    | StartPressed(data: string)        // "admin_self_take_<id>"
    | PricePressed(data: string)        // "price_<n>"
    | PriceTyped(text: string)
    | TermPressed(data: string)         // "admin_deadline_<term>"
    | TermTyped(text: string)
    | CommentTyped(text: string)
    | SkipPressed                       // "admin_skip_comment"
    | SendPressed                       // "admin_self_send_to_pay"
    | BackToOrderPressed(data: string)  // "admin_self_back_to_order_<id>"
    | BackToPricePressed                // "admin_self_back_to_price"

  datatype TakeMoved = TakeMoved(step: TakeStep, effects: seq<Effect>)

  /** The comment stored when the admin skips it. */
  const NoComment: string := "нету"

  /** The term text of a term button: `data.split("_", 2)[-1]`. */
  function TermOf(data: string): (r: string)
    ensures |r| <= |data|
  {
    Negotiation.AfterFirstUnderscore(Negotiation.AfterFirstUnderscore(data))
  }

  /** A term button carries its term after "admin_deadline_", underscores in it included. */
  lemma TermOfButton(term: string)
    ensures TermOf("admin_deadline_" + term) == term
  {
    var rest := "deadline" + "_" + term;
    assert "admin_deadline_" == "admin" + "_" + "deadline" + "_";
    assert "admin_deadline_" + term == "admin" + "_" + rest;
    Negotiation.AfterFirstUnderscoreOfPrefixed("admin", rest);
    Negotiation.AfterFirstUnderscoreOfPrefixed("deadline", term);
  }

  /**
   * One step of the dialogue. Only the admin can start it, from any step;
   * a typed price must be all digits; any term text is taken as is; the
   * review step sends the order to the client. Input the current step
   * does not expect changes nothing.
   */
  function TakeFlow(s: Store, adminId: int, sender: int, step: TakeStep, input: TakeInput, today: int): (r: TakeMoved)
    ensures r.effects != [] ==> step.Reviewing? && input.SendPressed? && r.step.NotTaking?
    ensures step.Reviewing? && input.SendPressed? ==>
              r == TakeMoved(NotTaking, SendToPay(s, adminId, step.orderId, step.price, step.deadline, step.comment, today))
    ensures input.StartPressed? && sender != adminId ==> r == TakeMoved(step, [])
    ensures r.step.ChoosingPrice? && r.step != step ==>
              || (input.StartPressed? && sender == adminId
                  && ParseInt(AfterLast(input.data, '_')) == Some(r.step.orderId))
              || (step.ChoosingTerm? && step.orderId == r.step.orderId && input.BackToPricePressed?)
    ensures r.step.ChoosingTerm? && r.step != step ==>
              && step == ChoosingPrice(r.step.orderId)
              && (input.PriceTyped? ==> IsDigits(r.step.price) && r.step.price == input.text)
              && (input.PricePressed? ==> r.step.price == AfterLast(input.data, '_'))
    ensures r.step.Reviewing? && r.step != step ==>
              && step == Commenting(r.step.orderId, r.step.price, r.step.deadline)
              && (input.SkipPressed? || input.CommentTyped?)
              && (input.SkipPressed? ==> r.step.comment == NoComment)
              && (input.CommentTyped? ==> r.step.comment == input.text)
  {
    match input
    case StartPressed(data) =>
      if sender != adminId then TakeMoved(step, [])
      else
        (match ParseInt(AfterLast(data, '_'))
         case None => TakeMoved(step, [])
         case Some(id) => TakeMoved(ChoosingPrice(id), []))
    case PricePressed(data) =>
      if step.ChoosingPrice? then TakeMoved(ChoosingTerm(step.orderId, AfterLast(data, '_')), [])
      else TakeMoved(step, [])
    case PriceTyped(text) =>
      if step.ChoosingPrice? && IsDigits(text) then TakeMoved(ChoosingTerm(step.orderId, text), [])
      else TakeMoved(step, [])
    case TermPressed(data) =>
      if step.ChoosingTerm? then TakeMoved(Commenting(step.orderId, step.price, TermOf(data)), [])
      else TakeMoved(step, [])
    case TermTyped(text) =>
      if step.ChoosingTerm? then TakeMoved(Commenting(step.orderId, step.price, text), [])
      else TakeMoved(step, [])
    case CommentTyped(text) =>
      if step.Commenting? then TakeMoved(Reviewing(step.orderId, step.price, step.deadline, text), [])
      else TakeMoved(step, [])
    case SkipPressed =>
      if step.Commenting? then TakeMoved(Reviewing(step.orderId, step.price, step.deadline, NoComment), [])
      else TakeMoved(step, [])
    case SendPressed =>
      if step.Reviewing? then
        TakeMoved(NotTaking, SendToPay(s, adminId, step.orderId, step.price, step.deadline, step.comment, today))
      else TakeMoved(step, [])
    case BackToOrderPressed(data) =>
      if step.ChoosingPrice? && ParseInt(AfterLast(data, '_')).Some? then TakeMoved(NotTaking, [])
      else TakeMoved(step, [])
    case BackToPricePressed =>
      if step.ChoosingTerm? then TakeMoved(ChoosingPrice(step.orderId), []) else TakeMoved(step, [])
  }

  /** When the work is due: a number of days from today, or the client's own date. */
  datatype Due = DaysFromToday(days: int) | ClientDate

  /**
   * How the term sets the due date: days from today when the term is all
   * digits or starts with a number; the client's own date for
   * "До дедлайна" and for any other term.
   */
  function DueOf(deadline: string, deadlineDate: Option<int>): (r: Due)
    ensures IsDigits(deadline) ==> r == DaysFromToday(DigitsValue(deadline))
    ensures !IsDigits(deadline) ==>
              r == (if TermDays(deadline).Some? then DaysFromToday(TermDays(deadline).value) else ClientDate)
  {
    UntilDeadlineHasNoDigit();
    NoDigitNoDays(UntilDeadline);
    if IsDigits(deadline) then DaysFromToday(DigitsValue(deadline))
    else if deadline == UntilDeadline && deadlineDate.Some? then ClientDate
    else match TermDays(deadline)
      case None => ClientDate
      case Some(n) => DaysFromToday(n)
  }

  /** The due date as a day number, with `today` standing for the clock. */
  function DueDay(d: Due, deadlineDate: Option<int>, today: int): (r: Option<int>)
    ensures d.ClientDate? ==> r == deadlineDate
    ensures d.DaysFromToday? ==> r.Some? && r.value - today == d.days
  {
    match d
    case DaysFromToday(n) => Some(today + n)
    case ClientDate => deadlineDate
  }

  /** `int(deadline.split()[0])`, None where Python raises IndexError or ValueError. */
  function TermDays(deadline: string): (r: Option<int>)
    ensures FirstToken(deadline).None? ==> r.None?
    ensures FirstToken(deadline).Some? ==> r == ParseInt(FirstToken(deadline).value)
  {
    match FirstToken(deadline)
    case None => None
    case Some(w) => ParseInt(w)
  }

  /** The term that means "by the client's own deadline". */
  const UntilDeadline: string := "До дедлайна"

  /** No character of "До дедлайна" is a digit. */
  lemma UntilDeadlineHasNoDigit()
    ensures forall i | 0 <= i < |UntilDeadline| :: !IsDigit(UntilDeadline[i])
  {
  }

  /** A text without a digit names no number of days. */
  lemma NoDigitNoDays(u: string)
    requires forall i | 0 <= i < |u| :: !IsDigit(u[i])
    ensures TermDays(u).None?
  {
    var w := FirstToken(u);
    if w.Some? {
      var k :| LeadingToken(u, w.value, k);
      assert forall i | 0 <= i < |w.value| :: w.value[i] == u[k + i];
    }
  }

  /** A day phrase starts with its count, so it is neither all digits nor "До дедлайна". */
  lemma PluralTermShape(n: int)
    ensures !IsDigits(Pluralize(Number(n))) && Pluralize(Number(n)) != UntilDeadline
  {
    var p := Pluralize(Number(n));
    IntTextRoundTrip(n);
    var w: DayWord :| p == IntText(n) + " " + DayWordText(w);
    assert !IsDigits(p) by { assert p[|IntText(n)|] == ' '; }
    assert exists k | 0 <= k < |p| :: IsDigit(p[k]) by {
      var k :| 0 <= k < |IntText(n)| && IsDigit(IntText(n)[k]);
      assert p[k] == IntText(n)[k];
    }
    UntilDeadlineHasNoDigit();
  }

  /** A term the bot itself words as "<n> <day word>" is read back as n days from today. */
  lemma DueOfPluralTerm(n: int, deadlineDate: Option<int>)
    ensures DueOf(Pluralize(Number(n)), deadlineDate) == DaysFromToday(n)
  {
    PluralTermShape(n);
    PluralTermDays(n);
  }

  lemma PluralTermDays(n: int)
    ensures TermDays(Pluralize(Number(n))) == Some(n)
  {
    PluralizeCountRoundTrip(n);
  }

  /** A number of days followed by a no-break space still counts: `split()` splits there too. */
  lemma NoBreakSpaceTermDays()
    ensures TermDays("5\U{A0}дней") == Some(5)
  {
    var t := "5\U{A0}дней";
    assert SkipSpace(t, 0) == 0;
    assert WordEnd(t, 1) == 1;
    assert WordEnd(t, 0) == 1;
    assert t[0..1] == "5";
    assert FirstToken(t) == Some("5");
    ParseIntDecimal(5);
    assert Decimal(5) == "5";
  }

  /** "До дедлайна" always keeps the client's date, whether or not there is one. */
  lemma DueOfUntilDeadline(deadlineDate: Option<int>)
    ensures DueOf(UntilDeadline, deadlineDate) == ClientDate
  {
    UntilDeadlineHasNoDigit();
    NoDigitNoDays(UntilDeadline);
    assert !IsDigits(UntilDeadline) by { assert !IsDigit(UntilDeadline[0]); }
  }

  /** The order as the admin takes it over. */
  function SelfTaken(o: Order, adminId: int, price: string, deadline: string, comment: string, today: int): (a: Order)
    ensures SameExcept(o, a, {FExecutor, FStatus, FFinalPrice, FDeadline, FDueDate, FExecutorName, FSelfTakeComment})
    ensures a.executorId == Some(adminId) && a.status == AwaitingPayment
    ensures a.finalPrice == Some(Written(price)) && a.deadline == deadline
    ensures a.dueDate == DueDay(DueOf(deadline, o.deadlineDate), o.deadlineDate, today)
    ensures a.executorName == Some("Администратор") && a.selfTakeComment == Some(comment)
  {
    o.(executorId := Some(adminId), status := AwaitingPayment, finalPrice := Some(Written(price)),
       deadline := deadline, dueDate := DueDay(DueOf(deadline, o.deadlineDate), o.deadlineDate, today),
       executorName := Some("Администратор"), selfTakeComment := Some(comment))
  }

  /**
   * `admin_self_send_to_pay_handler`: the order is assigned to the admin
   * and waits for payment at the typed price; its offers are left as they
   * are. The client is asked to pay. A missing order changes nothing.
   */
  function SendToPay(s: Store, adminId: int, orderId: int, price: string, deadline: string, comment: string, today: int): (r: seq<Effect>)
    ensures FindOrder(s, orderId).None? ==> r == []
    ensures FindOrder(s, orderId).Some? ==>
              var i := FindOrder(s, orderId).value;
              && |r| >= 1 && r[0] == Save(s[i := SelfTaken(s[i], adminId, price, deadline, comment, today)])
              && Edited(s, r[0].store, i, {FExecutor, FStatus, FFinalPrice, FDeadline, FDueDate, FExecutorName, FSelfTakeComment})
              && r[1..] == NotifyIf(s[i].userId, PayRequest)
  {
    match FindOrder(s, orderId)
    case None => []
    case Some(i) =>
      var r := [Save(s[i := SelfTaken(s[i], adminId, price, deadline, comment, today)])] + NotifyIf(s[i].userId, PayRequest);
      assert r[1..] == NotifyIf(s[i].userId, PayRequest);
      r
  }

  /** The client is asked to pay exactly the price the admin gave, when it is not empty. */
  lemma SelfTakenPriceIsShown(o: Order, adminId: int, price: string, deadline: string, comment: string, today: int)
    requires price != []
    ensures Payment.ShownPrice(SelfTaken(o, adminId, price, deadline, comment, today)) == price
  {
  }

  /**
   * Walking the dialogue with the buttons (take over, a price button, a
   * term button, skip the comment, send) ends in the handler's effects for
   * the button values.
   */
  lemma ButtonWalk(s: Store, adminId: int, orderId: int, price: nat, term: string, today: int)
    ensures var s1 := TakeFlow(s, adminId, adminId, NotTaking, StartPressed("admin_self_take_" + IntText(orderId)), today).step;
            var s2 := TakeFlow(s, adminId, adminId, s1, PricePressed("price_" + Decimal(price)), today).step;
            var s3 := TakeFlow(s, adminId, adminId, s2, TermPressed("admin_deadline_" + term), today).step;
            var s4 := TakeFlow(s, adminId, adminId, s3, SkipPressed, today).step;
            s4 == Reviewing(orderId, Decimal(price), term, NoComment)
            && TakeFlow(s, adminId, adminId, s4, SendPressed, today).effects
               == SendToPay(s, adminId, orderId, Decimal(price), term, NoComment, today)
  {
    StartStep(s, adminId, orderId, today);
    PriceStep(s, adminId, orderId, price, today);
    TermStep(s, adminId, orderId, Decimal(price), term, today);
    ReviewSteps(s, adminId, orderId, Decimal(price), term, today);
  }

  lemma ReviewSteps(s: Store, adminId: int, orderId: int, price: string, term: string, today: int)
    ensures var s4 := TakeFlow(s, adminId, adminId, Commenting(orderId, price, term), SkipPressed, today).step;
            s4 == Reviewing(orderId, price, term, NoComment)
            && TakeFlow(s, adminId, adminId, s4, SendPressed, today).effects
               == SendToPay(s, adminId, orderId, price, term, NoComment, today)
  {
  }

  lemma StartStep(s: Store, adminId: int, orderId: int, today: int)
    ensures TakeFlow(s, adminId, adminId, NotTaking, StartPressed("admin_self_take_" + IntText(orderId)), today).step
            == ChoosingPrice(orderId)
  {
    StartButtonParses(orderId);
  }

  lemma PriceStep(s: Store, adminId: int, orderId: int, price: nat, today: int)
    ensures TakeFlow(s, adminId, adminId, ChoosingPrice(orderId), PricePressed("price_" + Decimal(price)), today).step
            == ChoosingTerm(orderId, Decimal(price))
  {
    PriceButtonPayload(price);
  }

  lemma TermStep(s: Store, adminId: int, orderId: int, price: string, term: string, today: int)
    ensures TakeFlow(s, adminId, adminId, ChoosingTerm(orderId, price), TermPressed("admin_deadline_" + term), today).step
            == Commenting(orderId, price, term)
  {
    TermOfButton(term);
  }

  lemma StartButtonParses(orderId: int)
    ensures ParseInt(AfterLast("admin_self_take_" + IntText(orderId), '_')) == Some(orderId)
  {
    IntTextRoundTrip(orderId);
    AfterLastOfSeparated("admin_self_take_", IntText(orderId), '_');
  }

  lemma PriceButtonPayload(price: nat)
    ensures AfterLast("price_" + Decimal(price), '_') == Decimal(price)
  {
    assert forall k | 0 <= k < |Decimal(price)| :: IsDigit(Decimal(price)[k]);
    AfterLastOfSeparated("price_", Decimal(price), '_');
  }

  /**
   * Once the client's payment is accepted the admin is the executor of an
   * order in work, and the admin's card offers to hand the work in.
   */
  lemma SelfTakenThenPaidCanBeSubmitted(s: Store, adminId: int, orderId: int, price: string, deadline: string,
                                        comment: string, today: int, hasMaterials: bool, showMaterials: bool)
    requires FindOrder(s, orderId).Some?
    ensures var t1 := SendToPay(s, adminId, orderId, price, deadline, comment, today)[0].store;
            var t2 := Payment.AcceptPayment(t1, orderId)[0].store;
            var o := t2[FindOrder(s, orderId).value];
            && o.status == InProgress && o.executorId == Some(adminId)
            && Menus.SubmitWork in Menus.AdminButtons(Menus.AdminCard(o.status, o.executorId == Some(adminId), true, hasMaterials, showMaterials))
  {
    var i := FindOrder(s, orderId).value;
    var t1 := SendToPay(s, adminId, orderId, price, deadline, comment, today)[0].store;
    assert t1[i].orderId == orderId;
    assert forall j | 0 <= j < i :: t1[j] == s[j];
    assert FindOrder(t1, orderId) == Some(i);
  }
}

=== FILE: shared.dfy ===
/**
 * Definitions every part of the bot shares: the twelve order statuses and
 * their stored labels, the Russian day-count phrase and a user's display
 * name.
 */
module Shared {
  import opened Text

  /** The administrator's Telegram id when the environment does not set one. */
  const DefaultAdminId: int := 842270366

  /** An order's status; the store holds it as the Russian label below. */
  datatype Status =
    | Editing
    | UnderReview
    | AwaitingConfirmation
    | AwaitingExecutorConfirmation
    | AwaitingPayment
    | Accepted
    | InProgress
    | Completed
    | Cancelled
    | Submitted
    | ApprovedByAdmin
    | NeedsRevision

  function Label(s: Status): string {
    match s
    case Editing => "Редактируется"
    case UnderReview => "Рассматривается"
    case AwaitingConfirmation => "Ожидает подтверждения"
    case AwaitingExecutorConfirmation => "Ожидает подтверждения от исполнителя"
    case AwaitingPayment => "Ожидает оплаты"
    case Accepted => "Принята"
    case InProgress => "В работе"
    case Completed => "Выполнена"
    case Cancelled => "Отменена"
    case Submitted => "Отправлен на проверку"
    case ApprovedByAdmin => "Утверждено администратором"
    case NeedsRevision => "На доработке"
  }

  /** Reads a stored label back; None for text that is not one of the twelve. */
  function StatusOf(text: string): (r: Option<Status>)
    ensures r.Some? ==> Label(r.value) == text
  {
    if text == Label(Editing) then Some(Editing)
    else if text == Label(UnderReview) then Some(UnderReview)
    else if text == Label(AwaitingConfirmation) then Some(AwaitingConfirmation)
    else if text == Label(AwaitingExecutorConfirmation) then Some(AwaitingExecutorConfirmation)
    else if text == Label(AwaitingPayment) then Some(AwaitingPayment)
    else if text == Label(Accepted) then Some(Accepted)
    else if text == Label(InProgress) then Some(InProgress)
    else if text == Label(Completed) then Some(Completed)
    else if text == Label(Cancelled) then Some(Cancelled)
    else if text == Label(Submitted) then Some(Submitted)
    else if text == Label(ApprovedByAdmin) then Some(ApprovedByAdmin)
    else if text == Label(NeedsRevision) then Some(NeedsRevision)
    else None
  }

  /** Every status survives being stored as its label and read back. */
  lemma LabelRoundTrip(s: Status)
    ensures StatusOf(Label(s)) == Some(s)
  {
    if s.Editing? || s.UnderReview? || s.AwaitingConfirmation? || s.AwaitingExecutorConfirmation? { LabelsReadBackA(s); }
    else if s.AwaitingPayment? || s.Accepted? || s.InProgress? { LabelsReadBackB(s); }
    else if s.Completed? || s.Cancelled? || s.Submitted? { LabelsReadBackC(s); }
    else { LabelsReadBackD(s); }
  }

  lemma LabelsReadBackA(s: Status)
    requires s.Editing? || s.UnderReview? || s.AwaitingConfirmation? || s.AwaitingExecutorConfirmation?
    ensures StatusOf(Label(s)) == Some(s)
  {
    match s
    case Editing =>
    case UnderReview =>
      assert |Label(UnderReview)| != |Label(Editing)|;
    case AwaitingConfirmation =>
      assert |Label(AwaitingConfirmation)| != |Label(Editing)|;
      assert |Label(AwaitingConfirmation)| != |Label(UnderReview)|;
    case AwaitingExecutorConfirmation =>
      assert |Label(AwaitingExecutorConfirmation)| != |Label(Editing)|;
      assert |Label(AwaitingExecutorConfirmation)| != |Label(UnderReview)|;
      assert |Label(AwaitingExecutorConfirmation)| != |Label(AwaitingConfirmation)|;
    case _ =>
  }

  lemma LabelsReadBackB(s: Status)
    requires s.AwaitingPayment? || s.Accepted? || s.InProgress?
    ensures StatusOf(Label(s)) == Some(s)
  {
    match s
    case AwaitingPayment =>
      assert |Label(AwaitingPayment)| != |Label(Editing)|;
      assert |Label(AwaitingPayment)| != |Label(UnderReview)|;
      assert |Label(AwaitingPayment)| != |Label(AwaitingConfirmation)|;
      assert |Label(AwaitingPayment)| != |Label(AwaitingExecutorConfirmation)|;
    case Accepted =>
      assert |Label(Accepted)| != |Label(Editing)|;
      assert |Label(Accepted)| != |Label(UnderReview)|;
      assert |Label(Accepted)| != |Label(AwaitingConfirmation)|;
      assert |Label(Accepted)| != |Label(AwaitingExecutorConfirmation)|;
      assert |Label(Accepted)| != |Label(AwaitingPayment)|;
    case InProgress =>
      assert |Label(InProgress)| != |Label(Editing)|;
      assert |Label(InProgress)| != |Label(UnderReview)|;
      assert |Label(InProgress)| != |Label(AwaitingConfirmation)|;
      assert |Label(InProgress)| != |Label(AwaitingExecutorConfirmation)|;
      assert |Label(InProgress)| != |Label(AwaitingPayment)|;
      assert |Label(InProgress)| != |Label(Accepted)|;
    case _ =>
  }

  lemma LabelsReadBackC(s: Status)
    requires s.Completed? || s.Cancelled? || s.Submitted?
    ensures StatusOf(Label(s)) == Some(s)
  {
    match s
    case Completed =>
      assert |Label(Completed)| != |Label(Editing)|;
      assert |Label(Completed)| != |Label(UnderReview)|;
      assert |Label(Completed)| != |Label(AwaitingConfirmation)|;
      assert |Label(Completed)| != |Label(AwaitingExecutorConfirmation)|;
      assert |Label(Completed)| != |Label(AwaitingPayment)|;
      assert |Label(Completed)| != |Label(Accepted)|;
      assert |Label(Completed)| != |Label(InProgress)|;
    case Cancelled =>
      assert |Label(Cancelled)| != |Label(Editing)|;
      assert |Label(Cancelled)| != |Label(UnderReview)|;
      assert |Label(Cancelled)| != |Label(AwaitingConfirmation)|;
      assert |Label(Cancelled)| != |Label(AwaitingExecutorConfirmation)|;
      assert |Label(Cancelled)| != |Label(AwaitingPayment)|;
      assert |Label(Cancelled)| != |Label(Accepted)|;
      assert Label(Cancelled)[0] != Label(InProgress)[0];
      assert |Label(Cancelled)| != |Label(Completed)|;
    case Submitted =>
      assert |Label(Submitted)| != |Label(Editing)|;
      assert |Label(Submitted)| != |Label(UnderReview)|;
      assert Label(Submitted)[1] != Label(AwaitingConfirmation)[1];
      assert |Label(Submitted)| != |Label(AwaitingExecutorConfirmation)|;
      assert |Label(Submitted)| != |Label(AwaitingPayment)|;
      assert |Label(Submitted)| != |Label(Accepted)|;
      assert |Label(Submitted)| != |Label(InProgress)|;
      assert |Label(Submitted)| != |Label(Completed)|;
      assert |Label(Submitted)| != |Label(Cancelled)|;
    case _ =>
  }

  lemma LabelsReadBackD(s: Status)
    requires s.ApprovedByAdmin? || s.NeedsRevision?
    ensures StatusOf(Label(s)) == Some(s)
  {
    match s
    case ApprovedByAdmin =>
      assert |Label(ApprovedByAdmin)| != |Label(Editing)|;
      assert |Label(ApprovedByAdmin)| != |Label(UnderReview)|;
      assert |Label(ApprovedByAdmin)| != |Label(AwaitingConfirmation)|;
      assert |Label(ApprovedByAdmin)| != |Label(AwaitingExecutorConfirmation)|;
      assert |Label(ApprovedByAdmin)| != |Label(AwaitingPayment)|;
      assert |Label(ApprovedByAdmin)| != |Label(Accepted)|;
      assert |Label(ApprovedByAdmin)| != |Label(InProgress)|;
      assert |Label(ApprovedByAdmin)| != |Label(Completed)|;
      assert |Label(ApprovedByAdmin)| != |Label(Cancelled)|;
      assert |Label(ApprovedByAdmin)| != |Label(Submitted)|;
    case NeedsRevision =>
      assert |Label(NeedsRevision)| != |Label(Editing)|;
      assert |Label(NeedsRevision)| != |Label(UnderReview)|;
      assert |Label(NeedsRevision)| != |Label(AwaitingConfirmation)|;
      assert |Label(NeedsRevision)| != |Label(AwaitingExecutorConfirmation)|;
      assert |Label(NeedsRevision)| != |Label(AwaitingPayment)|;
      assert |Label(NeedsRevision)| != |Label(Accepted)|;
      assert |Label(NeedsRevision)| != |Label(InProgress)|;
      assert |Label(NeedsRevision)| != |Label(Completed)|;
      assert |Label(NeedsRevision)| != |Label(Cancelled)|;
      assert |Label(NeedsRevision)| != |Label(Submitted)|;
      assert |Label(NeedsRevision)| != |Label(ApprovedByAdmin)|;
    case _ =>
  }

  /** No two statuses share a stored label. */
  lemma LabelsDistinct(a: Status, b: Status)
    ensures Label(a) == Label(b) ==> a == b
  {
    LabelRoundTrip(a);
    LabelRoundTrip(b);
  }

  // ----- day counts -----

  /** The three Russian forms of "day". */
  datatype DayWord = Den | Dnya | Dney

  function DayWordText(w: DayWord): string {
    match w
    case Den => "день"
    case Dnya => "дня"
    case Dney => "дней"
  }

  /** The form the bot picks for a count, by its last two decimal digits. */
  function DayWordFor(n: int): DayWord {
    if 11 <= n % 100 <= 14 then Dney
    else if n % 10 == 1 then Den
    else if 2 <= n % 10 <= 4 then Dnya
    else Dney
  }

  /**
   * The usual statement of the Russian plural rule for whole numbers,
   * written independently of the bot's: "one" when the last digit is 1
   * except for 11; "few" for last digits 2 to 4 except 12 to 14; "many"
   * otherwise.
   */
  function RussianPlural(n: int): DayWord {
    var d := n % 10;
    var dd := n % 100;
    if d == 1 && dd != 11 then Den
    else if 2 <= d <= 4 && !(12 <= dd <= 14) then Dnya
    else Dney
  }

  /** The bot's branch order agrees with the plural rule for every count. */
  lemma DayWordIsRussianPlural(n: int)
    ensures DayWordFor(n) == RussianPlural(n)
  {
    assert n % 10 == (n % 100) % 10;
  }

  /** The form depends only on the count modulo 100. */
  lemma DayWordPeriodic(n: int, k: int)
    ensures DayWordFor(n + 100 * k) == DayWordFor(n)
  {
    assert (n + 100 * k) % 100 == n % 100;
    assert (n + 100 * k) % 10 == n % 10;
  }

  /** `str(n)` for any integer. */
  function IntText(n: int): (r: string)
    ensures |r| > 0 && NoSpace(r)
    ensures forall k | 0 <= k < |r| :: IsDigit(r[k]) || (k == 0 && r[k] == '-')
  {
    if n >= 0 then Decimal(n)
    else
      var d := Decimal(-n);
      assert forall i | 1 <= i < |d| + 1 :: ("-" + d)[i] == d[i - 1];
      "-" + d
  }

  /** `int(str(n)) == n` */
  lemma IntTextRoundTrip(n: int)
    ensures ParseInt(IntText(n)) == Some(n)
  {
    if n >= 0 {
      assert IntText(n) == Decimal(n);
      ParseIntDecimal(n);
    } else {
      var m: nat := -n;
      ParseIntMinusDecimal(m);
      var t := "-" + Decimal(m);
      assert ParseInt(t) == Some(n);
      assert IntText(n) == t;
    }
  }

  /** What `pluralize_days` receives: a number, a string, or None. */
  datatype DayArg = Number(n: int) | Str(s: string) | Null

  /** `int(arg)`, None where Python raises ValueError or TypeError. */
  function DayArgValue(a: DayArg): Option<int> {
    match a
    case Number(n) => Some(n)
    case Str(s) => ParseInt(s)
    case Null => None
  }

  /** `str(arg)` */
  function DayArgText(a: DayArg): string {
    match a
    case Number(n) => IntText(n)
    case Str(s) => s
    case Null => "None"
  }

  /** "<n> <day word>", or the argument's own text when it is not a whole number. */
  function Pluralize(a: DayArg): (r: string)
    ensures DayArgValue(a).None? ==> r == DayArgText(a)
    ensures DayArgValue(a).Some? ==>
              var n := DayArgValue(a).value;
              exists w: DayWord :: r == IntText(n) + " " + DayWordText(w) && w == RussianPlural(n)
  {
    match DayArgValue(a)
    case None => DayArgText(a)
    case Some(n) =>
      var w := DayWordFor(n);
      DayWordIsRussianPlural(n);
      IntText(n) + " " + DayWordText(w)
  }

  /** A text made of `d` and then a space starts with the token `d`. */
  lemma WordBeforeSpace(d: string, rest: string)
    requires |d| > 0 && NoSpace(d) && |rest| > 0 && IsSpace(rest[0])
    ensures FirstToken(d + rest) == Some(d)
  {
    var p := d + rest;
    assert SkipSpace(p, 0) == 0 by { assert p[0] == d[0]; }
    WordEndOfPrefix(d, rest, 0);
    assert p[0..|d|] == d;
  }

  lemma {:induction false} WordEndOfPrefix(d: string, rest: string, i: nat)
    requires i <= |d| && NoSpace(d) && |rest| > 0 && IsSpace(rest[0])
    ensures WordEnd(d + rest, i) == |d|
    decreases |d| - i
  {
    var p := d + rest;
    if i < |d| {
      assert p[i] == d[i];
      WordEndOfPrefix(d, rest, i + 1);
    } else {
      assert p[i] == rest[0];
    }
  }

  /** The phrase starts with the count itself: `int(phrase.split()[0]) == n`. */
  lemma PluralizeCountRoundTrip(n: int)
    ensures FirstToken(Pluralize(Number(n))).Some?
    ensures ParseInt(FirstToken(Pluralize(Number(n))).value) == Some(n)
  {
    var d := IntText(n);
    var rest := " " + DayWordText(DayWordFor(n));
    assert Pluralize(Number(n)) == d + rest;
    IntTextRoundTrip(n);
    WordBeforeSpace(d, rest);
  }

  // ----- display names -----

  /** A name attribute: missing, present but None, or a string. */
  datatype NameField = Missing | NoneValue | Given(text: string)

  /** The placeholder shown when a user has no name at all. */
  const NoName: string := "Без имени"

  /** How an f-string renders the field: missing reads as '', None as "None". */
  function Rendered(f: NameField): string {
    match f
    case Missing => ""
    case NoneValue => "None"
    case Given(t) => t
  }

  /** The field read as the text the display name is meant to use. */
  function NamePart(f: NameField): string {
    match f
    case Given(t) => t
    case _ => ""
  }

  /**
   * `get_full_name` as written: a `last_name` of None (a Telegram user
   * without a surname) is rendered as the word "None".
   */
  function FullNameAsWritten(first: NameField, last: NameField): (r: string)
    ensures r != [] && IsTrimmed(r)
  {
    var full := Strip(Rendered(first) + " " + Rendered(last));
    if full == [] then NoName else full
  }

  /** A user without a surname gets " None" appended to their first name. */
  lemma FullNameAsWrittenShowsNone(first: string)
    requires first != [] && IsTrimmed(first)
    ensures FullNameAsWritten(Given(first), NoneValue) == first + " None"
  {
    var s := first + " " + "None";
    assert s == first + " None";
    assert s[0] == first[0] && s[|s| - 1] == 'e';
    StripTrimmed(s);
  }

  /**
   * The display name: first and last name joined by a space and stripped,
   * a missing or None part counting as empty, and the placeholder when
   * nothing is left.
   */
  function FullName(first: NameField, last: NameField): (r: string)
    ensures r != [] && IsTrimmed(r)
    ensures Strip(NamePart(first) + " " + NamePart(last)) == [] ==> r == NoName
  {
    var full := Strip(NamePart(first) + " " + NamePart(last));
    if full == [] then NoName else full
  }

  /** With only a first name the display name is exactly that name. */
  lemma FullNameFirstOnly(first: string, last: NameField)
    requires first != [] && IsTrimmed(first) && !last.Given?
    ensures FullName(Given(first), last) == first
  {
    assert first + " " + "" == first + " ";
    StripSpaceAfter(first);
  }

  /** With both names present they are joined by one space. */
  lemma FullNameBoth(first: string, last: string)
    requires first != [] && IsTrimmed(first) && last != [] && IsTrimmed(last)
    ensures FullName(Given(first), Given(last)) == first + " " + last
  {
    var s := first + " " + last;
    assert s[0] == first[0] && s[|s| - 1] == last[|last| - 1];
    StripTrimmed(s);
  }

  /** The two definitions differ exactly on a None part; on strings they agree. */
  lemma FullNameAgreesWithoutNone(first: NameField, last: NameField)
    requires !first.NoneValue? && !last.NoneValue?
    ensures FullName(first, last) == FullNameAsWritten(first, last)
  {
  }
}

=== FILE: text.dfy ===
/**
 * The option type and the small pieces of Python string behaviour the bot
 * relies on: `str.isdigit`, `str(n)`, `int(s)`, `str.strip`, `str.lower` and
 * `str.split()`. Characters are Unicode code points; digits are the ASCII
 * ones, whitespace is what Python counts as whitespace, and lower-casing
 * covers ASCII and Cyrillic letters.
 */
module Text {

  datatype Option<+T> = None | Some(value: T)

  predicate IsDigit(c: char) { '0' <= c <= '9' }

  predicate AllDigits(s: string) {
    forall i | 0 <= i < |s| :: IsDigit(s[i])
  }

  /** `s.isdigit()`: non-empty and made of decimal digits only. */
  predicate IsDigits(s: string) {
    |s| > 0 && AllDigits(s)
  }

  function DigitValue(c: char): (d: nat)
    requires IsDigit(c)
    ensures d < 10
  {
    (c as int) - ('0' as int)
  }

  function DigitChar(d: nat): (c: char)
    requires d < 10
    ensures IsDigit(c) && DigitValue(c) == d
  {
    (('0' as int) + d) as char
  }

  /** The number a digit string denotes, most significant digit first. */
  function DigitsValue(s: string): nat
    requires AllDigits(s)
    decreases |s|
  {
    if |s| == 0 then 0 else 10 * DigitsValue(s[..|s| - 1]) + DigitValue(s[|s| - 1])
  }

  /** `str(n)` for a natural number: its decimal digits without leading zeros. */
  function Decimal(n: nat): (r: string)
    ensures IsDigits(r)
    ensures |r| > 1 ==> r[0] != '0'
    decreases n
  {
    if n < 10 then [DigitChar(n)] else Decimal(n / 10) + [DigitChar(n % 10)]
  }

  /** Reading back the digits `str` writes gives the number again. */
  lemma {:induction false} DecimalRoundTrip(n: nat)
    ensures DigitsValue(Decimal(n)) == n
    decreases n
  {
    var r := Decimal(n);
    assert r[..|r| - 1] == (if n < 10 then [] else Decimal(n / 10));
    if n >= 10 {
      DecimalRoundTrip(n / 10);
    }
  }

  /**
   * Whitespace as `str.split()` and `str.strip()` see it: the characters
   * `str.isspace` accepts, ASCII and Unicode.
   */
  predicate IsSpace(c: char) {
    || c == ' ' || ('\t' <= c <= '\r') || ('\U{1C}' <= c <= '\U{1F}')
    || c == '\U{85}' || c == '\U{A0}' || c == '\U{1680}' || ('\U{2000}' <= c <= '\U{200A}')
    || c == '\U{2028}' || c == '\U{2029}' || c == '\U{202F}' || c == '\U{205F}' || c == '\U{3000}'
  }

  predicate NoSpace(s: string) {
    forall i | 0 <= i < |s| :: !IsSpace(s[i])
  }

  /** Text with no whitespace at either end, as `strip()` leaves it. */
  predicate IsTrimmed(s: string) {
    |s| > 0 ==> !IsSpace(s[0]) && !IsSpace(s[|s| - 1])
  }

  /** The index of the first non-whitespace character at or after `i`, or |s|. */
  function SkipSpace(s: string, i: nat): (r: nat)
    requires i <= |s|
    ensures i <= r <= |s|
    ensures forall j | i <= j < r :: IsSpace(s[j])
    ensures r < |s| ==> !IsSpace(s[r])
    decreases |s| - i
  {
    if i < |s| && IsSpace(s[i]) then SkipSpace(s, i + 1) else i
  }

  /** The end of `s[lo..e]` once trailing whitespace is dropped. */
  function DropTrailing(s: string, lo: nat, e: nat): (r: nat)
    requires lo <= e <= |s|
    ensures lo <= r <= e
    ensures forall j | r <= j < e :: IsSpace(s[j])
    ensures r > lo ==> !IsSpace(s[r - 1])
    decreases e
  {
    if e > lo && IsSpace(s[e - 1]) then DropTrailing(s, lo, e - 1) else e
  }

  /** `r` is the slice of `s` starting at `k` and only whitespace surrounds it. */
  predicate SurroundedBySpace(s: string, r: string, k: int) {
    && 0 <= k <= |s| - |r|
    && r == s[k..k + |r|]
    && (forall i | 0 <= i < k :: IsSpace(s[i]))
    && (forall i | k + |r| <= i < |s| :: IsSpace(s[i]))
  }

  /** `s.strip()`: the longest middle slice with no whitespace at its ends. */
  function Strip(s: string): (r: string)
    ensures IsTrimmed(r)
    ensures exists k :: SurroundedBySpace(s, r, k)
  {
    var lo := SkipSpace(s, 0);
    var e := DropTrailing(s, lo, |s|);
    assert SurroundedBySpace(s, s[lo..e], lo);
    s[lo..e]
  }

  lemma StripTrimmed(s: string)
    requires IsTrimmed(s)
    ensures Strip(s) == s
  {
  }

  /** One trailing space is dropped from trimmed text. */
  lemma StripSpaceAfter(t: string)
    requires t != [] && IsTrimmed(t)
    ensures Strip(t + " ") == t
  {
    var s := t + " ";
    assert SkipSpace(s, 0) == 0 by { assert s[0] == t[0]; }
    assert DropTrailing(s, 0, |s|) == |t| by {
      assert s[|s| - 1] == ' ' && s[|t| - 1] == t[|t| - 1];
    }
    assert s[0..|t|] == t;
  }

  lemma StripKeepsDigits(s: string)
    ensures IsDigits(s) ==> Strip(s) == s
  {
    if IsDigits(s) {
      StripTrimmed(s);
    }
  }

  lemma StripAllSpace(s: string)
    requires forall i | 0 <= i < |s| :: IsSpace(s[i])
    ensures Strip(s) == []
  {
  }

  function LowerChar(c: char): char {
    if 'A' <= c <= 'Z' || '\U{410}' <= c <= '\U{42F}' then (c as int + 32) as char
    else if '\U{400}' <= c <= '\U{40F}' then (c as int + 80) as char
    else c
  }

  /** `s.lower()` for ASCII and Cyrillic letters; other characters are kept. */
  function Lower(s: string): (r: string)
    ensures |r| == |s|
    ensures forall i | 0 <= i < |s| :: r[i] == LowerChar(s[i])
  {
    if |s| == 0 then [] else [LowerChar(s[0])] + Lower(s[1..])
  }

  /**
   * `s.split(sep)[-1]`, and for '/' the base name of a POSIX path: the
   * part after the last `sep`, all of `s` when it has none.
   */
  function AfterLast(s: string, sep: char): (r: string)
    ensures |r| <= |s| && r == s[|s| - |r|..]
    ensures forall k | 0 <= k < |r| :: r[k] != sep
    ensures |r| < |s| ==> s[|s| - |r| - 1] == sep
  {
    if |s| == 0 || s[|s| - 1] == sep then []
    else AfterLast(s[..|s| - 1], sep) + [s[|s| - 1]]
  }

  /** Text without `sep` appended to `p` extends its last part. */
  lemma {:induction false} AfterLastOfSuffix(p: string, t: string, sep: char)
    requires forall k | 0 <= k < |t| :: t[k] != sep
    ensures AfterLast(p + t, sep) == AfterLast(p, sep) + t
    decreases |t|
  {
    if |t| > 0 {
      var t' := t[..|t| - 1];
      var c := t[|t| - 1];
      assert t == t' + [c];
      assert p + t == (p + t') + [c];
      AfterLastOfSuffix(p, t', sep);
      assert (p + t)[..|p + t| - 1] == p + t';
    } else {
      assert p + t == p;
    }
  }

  /** A text ending in `sep` followed by text without it: the last part is that text. */
  lemma AfterLastOfSeparated(prefix: string, t: string, sep: char)
    requires |prefix| > 0 && prefix[|prefix| - 1] == sep
    requires forall k | 0 <= k < |t| :: t[k] != sep
    ensures AfterLast(prefix + t, sep) == t
  {
    AfterLastOfSuffix(prefix, t, sep);
  }

  /** The index where the run of non-whitespace starting at `i` ends. */
  function WordEnd(s: string, i: nat): (r: nat)
    requires i <= |s|
    ensures i <= r <= |s|
    ensures forall j | i <= j < r :: !IsSpace(s[j])
    ensures r < |s| ==> IsSpace(s[r])
    decreases |s| - i
  {
    if i < |s| && !IsSpace(s[i]) then WordEnd(s, i + 1) else i
  }

  /** `w` is a whitespace-delimited token of `s` starting at `k`, after blanks only. */
  predicate LeadingToken(s: string, w: string, k: int) {
    && 0 <= k <= |s| - |w|
    && w == s[k..k + |w|]
    && (forall i | 0 <= i < k :: IsSpace(s[i]))
    && (k + |w| < |s| ==> IsSpace(s[k + |w|]))
  }

  /**
   * `s.split()[0]`: the first whitespace-separated token, or None where
   * Python raises IndexError because the text is blank.
   */
  function FirstToken(s: string): (r: Option<string>)
    ensures r.None? <==> forall i | 0 <= i < |s| :: IsSpace(s[i])
    ensures r.Some? ==> |r.value| > 0 && NoSpace(r.value)
    ensures r.Some? ==> exists k :: LeadingToken(s, r.value, k)
  {
    var lo := SkipSpace(s, 0);
    if lo == |s| then None
    else
      var e := WordEnd(s, lo);
      assert LeadingToken(s, s[lo..e], lo);
      Some(s[lo..e])
  }

  /**
   * `int(s)` on a string: surrounding whitespace, an optional sign and at
   * least one digit. None is the ValueError.
   */
  function ParseInt(s: string): (r: Option<int>)
    ensures r.Some? ==> exists k | 0 <= k < |s| :: IsDigit(s[k])
    ensures IsDigits(s) ==> r == Some(DigitsValue(s) as int)
  {
    StripKeepsDigits(s);
    var t := Strip(s);
    if IsDigits(t) then Some(DigitsValue(t) as int)
    else if |t| > 1 && (t[0] == '+' || t[0] == '-') && IsDigits(t[1..]) then
      var v := DigitsValue(t[1..]) as int;
      assert IsDigit(t[1]);
      Some(if t[0] == '-' then -v else v)
    else None
  }

  /** `int(str(n)) == n` */
  lemma ParseIntDecimal(n: nat)
    ensures ParseInt(Decimal(n)) == Some(n as int)
  {
    DecimalRoundTrip(n);
  }

  /** `int("-" + str(n)) == -n` */
  lemma ParseIntMinusDecimal(n: nat)
    ensures ParseInt("-" + Decimal(n)) == Some(-(n as int))
  {
    DecimalRoundTrip(n);
    ParseIntNegative(Decimal(n), n);
  }

  /** A minus sign before digits reads as the negated number. */
  lemma ParseIntNegative(d: string, v: nat)
    requires IsDigits(d) && DigitsValue(d) == v
    ensures ParseInt("-" + d) == Some(-(v as int))
  {
    var m := "-" + d;
    assert m[1..] == d;
    assert !IsSpace(m[|m| - 1]) by { assert m[|m| - 1] == d[|d| - 1]; }
    StripTrimmed(m);
    assert !IsDigits(m) by { assert !IsDigit(m[0]); }
  }
}
